=== FILE: README.md ===
# A Dafny model of a group-trip planner's core

The system plans group trips. Its users propose places and food, and the
trip's members approve or reject them by majority vote. It records shared
expenses and direct payments, and suggests the transfers that settle them.
Access is by invitation only: an ACTIVE user invites an email address, and a
Google sign-in for that address is admitted while the invitation is live.

This project models the logic of that core as pure functions over immutable
data, and proves what the code promises. The parts are:

- **Settlement engine** (`ledger.dfy`, `balance_sort.dfy`, `settlement.dfy`).
  `calculateSettlement` collects the currencies in use. Per currency it
  builds a ledger of balances, splits the ledger into creditors and debtors,
  sorts each side stably, and greedily matches the largest creditor with the
  largest debtor. Money is an exact `real`. `Math.round(x*100)/100` is
  `Floor(100x + 1/2)/100`. The greedy loop is a method with loop
  invariants, proved equal to a recursive reference definition.
- **Store** (`store.dfy`). The store is a record of tables, each a sequence of
  rows in store order, so a `findFirst` is the first matching row. This
  module also holds the majority threshold `floor(n/2)+1` and the approve/reject
  decision.
- **Voting** (`items_route.dfy`, `recalculate.dfy`, `item_list.dfy`).
  - Item creation, with its schema, its 30-second duplicate guard, the
    creator's implicit APPROVE vote and auto-approval.
  - The bulk re-evaluation of pending items.
  - The tally the item list derives, and the controls an item card shows.
- **Trips** (`trips_route.dfy`). Trip creation with the creator as the only
  REGISTERED ADMIN member, and the listing of a user's trips with their role.
- **Access gate**. The invitation route (`invitations_route.dfy`), the
  sign-in and token callbacks (`auth_callbacks.dfy`), the route guard with
  its path matcher (`middleware.dfy`) and the sign-in page's callback
  sanitiser (`signin_page.dfy`).
- **Helpers**. The date picker's calendar arithmetic, day grid, decade grid,
  `Y-MM-DD` keys, min/max disabling and view state machine (`calendar.dfy`,
  `date_picker.dfy`). The Maps link builder (`maps_url.dfy`). JavaScript
  string semantics the routes rely on: the exact `trim` whitespace set,
  lower-casing, string order by character, `split` and number printing
  (`text.dfy`, `common.dfy`).

Each route handler is one atomic transition on the store. It returns the
response and the store afterwards. The clock (`now`), the ids the database
assigns, the zod recognisers (`url`, `cuid`, `email`, `datetime`) and
`encodeURIComponent` are parameters.

The model follows the code in these cases:

- **Auto-approval at creation.** Item creation auto-approves when the trip
  has zero eligible participants, because `floor(0/2)+1 == 1`.
- **Re-evaluation threshold.** Re-evaluation uses one threshold from the
  global count of ACTIVE users, not a per-trip count of eligible
  participants.
- **Duplicate guard.** The guard compares against the creator's recent
  items in every trip, not only the target trip.

## Model

| member | source | states |
|---|---|---|
| Common.Distinct | src/lib/settlement.ts:65-68 | Spreading a `Set` keeps each element once: the result holds exactly the input's elements, with no repeats. |
| Common.DistinctKeepsFirstOccurrenceOrder | src/lib/settlement.ts:65-68 | Elements come out in the order of their first occurrence in the input. |
| Settlement.Currencies | src/lib/settlement.ts:65-68 | A currency is listed iff some expense or some payment uses it, and it is listed once. |
| Ledger.InitLedger | src/lib/settlement.ts:74-77 | The initial ledger has one entry per distinct participant id, in first-occurrence order. Every amount is zero, and each entry carries the name of the last participant with that id (a `Map.set` on an existing key keeps its position). |
| Ledger.InitLedgerStep | src/lib/settlement.ts:75-76 | Setting one more participant keeps the ledger in that shape for the longer participant list. |
| Ledger.Adjust | src/lib/settlement.ts:82-96 | Updating through `balanceMap.get` changes only the entry with that id. An unknown id changes nothing. The ids and names are kept. |
| Ledger.DebitSharesEntry | src/lib/settlement.ts:91-97 | After the share loop, each entry owes its old amount plus the shares naming it, and its balance drops by the same. Shares naming unknown ids are ignored. |
| Ledger.ApplyExpensesEntry | src/lib/settlement.ts:80-98 | After the expenses of one currency, each entry's `paid` grows by the amounts of the expenses it paid, `owes` by its shares, and the balance by the difference. |
| Ledger.ApplyPaymentsEntry | src/lib/settlement.ts:101-110 | Payments of the currency raise the payer's balance and lower the receiver's; `paid` and `owes` are untouched. |
| Ledger.LedgerForEntries | src/lib/settlement.ts:74-110 | Each entry of a currency's ledger has `balance = paid - owes + payments made - payments received`. Here `paid`, `owes` and the payments are independent sums over the inputs. |
| Ledger.DebitSharesTotal | src/lib/settlement.ts:91-97 | When every share names a known id, the share loop lowers the ledger total by the sum of the shares. |
| Ledger.ApplyExpensesTotal | src/lib/settlement.ts:80-98 | When every expense of the currency has a known payer and known shares summing to its amount, the expenses leave the ledger total unchanged. |
| Ledger.ApplyPaymentTotal | src/lib/settlement.ts:102-109 | A payment between known ids leaves the total unchanged. |
| Ledger.ApplyPaymentsTotal | src/lib/settlement.ts:101-110 | The payment loop leaves the total unchanged when every endpoint is known. |
| Ledger.Conservation | src/lib/settlement.ts:80-110 | With known payers, balanced shares and known payment endpoints, a currency's balances sum to zero. |
| Settlement.Creditors | src/lib/settlement.ts:116-119 | The creditors are exactly the ledger entries with balance above 0.005. |
| Settlement.Debtors | src/lib/settlement.ts:121-124 | The debtors are exactly the ledger entries with balance below -0.005. |
| Settlement.Above | src/lib/settlement.ts:117 | The filter keeps exactly the entries above 0.005. |
| Settlement.AboveAppend | src/lib/settlement.ts:117 | The filter keeps ledger order: one more ledger entry is appended to the creditors exactly when its balance is above 0.005. |
| Settlement.AboveWithBalance | src/lib/settlement.ts:117 | For a balance above 0.005, the creditors with that balance are the ledger's entries with it, in ledger order. |
| Settlement.Below | src/lib/settlement.ts:122 | The filter keeps exactly the entries below -0.005. |
| Settlement.BelowAppend | src/lib/settlement.ts:122 | The filter keeps ledger order: one more ledger entry is appended to the debtors exactly when its balance is below -0.005. |
| Settlement.BelowWithBalance | src/lib/settlement.ts:122 | For a balance below -0.005, the debtors with that balance are the ledger's entries with it, in ledger order. |
| Settlement.AboveBelowSize | src/lib/settlement.ts:116-124 | No entry is both a creditor and a debtor: together they are at most the ledger. |
| Settlement.CreditorsOrder | src/lib/settlement.ts:116-119 | Creditors are in descending balance order. For every creditor balance, the creditors with it are exactly the ledger's entries with it, in ledger order. |
| Settlement.DebtorsOrder | src/lib/settlement.ts:121-124 | Debtors are in ascending balance order (most negative first). For every debtor balance, the debtors with it are exactly the ledger's entries with it, in ledger order. |
| BalanceSort.Insert | src/lib/settlement.ts:119 | Insertion adds exactly the one element: the multiset grows by it. |
| BalanceSort.InsertSorted | src/lib/settlement.ts:119 | Inserting into a sorted list keeps it sorted by the comparator. |
| BalanceSort.Sort | src/lib/settlement.ts:119 | Sorting permutes its input: same multiset, same length. |
| BalanceSort.SortSorted | src/lib/settlement.ts:119 | The sorted list has no element that the comparator puts strictly before an earlier one. |
| BalanceSort.SortStable | src/lib/settlement.ts:119 | Stability: for every balance value, the sub-sequence of entries with that balance is the same before and after sorting. |
| BalanceSort.InsertStable | src/lib/settlement.ts:119 | Inserting places the new element after all entries of equal balance. |
| Settlement.RoundCents | src/lib/settlement.ts:139 | The result is a whole number of cents within half a cent of the value (above `x - 0.005`, at most `x + 0.005`), which is `Math.round(x*100)/100`. |
| Settlement.RoundCentsAtLeastOneCent | src/lib/settlement.ts:133-139 | An amount above 0.005 rounds to at least 0.01. |
| Settlement.GreedyUnfold | src/lib/settlement.ts:128-148 | One greedy step: the transfer of the head pair, followed by the matching of what remains after both sides are reduced and settled heads retired. |
| Settlement.CreditorCursorStep | src/lib/settlement.ts:144-147 | Lowering the current creditor and advancing `ci` past a creditor below 0.005 gives exactly the remaining creditors. |
| Settlement.DebtorCursorStep | src/lib/settlement.ts:145-148 | Raising the current debtor and advancing `di` past a debtor within 0.005 of zero gives exactly the remaining debtors. Debtors stay non-positive. |
| Settlement.MatchStep | src/lib/settlement.ts:129-148 | One pass of the loop body on the arrays and cursors emits the reference's next transfer and leaves the reference's remaining problem. |
| Settlement.MatchOnce | src/lib/settlement.ts:129-148 | The loop body as a method: it retires at least one creditor or debtor, and its emitted transfers followed by the reference on the rest equal the reference on the current state. |
| Settlement.MatchGreedy | src/lib/settlement.ts:126-149 | The two-cursor `while` loop terminates and emits exactly the transfers of the recursive reference `Greedy`. |
| Settlement.GreedyBound | src/lib/settlement.ts:128-148 | No transfers when either side is empty; otherwise at most `creditors + debtors - 1` transfers. |
| Settlement.GreedyTransfers | src/lib/settlement.ts:129-141 | Every transfer runs from a debtor of the list to a creditor of the list, carries the loop's currency and at least 0.01. |
| Settlement.LedgerTransfers | src/lib/settlement.ts:116-141 | Every transfer of a currency goes from a ledger entry with balance below -0.005 to one above 0.005, with at least one cent. When ledger ids are distinct, it also never goes from an id to itself. |
| Settlement.LedgersOf | src/lib/settlement.ts:112-113 | The balances map has exactly the currencies in use as keys, each mapped to that currency's ledger. |
| Settlement.OfCurrency | src/lib/settlement.ts:134-141 | Selecting one currency's transfers keeps exactly the transfers in that currency. |
| Settlement.SettleEachOfCurrency | src/lib/settlement.ts:72-150 | The transfers of one currency in the combined list are that currency's greedy transfers, or none when it is not in use. |
| Settlement.SettleShape | src/lib/settlement.ts:65-156 | For the whole result: every transfer's currency is listed, the amount is at least 0.01, payer and payee differ, and the payer is a debtor and the payee a creditor of that currency's reported balances. |
| Settlement.SettleCount | src/lib/settlement.ts:126-149 | Per currency: no transfers when a side is empty, at most `creditors + debtors - 1`, and fewer than the number of distinct participants. |
| Settlement.CalculateSettlement | src/lib/settlement.ts:55-157 | The loop over currencies builds exactly the reference result: the balances map, the concatenated transfers and the currency list. |
| Settlement.EqualSplitLedger | src/lib/settlement.ts:74-110 | Example: A pays 300 split equally among A, B and C. The balances are A +200, B -100, C -100. |
| Settlement.ExampleGreedy | src/lib/settlement.ts:126-149 | Example: creditor A +200 against debtors B -100 and C -100 gives B to A 100, then C to A 100. |
| Settlement.EqualSplit | src/lib/settlement.ts:55-157 | Example, end to end for any three distinct participants: the transfers are [B to A 100, C to A 100] in CLP. |
| Settlement.EqualSplitExample | src/lib/settlement.ts:55-157 | The same example with concrete ids and names. |
| Store.ActiveSessionUser | src/app/api/items/route.ts:9-13 | A session is accepted iff it has a truthy id and the status `"ACTIVE"`; the id returned is the session's. |
| Store.StatusText | src/auth.ts:22-25 | The token's status text is `"ACTIVE"` exactly for an ACTIVE user. |
| Store.UserById | src/app/api/trips/route.ts:104-107 | A found user is stored with that id; none is found iff no stored user has it. |
| Store.UserByEmail | src/auth.ts:33-36 | A found user is stored with that email; none is found iff no stored user has it. |
| Store.TripById | src/app/api/trips/route.ts:34-56 | A found trip is stored with that id; none is found iff no stored trip has it. |
| Store.Threshold | src/lib/recalculate.ts:17-18 | `floor(n/2)+1` is the smallest strict majority of `n`: at least 1, more than half, and equal to 1 iff `n <= 1`. |
| Store.CountVotes | src/lib/recalculate.ts:37-41 | The tally counts every vote on the item with the value, whoever cast it; it is zero iff no such vote exists. |
| Store.CountVotesAppend | src/lib/recalculate.ts:37-41 | One more vote raises exactly the matching tally by one. |
| Store.Decide | src/lib/recalculate.ts:57-60 | APPROVED iff approvals reach the threshold; REJECTED iff they do not and rejections do; otherwise PENDING. The three cases are exclusive. |
| Store.ActiveUserCount | src/lib/recalculate.ts:17 | The count of ACTIVE users, zero iff no user is ACTIVE. |
| Store.ActiveUserCountAppend | src/lib/recalculate.ts:17 | One more user raises the count by one exactly when that user is ACTIVE. |
| Store.EligibleCount | src/app/api/items/route.ts:149-151 | The per-trip electorate: zero iff no participant of the trip is REGISTERED with an existing ACTIVE user. |
| Store.EligibleCountAppend | src/app/api/items/route.ts:149-151 | Adding a participant raises the count by one exactly when that participant is eligible. |
| Recalculate.UpdateMany | src/lib/recalculate.ts:64-77 | The guarded bulk update: exactly the PENDING items with a listed id take the new status, every other item is unchanged, and the count is the number of rows that changed. |
| Recalculate.PendingIds | src/lib/recalculate.ts:27-32 | The ids considered are exactly those of the PENDING items. |
| Recalculate.ToApprove | src/lib/recalculate.ts:57-58 | An id is to be approved iff its item is pending and its approvals reach the threshold. |
| Recalculate.ToReject | src/lib/recalculate.ts:59 | An id is to be rejected iff its item is pending, its approvals are below the threshold and its rejections reach it. |
| Recalculate.NewStatus | src/lib/recalculate.ts:57-78 | A decided item keeps its status; a pending one takes the majority decision for its tally. |
| Recalculate.ApproveStepEffect | src/lib/recalculate.ts:64-70 | The first update approves exactly the pending items whose approvals reach the threshold. |
| Recalculate.RejectStepEffect | src/lib/recalculate.ts:72-78 | The second update rejects exactly the still-pending items below the approval threshold whose rejections reach it. |
| Recalculate.ApplyDecisionsEffect | src/lib/recalculate.ts:57-78 | After both updates, each item holds its decision, and the returned count is the number of items that changed. |
| Recalculate.Recalculate | src/lib/recalculate.ts:14-89 | Only the items table can change, and it keeps its length. |
| Recalculate.RecalculateNoActiveUsers | src/lib/recalculate.ts:21-24 | With no ACTIVE user the result is 0 and the store is unchanged. |
| Recalculate.RecalculateItems | src/lib/recalculate.ts:27-78 | Every item keeps all fields but its status. A pending item takes the decision for its tally against the global majority, and every other item is untouched. |
| Recalculate.RecalculateCount | src/lib/recalculate.ts:62-88 | The result equals the number of items whose status changed, which is at most the number of pending items. |
| Recalculate.RecalculateIdempotent | src/lib/recalculate.ts:14-89 | Running the re-evaluation a second time changes nothing and returns 0. |
| ItemList.ItemVotes | src/components/item-list.tsx:181-183 | The votes listed for an item are exactly the store's votes on that item. |
| ItemList.MyVote | src/components/item-list.tsx:202-206 | The viewer's vote is the value of their first vote, or absent exactly when they have not voted. |
| ItemList.List | src/components/item-list.tsx:196-225 | One summary per item, in store order. Each has `required >= 1`, and is marked as the viewer's own iff the viewer created it. |
| ItemList.TallySum | src/components/item-list.tsx:200-201 | Approvals plus rejections equal the number of votes. |
| ItemList.ListCountsAgree | src/components/item-list.tsx:200-201 | The list's per-item count of a value agrees with the re-evaluation's tally of the same value. |
| ItemList.ListTally | src/components/item-list.tsx:193-206 | Each summary has the item's approvals and rejections, their sum is its vote count, `required` is the global majority, and `myVote` is the viewer's first vote. |
| ItemList.PendingBelowRequired | src/components/item-list.tsx:193-201 | After a re-evaluation, an item shown as pending has both tallies below `required`. |
| ItemList.CardControls | src/components/item-list.tsx:96-152 | The tally line shows iff the item is not PENDING, and check-in iff it is APPROVED. Vote buttons show iff it is PENDING and not the viewer's; the owner's notice shows iff it is PENDING and the viewer's. |
| ItemList.DecidedCardsShowTally | src/components/item-list.tsx:96-152 | After a re-evaluation, a card whose approvals or rejections reach `required` shows the tally and no voting area. |
| Text.TrimOpt | src/app/api/items/route.ts:21-22 | An optional text field stays absent when omitted and is trimmed when sent. |
| ItemsRoute.FirstFailure | src/app/api/items/route.ts:17-37 | No field fails iff the body passes the schema. Otherwise the field reported fails, and every field before it in schema order passes. |
| ItemsRoute.Validate | src/app/api/items/route.ts:88-96 | A valid body gives a trimmed title of 1 to 255 characters, trimmed description and location, the type and the trip id as sent, and the external URL as `ExternalUrlOf` keeps it. An invalid one reports the first failing field. |
| ItemsRoute.ExternalUrlOf | src/app/api/items/route.ts:23-28 | The trimmed URL is kept iff it was sent, is non-empty and is a URL; otherwise null is stored. |
| ItemsRoute.StatusCode | src/app/api/items/route.ts:75-176 | 201 exactly for a created item, 400 exactly for bad JSON or a failed schema, 401 exactly without an active session, 409 exactly for a duplicate and 500 exactly for a missing trip or creator. |
| ItemsRoute.CreateItem | src/app/api/items/route.ts:75-176 | 401 without an active session, then 400 for bad JSON or the first schema failure. A valid body gets 409 iff the creator has any recent duplicate. Without one it gets 500 iff the trip or the creator is missing, and it is created otherwise. Nothing changes unless an item is created. A created item is stored together with one APPROVE vote by its creator. It is APPROVED iff the trip has at most one eligible participant, and PENDING otherwise. It stores the sent kind (PLACE or FOOD), the trimmed description and location, the kept external URL and the image URL as sent. |
| ItemsRoute.CreatedItemVotes | src/app/api/items/route.ts:142-145 | A new item has exactly one APPROVE vote and no REJECT vote. |
| ItemsRoute.DoubleSubmitRejected | src/app/api/items/route.ts:101-121 | Resubmitting the same body within 30 seconds gets 409 and changes nothing. |
| TripsRoute.StoredDate | src/app/api/trips/route.ts:95-96 | An empty or missing date is stored as null; any other is kept. |
| TripsRoute.CreatorName | src/app/api/trips/route.ts:103-112 | The member's name falls back from the user's name, to the email, to the user id. |
| TripsRoute.CreateTrip | src/app/api/trips/route.ts:63-124 | 401 without an active session, then 400 for bad JSON or the first failing field in schema order. With every field passing, a missing creator gets 500, and otherwise a trip is created. It has the trimmed name of 1 to 255 characters, the trimmed description and destination when sent, the sent currency or CLP when none is sent, and the stored dates, and the store gains exactly the trip and one member. Nothing changes otherwise. |
| TripsRoute.NewTripMembers | src/app/api/trips/route.ts:108-116 | A new trip has exactly one member: the creator, REGISTERED, ADMIN. Its electorate is 1 when the creator is ACTIVE. |
| TripsRoute.MyTripsSound | src/app/api/trips/route.ts:34-56 | Every listed trip is a stored trip, listed for one of the user's memberships, with that membership's role. |
| TripsRoute.MyTripsComplete | src/app/api/trips/route.ts:34-56 | Every membership of the user in a stored trip is listed with its role. |
| TripsRoute.FirstFailure | src/app/api/trips/route.ts:15-24 | No field fails iff the body passes the schema. Otherwise the field reported fails, and every field before it in schema order passes. |
| TripsRoute.ListedTripsExact | src/app/api/trips/route.ts:34-56 | The listing built from the user's participant rows holds exactly the user's memberships in stored trips, each with its role. |
| TripsRoute.ListTrips | src/app/api/trips/route.ts:28-32 | The listing is refused iff the session is not an active one. Otherwise it holds exactly the stored trips the user is a participant of, each with that participant's role. |
| InvitationsRoute.NormalEmail | src/app/api/invitations/route.ts:8-11 | The normal form has no surrounding whitespace and no upper-case ASCII letter. |
| InvitationsRoute.NormalEmailIdempotent | src/app/api/invitations/route.ts:8-11 | Normalising twice is normalising once. |
| InvitationsRoute.CheckEmail | src/app/api/invitations/route.ts:7-14 | The schema's first issue is: missing; else failing the email check after normalising; else longer than 254. A passing address is the normal form. |
| InvitationsRoute.ActiveInvitation | src/app/api/invitations/route.ts:68-74 | A found invitation is stored, PENDING, for that email and unexpired; none is found iff no stored invitation is. |
| InvitationsRoute.StatusCode | src/app/api/invitations/route.ts:16-113 | Each response maps to its status: 201, 400, 401, 403, 409, or 500 when the inviter's row is missing. |
| InvitationsRoute.CreateInvitation | src/app/api/invitations/route.ts:16-113 | The guards run in source order and the first failure decides: 401, 403, 400 for JSON or email, 400 self-invite, 409 already active, 409 already invited, then 500 for a missing inviter. Each outcome holds iff every earlier guard passes and its own fails. Otherwise exactly one PENDING invitation is added, expiring 7 days later. Nothing changes on a failure. |
| InvitationsRoute.RepeatedInvitationRefused | src/app/api/invitations/route.ts:68-81 | Repeating a successful invitation before it expires gets 409 and changes nothing. |
| InvitationsRoute.CreatedEmailIsNormal | src/app/api/invitations/route.ts:84-91 | An invitation is only created for a normal, valid address of at most 254 characters. |
| AuthCallbacks.ActivateByEmail | src/auth.ts:75-83 | The upsert's update sets that email's user ACTIVE; every other user is untouched, and ids and emails are kept. |
| AuthCallbacks.ActivateByEmailEffect | src/auth.ts:75-83 | After the update, the email's user is the same user, now ACTIVE. |
| AuthCallbacks.SignIn | src/auth.ts:29-96 | Admitted iff the provider is Google, the email is truthy, and either the user is ACTIVE, the user table is empty, or a live invitation exists. A refusal changes nothing, and so does a returning ACTIVE user. The bootstrap creates the single ACTIVE user. In the invitation branch the user table changes exactly by activating or appending the email's user, and the invitation table exactly by accepting the live invitation for that user. |
| AuthCallbacks.SignInGrantsAccess | src/auth.ts:38-95 | After an admitted sign-in there is an ACTIVE user with that email, and an invitation used for it is ACCEPTED by that user. |
| AuthCallbacks.AcceptInvitation | src/auth.ts:86-92 | Accepting keeps the table's length. Exactly the row with the invitation's id becomes ACCEPTED by the user, and every other row is unchanged. |
| AuthCallbacks.InvitationSignIn | src/auth.ts:63-95 | In the invitation branch the email's user is ACTIVE afterwards, whether it was created or updated, and the invitation is ACCEPTED by that user. |
| AuthCallbacks.InvitationAdmits | src/auth.ts:63-71 | An invitation just created admits a Google sign-in for its address until it expires. |
| AuthCallbacks.Jwt | src/auth.ts:16-28 | The token changes only when an account and a truthy email are present and the user exists; then it takes that user's id and the text of that user's status. |
| AuthCallbacks.AdmittedPassesGuard | src/auth.ts:16-96 | Whoever the sign-in admits gets a token that the route guard lets through. |
| Middleware.Guard | src/middleware.ts:9-23 | No session goes to sign-in; a non-ACTIVE session goes to the access-denied page; an ACTIVE one passes. The missing-session check comes first. |
| Middleware.ActiveSessionPasses | src/middleware.ts:12-22 | Every session the API routes accept passes the guard. The converse fails for a session without an id. |
| Middleware.Matches | src/middleware.ts:27 | A path is guarded iff it starts with `/`, the rest does not start with an excluded alternative, and no line terminator follows. |
| Middleware.LiteralPrefix | src/middleware.ts:27 | An alternative without `.` matches exactly as a literal prefix. |
| Middleware.RedirectTargetsUnguarded | src/middleware.ts:12-27 | Neither redirect target is guarded, so the guard cannot loop. |
| Middleware.PagesGuarded | src/middleware.ts:27 | The home page and the dashboard are guarded. |
| Middleware.ExclusionIsByPrefix | src/middleware.ts:27 | The exclusion is by prefix, with `.` as a wildcard: `/authors` and `/favicon_ico` are also unguarded. |
| SignInPage.SafeCallbackUrl | src/app/auth/signin/page.tsx:17-18 | The result always starts with `/`. An address starting with `/` is kept and anything else becomes `/dashboard`. |
| SignInPage.SafeCallbackUrlIdempotent | src/app/auth/signin/page.tsx:18 | Sanitising a sanitised address changes nothing. |
| SignInPage.ProtocolRelativeKept | src/app/auth/signin/page.tsx:17-18 | `//evil.example` is kept: only the first character is checked. |
| SignInPage.SignInPageOutcome | src/app/auth/signin/page.tsx:11-18 | An ACTIVE session is redirected to the dashboard; otherwise the page shows with the sanitised callback address. |
| MapsUrl.GetMapsUrl | src/lib/maps-url.ts:1-6 | The link always starts with the search base and the encoded location. Without a truthy place id it is exactly that. With one, it is longer by exactly the place-id parameter and the id. |
| MapsUrl.PlaceIdReadBack | src/lib/maps-url.ts:2-3 | The place id can be read back unencoded from the end of the link, after the place-id parameter. |
| MapsUrl.UnpinnedIsStrictPrefix | src/lib/maps-url.ts:2-5 | For one location, the plain link is a prefix of the pinned one, strictly iff the place id is truthy. An empty place id pins nothing. |
| Calendar.PrevMonth | src/components/date-picker.tsx:94-97 | The previous month stays in 0..11 and is one month earlier. |
| Calendar.NextMonth | src/components/date-picker.tsx:99-102 | The next month stays in 0..11 and is one month later. |
| Calendar.PrevNextInverse | src/components/date-picker.tsx:94-102 | Going back a month and forward again, or forward and back, returns to the same year and month. |
| Calendar.ConstructorYear | src/components/date-picker.tsx:113-115 | `new Date(y, m, d)` reads a year in 0..99 as 1900 plus it; other years are taken as they are. |
| Calendar.DaysInMonth | src/components/date-picker.tsx:115 | Month lengths: February has 29 days iff the year is a Gregorian leap year, and April, June, September and November have 30. |
| Calendar.DayOfWeek | src/components/date-picker.tsx:113 | `getDay()` is a weekday 0..6, Sunday first. |
| Calendar.NextDayWeekday | src/components/date-picker.tsx:113-114 | The next day is one weekday later, modulo 7. |
| Calendar.DayWeekday | src/components/date-picker.tsx:113-121 | Day `d` falls `d - 1` weekdays after the first of the month. |
| Calendar.NextMonthWeekday | src/components/date-picker.tsx:113-115 | The first weekday of the next month is this month's first weekday plus its length, modulo 7. |
| Calendar.Anchor | src/components/date-picker.tsx:113-114 | 1 January 2000 is a Saturday. |
| Calendar.MondayIndex | src/components/date-picker.tsx:114 | `(getDay() + 6) % 7` gives a column 0..6 with Monday as 0. |
| Calendar.GridLength | src/components/date-picker.tsx:118-121 | The padded grid length is a multiple of 7, with fewer than 7 trailing blanks. |
| Calendar.StartOffset | src/components/date-picker.tsx:113-114 | The number of blanks before day 1 is below 7. |
| Calendar.BuildCells | src/components/date-picker.tsx:118-121 | The three loops build a grid of length a multiple of 7 that has day `d` at `offset + d - 1` and only days 1..`days`. |
| Calendar.CellsPositions | src/components/date-picker.tsx:118-121 | Each day of the month appears exactly once, at position `offset + d - 1`, and nothing else appears. |
| Calendar.DayGridColumns | src/components/date-picker.tsx:113-121 | In the month's grid, each day sits in the column of its weekday (Monday first) and appears exactly once. |
| Calendar.DayGridColumn | src/components/date-picker.tsx:113-121 | A day cell's column is its weekday with Monday first, and it holds a day of the month. |
| Calendar.DecadeStart | src/components/date-picker.tsx:110 | The decade start is a multiple of 10 and the view year lies in the ten years from it. |
| Calendar.DecadeUnique | src/components/date-picker.tsx:110 | That multiple of 10 is the only one with this property. |
| Calendar.YearGrid | src/components/date-picker.tsx:283-291 | The year grid shows 12 consecutive years from the decade start, including the view year. |
| Calendar.DecadeShift | src/components/date-picker.tsx:279-285 | Moving the view year by ten moves the decade start by ten. |
| DatePicker.CellKey | src/components/date-picker.tsx:193 | A day's key is the printed year, `-`, the month number and `-`, then the day, as two-digit fields that read back as the month and day. |
| DatePicker.FormatDisplay | src/components/date-picker.tsx:19-22 | A value with three digit parts and a month in 1..12 is shown as its day, " de ", the month's name, " de " and its year, printed without leading zeros. |
| DatePicker.IsDisabled | src/components/date-picker.tsx:196 | A day is disabled only under a set bound. The minimum and the maximum themselves are enabled unless the other bound excludes them. |
| DatePicker.TwoDigits | src/components/date-picker.tsx:193 | `padStart(2, "0")` of a number below 100 is two digits that read back as that number. |
| DatePicker.KeyParts | src/components/date-picker.tsx:19-22 | A day's key splits at `-` into the year, month and day, which read back as those numbers. |
| DatePicker.FormatKey | src/components/date-picker.tsx:19-22 | The text shown for a key is the day without leading zeros, the month's name and the year. |
| DatePicker.KeyOrder | src/components/date-picker.tsx:193-196 | Within one year, the string order of keys is the calendar order of the days. |
| DatePicker.DisabledOutsideRange | src/components/date-picker.tsx:196 | With both bounds in the viewed year, a day is disabled iff it is before the minimum or after the maximum. |
| DatePicker.Step | src/components/date-picker.tsx:76-299 | Each event keeps the month in range and a closed picker in the day view, and changes the view only along the buttons' edges. Only a day pick or "Limpiar" reports a value, which is never a disabled day. Reporting closes the picker in the day view and keeps the value only when uncontrolled. |
| DatePicker.MonthNavigationReturns | src/components/date-picker.tsx:94-179 | In the day view, the previous-month then next-month buttons return to the same state. |
| DatePicker.OutsideClickCloses | src/components/date-picker.tsx:75-79 | An outside click closes the open picker and resets it to the day view. |
| Text.Trim | src/app/api/items/route.ts:18 | A trimmed string is no longer than its input and neither starts nor ends with JavaScript whitespace. |
| Text.TrimContents | src/app/api/items/route.ts:18 | A trim is empty iff the input is all whitespace; otherwise it is the input after the leading whitespace, in order. |
| Text.TrimIdempotent | src/app/api/items/route.ts:18 | Trimming twice is trimming once. |
| Text.TrimLower | src/app/api/invitations/route.ts:10-11 | Trimming and lower-casing commute. |
| Text.Lower | src/app/api/invitations/route.ts:11 | Lower-casing keeps the length and maps each character on its own, changing only `A`..`Z`. |
| Text.LowerIdempotent | src/app/api/invitations/route.ts:11 | Lower-casing twice is lower-casing once. |
| Text.NatToString | src/components/date-picker.tsx:193 | A number prints as at least one digit, with no leading zero except for 0, and as one digit iff it is below 10. |
| Text.PadStart2 | src/components/date-picker.tsx:193 | Padding gives length 2 to shorter strings and leaves others unchanged. |
| Text.PaddedTwoDigits | src/components/date-picker.tsx:193 | A padded number below 100 is two digits that read back as the number. |
| Text.StrLessDigits | src/components/date-picker.tsx:196 | For equal-length digit strings, string order is numeric order. |
| Text.ParsePrint | src/components/date-picker.tsx:20 | Printing a number and reading it back gives the number. |
| Text.SplitFirst | src/components/date-picker.tsx:20 | `split` cuts at the first separator. |

## Left out

- **Vote casting.** Casting a vote under a row lock is a route that is not part of this model. It is not among the source files modelled, so nothing about per-item locking or the vote upsert is stated.
- **Concurrency and rollback.** Each handler and each `$transaction` is one atomic step. The bootstrap race in `src/auth.ts` (the `catch` at lines 56-59) cannot happen in that setting, so it is not modelled.
- **Foreign keys.** A failing foreign key is modelled as a 500 response with the store unchanged. This covers the trip and the creator of an item, the creator of a trip, and the inviter of an invitation.
- **Expense and payment creation.** Creating expenses and payments, including the equal split and its remainder, is not part of this model. Shares are inputs to the settlement, and "shares sum to the amount" is a precondition of Ledger.Conservation.
- **Floating point.** Money is exact `real`, and IEEE rounding error is not modelled.
- **Library internals.** The zod recognisers for URL, CUID, email and datetime, NextAuth's adapter and Prisma are parameters or abstract tables. A zod failure is modelled as the first failing field, not as its message text.
- **Characters.** Strings are sequences of Unicode scalar values, not UTF-16 code units. Lower-casing is ASCII only, with no Unicode case folding. `encodeURIComponent` is a parameter.
- ItemsRoute.Validate: the title (255), description (1000) and location (500) limits count a character outside the Basic Multilingual Plane once, where JavaScript counts two code units.
- TripsRoute.CreateTrip: the name (255), description (1000) and destination (500) limits count a character outside the Basic Multilingual Plane once, where JavaScript counts two code units.
- InvitationsRoute.CheckEmail: the 254 limit counts a character outside the Basic Multilingual Plane once, where JavaScript counts two code units.
- DatePicker.IsDisabled: string order compares Unicode scalar values, not UTF-16 code units. The two agree on the digit-and-dash keys compared here.
- **Ordering.** `createdAt` ordering of listings (`orderBy`) is not modelled. The model lists in store order.
- **Request bodies.** Request bodies are records of optional strings, so a JSON value of the wrong type is not represented.
- **The clock.** The clock, `toISOString`, `toLocaleDateString` and the picker's initial view taken from `new Date()` are parameters or left out.
- DatePicker.FormatDisplay: modelled only for values whose first three `-` parts are digit strings with a month in 1..12; other values are not modelled (`None`).
- DatePicker.FormatDisplay: each part is read as an exact natural number. JavaScript's `Number` rounds a part above 2^53 (16 or more digits can change) and prints values from 10^21 in exponent form, so the model agrees with the code only for parts of at most 15 digits.
- DatePicker.FormatKey: the year is printed exactly for every natural number. The code agrees only for years of at most 15 digits, for the same `Number` reason.
- Calendar.DayGrid: a full month grid is built for every year. JavaScript's `new Date(y, m, 1)` is an Invalid Date beyond about 275 760 years from 1970, where the code's `getDay()` and `getDate()` give NaN and its grid is empty.
- **Invitation fields.** The invitation's `token` and `createdAt` columns and the response's nested inviter record are not modelled.
- **Rendering.** Styling, markup, uploads, Cloudinary signing, the Maps SDK and the form components are not modelled.
- Settlement.LedgerTransfers: `fromId != toId` is stated for ledgers with distinct ids. The ledger built from the participants always has them, because `Ids` of `InitLedger` is a `Distinct` list.

=== FILE: auth_callbacks.dfy ===
/** The sign-in and token callbacks of src/auth.ts: who may sign in
    (returning ACTIVE users, the very first user, and holders of a live
    invitation), and how the session token picks up the stored user. */
module AuthCallbacks {
  import opened Common
  import opened Store
  import opened InvitationsRoute
  import Middleware

  /** What the identity provider reports about the person signing in. */
  datatype Profile = Profile(email: Option<string>, name: Option<string>, image: Option<string>)

  /** Set the status of the first user with the given email to ACTIVE (the
      update half of the upsert on the unique email column). */
  function ActivateByEmail(users: seq<User>, email: string): (r: seq<User>)
    ensures |r| == |users|
    ensures forall k :: 0 <= k < |users| ==> r[k].id == users[k].id && r[k].email == users[k].email
    ensures forall k :: 0 <= k < |users| && users[k].email != email ==> r[k] == users[k]
    decreases |users|
  {
    if users == [] then []
    else if users[0].email == email then [users[0].(status := Active)] + users[1..]
    else [users[0]] + ActivateByEmail(users[1..], email)
  }

  /** After activation the email's first user is that same user, now
      ACTIVE. */
  lemma {:induction false} ActivateByEmailEffect(users: seq<User>, email: string)
    requires UserByEmail(users, email).Some?
    ensures UserByEmail(ActivateByEmail(users, email), email)
            == Some(UserByEmail(users, email).value.(status := Active))
    decreases |users|
  {
    if users[0].email != email {
      ActivateByEmailEffect(users[1..], email);
      assert ActivateByEmail(users, email)[1..] == ActivateByEmail(users[1..], email);
    }
  }

  lemma {:induction false} UserByEmailAppend(users: seq<User>, u: User, email: string)
    requires UserByEmail(users, email).None?
    requires u.email == email
    ensures UserByEmail(users + [u], email) == Some(u)
    decreases |users|
  {
    if users == [] {
    } else {
      assert (users + [u])[1..] == users[1..] + [u];
      UserByEmailAppend(users[1..], u, email);
    }
  }

  /** Mark every invitation with the given id ACCEPTED by `userId`. */
  function AcceptInvitation(invs: seq<Invitation>, id: string, userId: string): (r: seq<Invitation>)
    ensures |r| == |invs|
    ensures forall k :: 0 <= k < |invs| ==>
      r[k] == (if invs[k].id == id then invs[k].(status := InviteAccepted, acceptedById := Some(userId))
               else invs[k])
  {
    seq(|invs|, k requires 0 <= k < |invs| =>
      if invs[k].id == id then invs[k].(status := InviteAccepted, acceptedById := Some(userId)) else invs[k])
  }

  /** The `signIn` callback at time `now`; `newUserId` is the id the store
      assigns when it creates a user. Answers whether the sign-in is
      admitted, with the store afterwards. */
  function SignIn(db: Db, provider: Option<string>, profile: Profile, now: int, newUserId: string): (r: (bool, Db))
    ensures !r.0 ==> r.1 == db
    ensures r.0 <==>
      && provider == Some("google") && Truthy(profile.email)
      && (|| HasAccess(db.users, profile.email.value)
          || |db.users| == 0
          || ActiveInvitation(db.invitations, profile.email.value, now).Some?)
    ensures r.0 && HasAccess(db.users, profile.email.value) ==> r.1 == db
    ensures r.0 && !HasAccess(db.users, profile.email.value) && |db.users| == 0 ==>
      r.1 == db.(users := [User(newUserId, profile.email.value, profile.name, profile.image, Active)])
    ensures r.0 && !HasAccess(db.users, profile.email.value) && |db.users| > 0 ==>
      && r.1.trips == db.trips && r.1.participants == db.participants
      && r.1.items == db.items && r.1.votes == db.votes
    ensures r.0 && !HasAccess(db.users, profile.email.value) && |db.users| > 0 ==>
      var email := profile.email.value;
      var existing := UserByEmail(db.users, email);
      var inv := ActiveInvitation(db.invitations, email, now).value;
      && r.1.users == (if existing.Some? then ActivateByEmail(db.users, email)
                       else db.users + [User(newUserId, email, profile.name, profile.image, Active)])
      && r.1.invitations == AcceptInvitation(db.invitations, inv.id,
                                             if existing.Some? then existing.value.id else newUserId)
  {
    if provider != Some("google") then (false, db)
    else if !Truthy(profile.email) then (false, db)
    else
      var email := profile.email.value;
      if HasAccess(db.users, email) then (true, db)
      else if |db.users| == 0 then
        (true, db.(users := [User(newUserId, email, profile.name, profile.image, Active)]))
      else
        match ActiveInvitation(db.invitations, email, now)
        case None => (false, db)
        case Some(inv) =>
          var existing := UserByEmail(db.users, email);
          var users' := if existing.Some? then ActivateByEmail(db.users, email)
                        else db.users + [User(newUserId, email, profile.name, profile.image, Active)];
          var activatedId := if existing.Some? then existing.value.id else newUserId;
          (true, db.(users := users', invitations := AcceptInvitation(db.invitations, inv.id, activatedId)))
  }

  /** An admitted sign-in leaves an ACTIVE user with that email in the
      store; when it went through an invitation, the invitation found is
      now ACCEPTED by that user. */
  lemma {:induction false} SignInGrantsAccess(db: Db, provider: Option<string>, profile: Profile, now: int, newUserId: string)
    requires SignIn(db, provider, profile, now, newUserId).0
    ensures var db' := SignIn(db, provider, profile, now, newUserId).1;
      HasAccess(db'.users, profile.email.value)
    ensures var db' := SignIn(db, provider, profile, now, newUserId).1;
      var email := profile.email.value;
      !HasAccess(db.users, email) && |db.users| > 0 ==>
        var inv := ActiveInvitation(db.invitations, email, now).value;
        forall k :: 0 <= k < |db.invitations| && db.invitations[k].id == inv.id ==>
          && db'.invitations[k].status == InviteAccepted
          && db'.invitations[k].acceptedById == Some(UserByEmail(db'.users, email).value.id)
  {
    var email := profile.email.value;
    if !HasAccess(db.users, email) && |db.users| > 0 {
      InvitationSignIn(db, profile, now, newUserId);
    } else if !HasAccess(db.users, email) {
      var db' := SignIn(db, provider, profile, now, newUserId).1;
      assert db'.users[0].email == email;
    }
  }

  /** The invitation branch of the sign-in callback. */
  lemma {:induction false} InvitationSignIn(db: Db, profile: Profile, now: int, newUserId: string)
    requires Truthy(profile.email)
    requires !HasAccess(db.users, profile.email.value) && |db.users| > 0
    requires ActiveInvitation(db.invitations, profile.email.value, now).Some?
    ensures var db' := SignIn(db, Some("google"), profile, now, newUserId).1;
      var email := profile.email.value;
      var inv := ActiveInvitation(db.invitations, email, now).value;
      && HasAccess(db'.users, email)
      && forall k :: 0 <= k < |db.invitations| && db.invitations[k].id == inv.id ==>
           && db'.invitations[k].status == InviteAccepted
           && db'.invitations[k].acceptedById == Some(UserByEmail(db'.users, email).value.id)
  {
    var email := profile.email.value;
    if UserByEmail(db.users, email).Some? {
      ActivateByEmailEffect(db.users, email);
    } else {
      UserByEmailAppend(db.users, User(newUserId, email, profile.name, profile.image, Active), email);
    }
  }

  /** An invitation created by the invitation route admits its address
      until it expires, for a sign-in through Google reporting exactly
      that address (given, as the email recogniser does, that the empty
      string is not an address). */
  lemma {:induction false} InvitationAdmits(db: Db, session: Option<SessionUser>, body: Option<InvitationBody>,
                         isEmail: string -> bool, now: int, invitationId: string,
                         profile: Profile, later: int, newUserId: string)
    requires CreateInvitation(db, session, body, isEmail, now, invitationId).0.InvitationCreated?
    requires profile.email == Some(CreateInvitation(db, session, body, isEmail, now, invitationId).0.invitation.email)
    requires now <= later < now + InvitationLifetime
    requires !isEmail("")
    ensures var db' := CreateInvitation(db, session, body, isEmail, now, invitationId).1;
      SignIn(db', Some("google"), profile, later, newUserId).0
  {
    var r := CreateInvitation(db, session, body, isEmail, now, invitationId);
    var inv := r.0.invitation;
    var db' := r.1;
    assert db'.invitations[|db.invitations|] == inv;
    assert Admits(inv, inv.email, later);
    CreatedEmailIsNormal(db, session, body, isEmail, now, invitationId);
  }

  // ---------------------------------------------------------------------
  // The token callback.

  /** The `jwt` callback: when an account and a truthy email are present
      and a user with that email is stored, the token takes that user's id
      and status; otherwise it is returned unchanged. */
  function Jwt(token: SessionUser, accountPresent: bool, userEmail: Option<string>, users: seq<User>): (r: SessionUser)
    ensures r.email == token.email
    ensures r != token ==> accountPresent && Truthy(userEmail) && UserByEmail(users, userEmail.value).Some?
    ensures accountPresent && Truthy(userEmail) && UserByEmail(users, userEmail.value).Some? ==>
      var u := UserByEmail(users, userEmail.value).value;
      r.id == Some(u.id) && r.status == Some(StatusText(u.status))
  {
    if accountPresent && Truthy(userEmail) then
      match UserByEmail(users, userEmail.value)
      case Some(u) => token.(id := Some(u.id), status := Some(StatusText(u.status)))
      case None => token
    else token
  }

  /** Whoever the sign-in callback admits gets a token the route guard
      lets through. */
  lemma {:induction false} AdmittedPassesGuard(db: Db, provider: Option<string>, profile: Profile, now: int, newUserId: string,
                            token: SessionUser)
    requires SignIn(db, provider, profile, now, newUserId).0
    ensures var db' := SignIn(db, provider, profile, now, newUserId).1;
      Middleware.Guard(Some(Jwt(token, true, profile.email, db'.users))) == Middleware.Next
  {
    SignInGrantsAccess(db, provider, profile, now, newUserId);
  }
}

=== FILE: balance_sort.dfy ===
/** The stable sort the settlement engine applies to creditors and debtors
    (`Array.prototype.sort`, which is stable, with the comparators
    `b.balance - a.balance` and `a.balance - b.balance`). Written as an
    insertion sort that places each element after every element it does not
    strictly precede, which is what keeps ties in input order. */
module BalanceSort {
  import opened Ledger

  datatype Direction = Descending | Ascending

  /** `a` goes strictly before `b`: the comparator is negative. */
  predicate Precedes(a: Balance, b: Balance, dir: Direction) {
    if dir == Descending then a.balance > b.balance else a.balance < b.balance
  }

  predicate Sorted(s: seq<Balance>, dir: Direction) {
    forall i, j :: 0 <= i < j < |s| ==> !Precedes(s[j], s[i], dir)
  }

  function Insert(x: Balance, t: seq<Balance>, dir: Direction): (r: seq<Balance>)
    ensures |r| == |t| + 1
    ensures multiset(r) == multiset(t) + multiset{x}
  {
    if t == [] then [x]
    else if Precedes(x, t[0], dir) then [x] + t
    else
      assert t == [t[0]] + t[1..];
      [t[0]] + Insert(x, t[1..], dir)
  }

  /** A sorted sequence stays sorted with a head that nothing in it
      precedes. */
  lemma {:induction false} SortedCons(y: Balance, r: seq<Balance>, dir: Direction)
    requires Sorted(r, dir)
    requires forall j :: 0 <= j < |r| ==> !Precedes(r[j], y, dir)
    ensures Sorted([y] + r, dir)
  {
    var q := [y] + r;
    forall i, j | 0 <= i < j < |q| ensures !Precedes(q[j], q[i], dir) {
      assert q[j] == r[j - 1];
      if i > 0 {
        assert q[i] == r[i - 1];
      }
    }
  }

  /** Inserting into a sorted sequence keeps it sorted. */
  lemma {:induction false} InsertSorted(x: Balance, t: seq<Balance>, dir: Direction)
    requires Sorted(t, dir)
    ensures Sorted(Insert(x, t, dir), dir)
    decreases |t|
  {
    if t == [] {
    } else if Precedes(x, t[0], dir) {
      forall j | 0 <= j < |t| ensures !Precedes(t[j], x, dir) {
        if j > 0 {
          assert !Precedes(t[j], t[0], dir);
        }
      }
      SortedCons(x, t, dir);
    } else {
      var r' := Insert(x, t[1..], dir);
      assert Sorted(t[1..], dir);
      InsertSorted(x, t[1..], dir);
      forall j | 0 <= j < |r'| ensures !Precedes(r'[j], t[0], dir) {
        var y := r'[j];
        assert y in multiset(r');
        if y != x {
          assert y in multiset(t[1..]);
          var m :| 0 <= m < |t[1..]| && t[1..][m] == y;
          assert t[m + 1] == y;
        }
      }
      SortedCons(t[0], r', dir);
    }
  }

  /** The stable sort: sorted, and a permutation of its input. */
  function Sort(s: seq<Balance>, dir: Direction): (r: seq<Balance>)
    ensures multiset(r) == multiset(s)
    ensures |r| == |s|
  {
    if s == [] then []
    else
      assert s == s[..|s| - 1] + [s[|s| - 1]];
      Insert(s[|s| - 1], Sort(s[..|s| - 1], dir), dir)
  }

  lemma {:induction false} SortSorted(s: seq<Balance>, dir: Direction)
    ensures Sorted(Sort(s, dir), dir)
    decreases |s|
  {
    if s != [] {
      SortSorted(s[..|s| - 1], dir);
      InsertSorted(s[|s| - 1], Sort(s[..|s| - 1], dir), dir);
    }
  }

  /** The entries of `s` whose balance is exactly `k`, in order. */
  function WithBalance(s: seq<Balance>, k: real): seq<Balance>
    decreases |s|
  {
    if s == [] then [] else (if s[0].balance == k then [s[0]] else []) + WithBalance(s[1..], k)
  }

  lemma {:induction false} WithBalanceConcat(a: seq<Balance>, b: seq<Balance>, k: real)
    ensures WithBalance(a + b, k) == WithBalance(a, k) + WithBalance(b, k)
    decreases |a|
  {
    if a == [] {
      assert a + b == b;
    } else {
      assert (a + b)[1..] == a[1..] + b;
      WithBalanceConcat(a[1..], b, k);
    }
  }

  lemma {:induction false} WithBalanceNone(s: seq<Balance>, k: real)
    requires forall i :: 0 <= i < |s| ==> s[i].balance != k
    ensures WithBalance(s, k) == []
    decreases |s|
  {
    if s != [] {
      WithBalanceNone(s[1..], k);
    }
  }

  lemma {:induction false} WithBalanceCons(a: Balance, s: seq<Balance>, k: real)
    ensures WithBalance([a] + s, k) == (if a.balance == k then [a] else []) + WithBalance(s, k)
  {
    assert ([a] + s)[1..] == s;
  }

  lemma {:induction false} InsertStable(x: Balance, t: seq<Balance>, dir: Direction, k: real)
    requires Sorted(t, dir)
    ensures WithBalance(Insert(x, t, dir), k) == WithBalance(t, k) + (if x.balance == k then [x] else [])
    decreases |t|
  {
    if t == [] {
      WithBalanceCons(x, [], k);
    } else if Precedes(x, t[0], dir) {
      WithBalanceCons(x, t, k);
      if x.balance == k {
        forall i | 0 <= i < |t|
          ensures t[i].balance != k
        {
          if i > 0 {
            assert !Precedes(t[i], t[0], dir);
          }
        }
        WithBalanceNone(t, k);
      }
    } else {
      assert Sorted(t[1..], dir);
      InsertStable(x, t[1..], dir, k);
      ConsStable(x, t, Insert(x, t[1..], dir), k);
    }
  }

  lemma {:induction false} ConsStable(x: Balance, t: seq<Balance>, r: seq<Balance>, k: real)
    requires t != []
    requires WithBalance(r, k) == WithBalance(t[1..], k) + (if x.balance == k then [x] else [])
    ensures WithBalance([t[0]] + r, k) == WithBalance(t, k) + (if x.balance == k then [x] else [])
  {
    WithBalanceCons(t[0], r, k);
    WithBalanceCons(t[0], t[1..], k);
    assert [t[0]] + t[1..] == t;
  }

  /** Stability: for every balance value, the entries with that value keep
      their input order. Together with `Sort`'s permutation guarantee this
      pins the output down completely. */
  lemma {:induction false} SortStable(s: seq<Balance>, dir: Direction, k: real)
    ensures WithBalance(Sort(s, dir), k) == WithBalance(s, k)
    decreases |s|
  {
    if s != [] {
      var p := s[..|s| - 1];
      var x := s[|s| - 1];
      var sp := Sort(p, dir);
      SortStable(p, dir, k);
      SortSorted(p, dir);
      InsertStable(x, sp, dir, k);
      SnocStable(s, sp, k);
    }
  }

  lemma {:induction false} SnocStable(s: seq<Balance>, sp: seq<Balance>, k: real)
    requires s != []
    requires WithBalance(sp, k) == WithBalance(s[..|s| - 1], k)
    ensures WithBalance(sp, k) + (if s[|s| - 1].balance == k then [s[|s| - 1]] else []) == WithBalance(s, k)
  {
    var x := s[|s| - 1];
    assert s == s[..|s| - 1] + [x];
    WithBalanceConcat(s[..|s| - 1], [x], k);
    WithBalanceCons(x, [], k);
  }

}

=== FILE: calendar.dfy ===
/** The calendar arithmetic behind the date picker of
    src/components/date-picker.tsx: month navigation, the proleptic
    Gregorian calendar the runtime's `Date` follows, the Monday-first day
    grid and the twelve-year grid. Months are numbered 0 to 11. */
module Calendar {
  import opened Common

  // ---------------------------------------------------------------------
  // Month navigation.

  /** A month of a year, counted as a single number of months. */
  function MonthNumber(year: int, month: int): int {
    year * 12 + month
  }

  /** The month shown before `(year, month)`: December of the previous
      year before January. */
  function PrevMonth(year: int, month: int): (r: (int, int))
    requires 0 <= month < 12
    ensures 0 <= r.1 < 12
    ensures MonthNumber(r.0, r.1) == MonthNumber(year, month) - 1
  {
    if month == 0 then (year - 1, 11) else (year, month - 1)
  }

  /** The month shown after `(year, month)`: January of the next year
      after December. */
  function NextMonth(year: int, month: int): (r: (int, int))
    requires 0 <= month < 12
    ensures 0 <= r.1 < 12
    ensures MonthNumber(r.0, r.1) == MonthNumber(year, month) + 1
  {
    if month == 11 then (year + 1, 0) else (year, month + 1)
  }

  /** A month in 0..11 is determined by its month number. */
  lemma {:induction false} MonthNumberInjective(y1: int, m1: int, y2: int, m2: int)
    requires 0 <= m1 < 12 && 0 <= m2 < 12
    requires MonthNumber(y1, m1) == MonthNumber(y2, m2)
    ensures y1 == y2 && m1 == m2
  {
  }

  /** Going back one month and forward one month, in either order,
      returns to the month shown. */
  lemma {:induction false} PrevNextInverse(year: int, month: int)
    requires 0 <= month < 12
    ensures var p := PrevMonth(year, month); NextMonth(p.0, p.1) == (year, month)
    ensures var n := NextMonth(year, month); PrevMonth(n.0, n.1) == (year, month)
  {
    var p := PrevMonth(year, month);
    var q := NextMonth(p.0, p.1);
    MonthNumberInjective(q.0, q.1, year, month);
    var n := NextMonth(year, month);
    var o := PrevMonth(n.0, n.1);
    MonthNumberInjective(o.0, o.1, year, month);
  }

  // ---------------------------------------------------------------------
  // The Gregorian calendar.

  /** The year the runtime's `Date` constructor uses for a given year
      argument: a year from 0 to 99 is read as 1900 plus that year. */
  function ConstructorYear(year: int): (r: int)
    ensures 0 <= year <= 99 ==> r == 1900 + year
    ensures !(0 <= year <= 99) ==> r == year
  {
    if 0 <= year <= 99 then 1900 + year else year
  }

  predicate IsLeap(year: int) {
    (year % 4 == 0 && year % 100 != 0) || year % 400 == 0
  }

  /** The number of days of a month (`new Date(y, m + 1, 0).getDate()`). */
  function DaysInMonth(year: int, month: int): (n: int)
    requires 0 <= month < 12
    ensures 28 <= n <= 31
    ensures n == 29 <==> month == 1 && IsLeap(year)
    ensures n == 28 <==> month == 1 && !IsLeap(year)
    ensures n == 30 <==> month in {3, 5, 8, 10}
  {
    if month == 1 then (if IsLeap(year) then 29 else 28)
    else if month in {3, 5, 8, 10} then 30
    else 31
  }

  /** Offsets of the first of each month in the weekday formula. */
  const MonthOffset: seq<int> := [0, 3, 2, 5, 0, 3, 5, 1, 4, 6, 2, 4]

  /** The leap-day count of the years up to `y`, as the weekday formula
      uses it. */
  function LeapTerm(y: int): int {
    y + y / 4 - y / 100 + y / 400
  }

  /** A running day count whose remainder modulo 7 is the weekday. */
  function DayNumber(year: int, month: int, day: int): int
    requires 0 <= month < 12
  {
    var y := if month < 2 then year - 1 else year;
    LeapTerm(y) + MonthOffset[month] + day
  }

  /** The weekday of a date, Sunday 0 to Saturday 6 (`getDay`). */
  function DayOfWeek(year: int, month: int, day: int): (w: int)
    requires 0 <= month < 12
    ensures 0 <= w < 7
  {
    DayNumber(year, month, day) % 7
  }

  /** Adding to a number adds to its remainder. */
  lemma {:induction false} ModAdd(x: int, d: int)
    ensures (x % 7 + d) % 7 == (x + d) % 7
  {
    var q := x / 7;
    assert x == 7 * q + x % 7;
    ModMultiple(x % 7 + d, q);
  }

  lemma {:induction false} ModMultiple(z: int, q: int)
    ensures (7 * q + z) % 7 == z % 7
  {
    var a, b := (7 * q + z) / 7, z / 7;
    assert 7 * q + z == 7 * a + (7 * q + z) % 7;
    assert z == 7 * b + z % 7;
    assert 7 * (q + b - a) == (7 * q + z) % 7 - z % 7;
  }

  lemma {:induction false} FloorStep4(y: int)
    ensures y / 4 - (y - 1) / 4 == if y % 4 == 0 then 1 else 0
  {
  }

  lemma {:induction false} FloorStep100(y: int)
    ensures y / 100 - (y - 1) / 100 == if y % 100 == 0 then 1 else 0
  {
  }

  lemma {:induction false} FloorStep400(y: int)
    ensures y / 400 - (y - 1) / 400 == if y % 400 == 0 then 1 else 0
  {
  }

  /** One year adds one day of the week, two in a leap year. */
  lemma {:induction false} LeapTermStep(y: int)
    ensures LeapTerm(y) - LeapTerm(y - 1) == if IsLeap(y) then 2 else 1
  {
    FloorStep4(y);
    FloorStep100(y);
    FloorStep400(y);
  }

  /** The next day has the next weekday. */
  lemma {:induction false} NextDayWeekday(year: int, month: int, day: int)
    requires 0 <= month < 12
    ensures DayOfWeek(year, month, day + 1) == (DayOfWeek(year, month, day) + 1) % 7
  {
    ModAdd(DayNumber(year, month, day), 1);
  }

  /** Day `d` of a month falls `d - 1` weekdays after the first. */
  lemma {:induction false} DayWeekday(year: int, month: int, day: int)
    requires 0 <= month < 12
    ensures DayOfWeek(year, month, day) == (DayOfWeek(year, month, 1) + day - 1) % 7
  {
    ModAdd(DayNumber(year, month, 1), day - 1);
  }

  /** The day count of the first of the next month exceeds this month's
      by its length, up to whole weeks. */
  lemma {:induction false} NextMonthDayNumber(year: int, month: int) returns (weeks: int)
    requires 0 <= month < 12
    ensures var n := NextMonth(year, month);
      DayNumber(n.0, n.1, 1) == DayNumber(year, month, 1) + DaysInMonth(year, month) - 7 * weeks
  {
    if month == 1 {
      LeapTermStep(year);
    }
    weeks := if month in {3, 6, 9, 11} then 5 else 4;
  }

  /** The first of the next month falls as many weekdays later as the
      month has days: the weekday formula and the month lengths describe
      one calendar. */
  lemma {:induction false} NextMonthWeekday(year: int, month: int)
    requires 0 <= month < 12
    ensures var n := NextMonth(year, month);
      DayOfWeek(n.0, n.1, 1) == (DayOfWeek(year, month, 1) + DaysInMonth(year, month)) % 7
  {
    var weeks := NextMonthDayNumber(year, month);
    var x := DayNumber(year, month, 1);
    var d := DaysInMonth(year, month);
    ModAdd(x, d);
    ModMultiple(x + d, -weeks);
  }

  /** The first of January 2000 was a Saturday. */
  lemma {:induction false} Anchor()
    ensures DayOfWeek(2000, 0, 1) == 6
  {
  }

  /** The weekday of a day counted from Monday (`(getDay() + 6) % 7`). */
  function MondayIndex(weekday: int): (i: int)
    requires 0 <= weekday < 7
    ensures 0 <= i < 7
    ensures (i + 1) % 7 == weekday
  {
    (weekday + 6) % 7
  }

  // ---------------------------------------------------------------------
  // The day grid.

  /** Number of cells of a grid with `offset` leading blanks and `days`
      days: the next multiple of seven. */
  function GridLength(offset: nat, days: nat): (n: nat)
    ensures n % 7 == 0
    ensures offset + days <= n < offset + days + 7
  {
    var used := offset + days;
    used + (7 - used % 7) % 7
  }

  /** The day grid: `offset` blanks, the days 1 to `days` in order, then
      blanks up to a whole number of weeks. */
  function Cells(offset: nat, days: nat): (r: seq<Option<nat>>)
    ensures |r| == GridLength(offset, days)
  {
    seq(GridLength(offset, days), i requires 0 <= i < GridLength(offset, days) =>
      if offset <= i < offset + days then Some(i - offset + 1) else None)
  }

  /** The grid construction as three loops: leading blanks, days, then
      blanks while the length is not a multiple of seven. */
  method BuildCells(offset: nat, days: nat) returns (cells: seq<Option<nat>>)
    ensures cells == Cells(offset, days)
    ensures |cells| % 7 == 0
    ensures forall d :: 1 <= d <= days ==> cells[offset + d - 1] == Some(d)
    ensures forall i :: 0 <= i < |cells| && cells[i].Some? ==> 1 <= cells[i].value <= days
  {
    cells := [];
    var i := 0;
    while i < offset
      invariant 0 <= i <= offset
      invariant |cells| == i
      invariant forall j :: 0 <= j < i ==> cells[j] == None
    {
      cells := cells + [None];
      i := i + 1;
    }
    var d := 1;
    while d <= days
      invariant 1 <= d <= days + 1
      invariant |cells| == offset + d - 1
      invariant forall j :: 0 <= j < offset ==> cells[j] == None
      invariant forall j :: offset <= j < |cells| ==> cells[j] == Some(j - offset + 1)
    {
      cells := cells + [Some(d)];
      d := d + 1;
    }
    while |cells| % 7 != 0
      invariant offset + days <= |cells| <= GridLength(offset, days)
      invariant forall j :: 0 <= j < |cells| ==>
        cells[j] == if offset <= j < offset + days then Some(j - offset + 1) else None
      decreases GridLength(offset, days) - |cells|
    {
      assert |cells| < GridLength(offset, days);
      cells := cells + [None];
    }
  }

  /** Blanks before the first of the month in a Monday-first grid. */
  function StartOffset(year: int, month: int): (n: nat)
    requires 0 <= month < 12
    ensures n < 7
  {
    MondayIndex(DayOfWeek(ConstructorYear(year), month, 1))
  }

  /** The grid the day view shows for a month. */
  function DayGrid(year: int, month: int): seq<Option<nat>>
    requires 0 <= month < 12
  {
    Cells(StartOffset(year, month), DaysInMonth(ConstructorYear(year), month) as nat)
  }

  /** Where the days sit in a grid: day `d` in cell `offset + d - 1` and
      nowhere else. */
  lemma {:induction false} CellsPositions(offset: nat, days: nat)
    ensures var g := Cells(offset, days);
      forall i :: 0 <= i < |g| && g[i].Some? ==> 1 <= g[i].value <= days && i == offset + g[i].value - 1
    ensures var g := Cells(offset, days);
      forall d :: 1 <= d <= days ==>
        && g[offset + d - 1] == Some(d)
        && forall i :: 0 <= i < |g| && g[i] == Some(d) ==> i == offset + d - 1
  {
    var g := Cells(offset, days);
    forall i | 0 <= i < |g| && g[i].Some?
      ensures 1 <= g[i].value <= days && i == offset + g[i].value - 1
    {
      assert g[i] == if offset <= i < offset + days then Some(i - offset + 1) else None;
    }
    forall d | 1 <= d <= days ensures g[offset + d - 1] == Some(d) {
      assert offset + d - 1 < offset + days <= |g|;
    }
  }

  /** The day in one cell of a grid. */
  lemma {:induction false} CellAt(offset: nat, days: nat, i: nat)
    requires i < |Cells(offset, days)| && Cells(offset, days)[i].Some?
    ensures var d := Cells(offset, days)[i].value; 1 <= d <= days && i == offset + d - 1
  {
  }

  /** The cell of a day of the month: the one after the leading blanks
      and the earlier days. */
  lemma {:induction false} DayGridPlaces(year: int, month: int)
    requires 0 <= month < 12
    ensures var g := DayGrid(year, month);
      forall d :: 1 <= d <= DaysInMonth(ConstructorYear(year), month) ==>
        && g[StartOffset(year, month) + d - 1] == Some(d)
        && forall i :: 0 <= i < |g| && g[i] == Some(d) ==> i == StartOffset(year, month) + d - 1
  {
    var offset, days := StartOffset(year, month), DaysInMonth(ConstructorYear(year), month) as nat;
    assert DayGrid(year, month) == Cells(offset, days);
    CellsPositions(offset, days);
  }

  /** The column of one cell of the day grid is its day's weekday. */
  lemma {:induction false} DayGridColumn(year: int, month: int, i: nat)
    requires 0 <= month < 12
    requires i < |DayGrid(year, month)| && DayGrid(year, month)[i].Some?
    ensures var d := DayGrid(year, month)[i].value;
      && 1 <= d <= DaysInMonth(ConstructorYear(year), month)
      && i % 7 == MondayIndex(DayOfWeek(ConstructorYear(year), month, d))
  {
    var y := ConstructorYear(year);
    var offset, days := StartOffset(year, month), DaysInMonth(y, month) as nat;
    CellAt(offset, days, i);
    var d := Cells(offset, days)[i].value;
    var w1, w := DayOfWeek(y, month, 1), DayOfWeek(y, month, d);
    DayWeekday(y, month, d);
    DayColumn(w1, d, offset, i, w);
  }

  /** Every day of the month appears once, in its weekday's column. */
  lemma {:induction false} DayGridColumns(year: int, month: int)
    requires 0 <= month < 12
    ensures var g := DayGrid(year, month);
      forall i :: 0 <= i < |g| && g[i].Some? ==>
        && 1 <= g[i].value <= DaysInMonth(ConstructorYear(year), month)
        && i % 7 == MondayIndex(DayOfWeek(ConstructorYear(year), month, g[i].value))
    ensures var g := DayGrid(year, month);
      forall d :: 1 <= d <= DaysInMonth(ConstructorYear(year), month) ==>
        && g[StartOffset(year, month) + d - 1] == Some(d)
        && forall i :: 0 <= i < |g| && g[i] == Some(d) ==> i == StartOffset(year, month) + d - 1
  {
    var g := DayGrid(year, month);
    forall i | 0 <= i < |g| && g[i].Some?
      ensures 1 <= g[i].value <= DaysInMonth(ConstructorYear(year), month)
      ensures i % 7 == MondayIndex(DayOfWeek(ConstructorYear(year), month, g[i].value))
    {
      DayGridColumn(year, month, i);
    }
    DayGridPlaces(year, month);
  }

  /** Column arithmetic of the grid: with the first in column
      `MondayIndex(w1)`, day `d` lands in the column of its weekday. */
  lemma {:induction false} DayColumn(w1: int, d: int, offset: int, i: int, w: int)
    requires 0 <= w1 < 7 && 0 <= w < 7
    requires offset == MondayIndex(w1) && i == offset + d - 1 && i >= 0
    requires w == (w1 + d - 1) % 7
    ensures i % 7 == MondayIndex(w)
  {
    ModAdd(w1 + 6, d - 1);
    ModAdd(w1 + d - 1, 6);
  }

  // ---------------------------------------------------------------------
  // The year grid.

  /** `Math.floor(year / 10) * 10`. */
  function DecadeStart(year: int): (s: int)
    ensures s % 10 == 0
    ensures s <= year < s + 10
  {
    (year / 10) * 10
  }

  /** The twelve years the year view offers. */
  function YearGrid(year: int): (r: seq<int>)
    ensures |r| == 12
    ensures year in r
    ensures forall i :: 0 <= i < 12 ==> r[i] == DecadeStart(year) + i
  {
    var s := DecadeStart(year);
    var r := seq(12, i requires 0 <= i < 12 => s + i);
    assert r[year - s] == year;
    r
  }

  /** The decade buttons move the grid by exactly one decade. */
  lemma {:induction false} DecadeShift(year: int)
    ensures DecadeStart(year + 10) == DecadeStart(year) + 10
    ensures DecadeStart(year - 10) == DecadeStart(year) - 10
  {
    var s := DecadeStart(year);
    DecadeUnique(year + 10, s + 10);
    DecadeUnique(year - 10, s - 10);
  }

  /** The decade of a year is the only multiple of ten at most ten years
      below it. */
  lemma {:induction false} DecadeUnique(year: int, s: int)
    requires s % 10 == 0 && s <= year < s + 10
    ensures DecadeStart(year) == s
  {
    var a := s / 10;
    assert s == 10 * a;
    assert year / 10 == a;
  }
}

=== FILE: common.dfy ===
/** Shared vocabulary: optional values and a few facts about sequences that
    several parts of the model rely on. */
module Common {

  /** A value that may be absent: the source's `null` / `undefined`. */
  datatype Option<+T> = None | Some(value: T)

  /** A JavaScript string is truthy when it is present and not empty. */
  predicate Truthy(s: Option<string>) {
    s.Some? && s.value != ""
  }

  /** No element occurs twice in `s`. */
  predicate NoDuplicates<T(==)>(s: seq<T>) {
    forall i, j :: 0 <= i < j < |s| ==> s[i] != s[j]
  }

  /** Position of the first occurrence of `x` in `s`. */
  function IndexOf<T(==)>(s: seq<T>, x: T): (i: nat)
    requires x in s
    ensures i < |s| && s[i] == x
    ensures forall j :: 0 <= j < i ==> s[j] != x
  {
    if s[0] == x then 0 else 1 + IndexOf(s[1..], x)
  }

  /** Appending an element leaves the first occurrence of anything already
      present where it was. */
  lemma {:induction false} IndexOfAppend<T>(s: seq<T>, y: T, x: T)
    requires x in s
    ensures IndexOf(s + [y], x) == IndexOf(s, x)
  {
    var i := IndexOf(s, x);
    assert (s + [y])[i] == x;
  }

  /** The distinct elements of `s` in first-occurrence order: what spreading
      a JavaScript `Set` built from `s` yields (a `Set` remembers insertion
      order and ignores re-insertions). */
  function Distinct<T(==,!new)>(s: seq<T>): (r: seq<T>)
    ensures forall x :: x in r <==> x in s
    ensures NoDuplicates(r)
    ensures |r| <= |s|
  {
    if s == [] then []
    else
      var d := Distinct(s[..|s| - 1]);
      assert s == s[..|s| - 1] + [s[|s| - 1]];
      if s[|s| - 1] in d then d else d + [s[|s| - 1]]
  }

  /** `Distinct` lists elements in the order of their first occurrence. */
  lemma {:induction false} DistinctKeepsFirstOccurrenceOrder<T(!new)>(s: seq<T>, i: nat, j: nat)
    requires i < j < |Distinct(s)|
    ensures Distinct(s)[i] in s && Distinct(s)[j] in s
    ensures IndexOf(s, Distinct(s)[i]) < IndexOf(s, Distinct(s)[j])
  {
    var p := s[..|s| - 1];
    var last := s[|s| - 1];
    var d := Distinct(p);
    assert s == p + [last];
    if last in d {
      DistinctKeepsFirstOccurrenceOrder(p, i, j);
      IndexOfAppend(p, last, d[i]);
      IndexOfAppend(p, last, d[j]);
    } else if j < |d| {
      DistinctKeepsFirstOccurrenceOrder(p, i, j);
      IndexOfAppend(p, last, d[i]);
      IndexOfAppend(p, last, d[j]);
    } else {
      assert Distinct(s)[j] == last && last !in p;
      assert d[i] in p;
      IndexOfAppend(p, last, d[i]);
    }
  }
}

=== FILE: date_picker.dfy ===
/** The date picker of src/components/date-picker.tsx: the `Y-MM-DD` keys
    of its day cells, the text it shows for a value, the min/max bounds,
    and the open/view state machine driven by its buttons. */
module DatePicker {
  import opened Common
  import opened Text
  import opened Calendar

  const MonthNames: seq<string> := ["enero", "febrero", "marzo", "abril", "mayo", "junio", "julio",
                                    "agosto", "septiembre", "octubre", "noviembre", "diciembre"]

  // ---------------------------------------------------------------------
  // Cell keys and the displayed text.

  /** The two-digit text of a month (0-based) or day. */
  function TwoDigits(n: nat): (r: string)
    requires n < 100
    ensures |r| == 2 && AllDigits(r) && DigitsValue(r) == n
  {
    PaddedTwoDigits(n);
    PadStart2(NatToString(n))
  }

  /** The key of a day cell: the year as printed, then month and day
      zero-padded to two digits, joined by `-`. */
  function CellKey(year: int, month: int, day: int): (r: string)
    requires 0 <= month < 12 && 1 <= day <= 31
    ensures var n := |IntToString(year)|;
      && |r| == n + 6 && r[..n] == IntToString(year) && r[n] == '-' && r[n + 3] == '-'
      && AllDigits(r[n + 1..n + 3]) && DigitsValue(r[n + 1..n + 3]) == month + 1
      && AllDigits(r[n + 4..]) && DigitsValue(r[n + 4..]) == day
  {
    var y, m, d := IntToString(year), TwoDigits(month + 1), TwoDigits(day);
    var k := y + "-" + m + "-" + d;
    assert k[..|y|] == y && k[|y| + 1..|y| + 3] == m && k[|y| + 4..] == d;
    k
  }

  /** The text shown for a value (`formatDisplay`): its three `-`
      separated numbers as day, month name and year. A value whose parts
      are not digit strings or whose month is outside 1..12 is outside the
      model (`None`). */
  function FormatDisplay(ymd: string): (r: Option<string>)
    ensures r.Some? <==> DisplayDomain(ymd)
    ensures r.Some? ==>
      var parts := Split(ymd, '-');
      var head := NatToString(DigitsValue(parts[2])) + " de " + MonthNames[DigitsValue(parts[1]) - 1] + " de ";
      && StartsWith(r.value, head)
      && |r.value| > |head|
      && AllDigits(r.value[|head|..]) && DigitsValue(r.value[|head|..]) == DigitsValue(parts[0])
      && (r.value[|head|] == '0' ==> |r.value| == |head| + 1)
  {
    if DisplayDomain(ymd) then
      var parts := Split(ymd, '-');
      var head := NatToString(DigitsValue(parts[2])) + " de " + MonthNames[DigitsValue(parts[1]) - 1] + " de ";
      PrintedAfter(head, DigitsValue(parts[0]));
      Some(head + NatToString(DigitsValue(parts[0])))
    else None
  }

  /** A number printed after some text reads back from where the text
      ends, with a leading zero only for 0 itself. */
  lemma {:induction false} PrintedAfter(head: string, n: nat)
    ensures var r := head + NatToString(n);
      && StartsWith(r, head)
      && |r| > |head| && AllDigits(r[|head|..]) && DigitsValue(r[|head|..]) == n
      && (r[|head|] == '0' ==> |r| == |head| + 1)
  {
    var r := head + NatToString(n);
    StartsWithConcat(head, NatToString(n));
    assert r[|head|..] == NatToString(n);
    ParsePrint(n);
  }

  /** The values `FormatDisplay` models: at least three `-` separated
      parts, the first three digit strings, the month in 1..12. */
  predicate DisplayDomain(ymd: string) {
    var parts := Split(ymd, '-');
    && |parts| >= 3 && AllDigits(parts[0]) && AllDigits(parts[1]) && AllDigits(parts[2])
    && 1 <= DigitsValue(parts[1]) <= 12
  }

  lemma {:induction false} NoDash(s: string)
    requires AllDigits(s)
    ensures '-' !in s
  {
    forall i | 0 <= i < |s| ensures s[i] != '-' {
      assert IsDigit(s[i]);
    }
  }

  /** Three dash-free texts joined by `-` split back into the three. */
  lemma {:induction false} SplitThree(y: string, m: string, d: string)
    requires '-' !in y && '-' !in m && '-' !in d
    ensures Split(y + ['-'] + (m + ['-'] + d), '-') == [y, m, d]
  {
    var tail := m + ['-'] + d;
    assert Split(d, '-') == [d];
    SplitFirst(m, '-', d);
    assert Split(tail, '-') == [m, d];
    SplitFirst(y, '-', tail);
    assert [y] + [m, d] == [y, m, d];
  }

  /** A key splits back into the printed year, the month and the day. */
  lemma {:induction false} KeyParts(year: nat, month: int, day: int)
    requires 0 <= month < 12 && 1 <= day <= 31
    ensures var parts := Split(CellKey(year, month, day), '-');
      && parts == [NatToString(year), TwoDigits(month + 1), TwoDigits(day)]
      && DigitsValue(parts[0]) == year && DigitsValue(parts[1]) == month + 1 && DigitsValue(parts[2]) == day
  {
    var y, m, d := NatToString(year), TwoDigits(month + 1), TwoDigits(day);
    NoDash(y);
    NoDash(m);
    NoDash(d);
    assert CellKey(year, month, day) == y + ['-'] + (m + ['-'] + d);
    SplitThree(y, m, d);
    ParsePrint(year);
  }

  /** The text shown for the key of a day with a non-negative year: the
      day without leading zeros, the month's name and the year. */
  lemma {:induction false} FormatKey(year: nat, month: int, day: int)
    requires 0 <= month < 12 && 1 <= day <= 31
    ensures FormatDisplay(CellKey(year, month, day))
            == Some(NatToString(day) + " de " + MonthNames[month] + " de " + NatToString(year))
  {
    KeyParts(year, month, day);
  }

  // ---------------------------------------------------------------------
  // Bounds.

  /** A day cell is disabled when a truthy `min` is above its key or a
      truthy `max` below it, comparing strings. */
  function IsDisabled(key: string, min: Option<string>, max: Option<string>): (b: bool)
    ensures b ==> Truthy(min) || Truthy(max)
    ensures Truthy(min) && key == min.value && !(Truthy(max) && StrLess(max.value, key)) ==> !b
    ensures Truthy(max) && key == max.value && !(Truthy(min) && StrLess(key, min.value)) ==> !b
  {
    StrLessIrreflexive(key);
    (Truthy(min) && StrLess(key, min.value)) || (Truthy(max) && StrLess(max.value, key))
  }

  /** Strings with a common start compare as their rests do. */
  lemma {:induction false} CommonPrefixOrder(a: string, b: string, c: string)
    ensures StrLess(a + b, a + c) <==> StrLess(b, c)
  {
    StrLessConcat(a, b, a, c);
    StrLessIrreflexive(a);
  }

  /** Two-digit texts compare and coincide as their numbers do. */
  lemma {:induction false} TwoDigitOrder(x: nat, y: nat)
    requires x < 100 && y < 100
    ensures StrLess(TwoDigits(x), TwoDigits(y)) <==> x < y
    ensures TwoDigits(x) == TwoDigits(y) <==> x == y
  {
    StrLessDigits(TwoDigits(x), TwoDigits(y));
    if DigitsValue(TwoDigits(x)) == DigitsValue(TwoDigits(y)) {
      DigitsValueInjective(TwoDigits(x), TwoDigits(y));
    }
  }

  /** A key is its year part followed by its month-and-day part. */
  lemma {:induction false} KeyShape(year: int, month: int, day: int)
    requires 0 <= month < 12 && 1 <= day <= 31
    ensures CellKey(year, month, day) == (IntToString(year) + "-") + (TwoDigits(month + 1) + ("-" + TwoDigits(day)))
  {
  }

  /** The month-and-day parts of two keys compare as the days do. */
  lemma {:induction false} MonthDayOrder(m1: int, d1: int, m2: int, d2: int)
    requires 0 <= m1 < 12 && 1 <= d1 <= 31 && 0 <= m2 < 12 && 1 <= d2 <= 31
    ensures StrLess(TwoDigits(m1 + 1) + ("-" + TwoDigits(d1)), TwoDigits(m2 + 1) + ("-" + TwoDigits(d2)))
            <==> m1 < m2 || (m1 == m2 && d1 < d2)
  {
    StrLessConcat(TwoDigits(m1 + 1), "-" + TwoDigits(d1), TwoDigits(m2 + 1), "-" + TwoDigits(d2));
    CommonPrefixOrder("-", TwoDigits(d1), TwoDigits(d2));
    TwoDigitOrder(m1 + 1, m2 + 1);
    TwoDigitOrder(d1, d2);
  }

  /** Within one year, the string order of keys is the calendar order of
      their days. */
  lemma {:induction false} KeyOrder(year: int, m1: int, d1: int, m2: int, d2: int)
    requires 0 <= m1 < 12 && 1 <= d1 <= 31 && 0 <= m2 < 12 && 1 <= d2 <= 31
    ensures StrLess(CellKey(year, m1, d1), CellKey(year, m2, d2)) <==> m1 < m2 || (m1 == m2 && d1 < d2)
  {
    KeyShape(year, m1, d1);
    KeyShape(year, m2, d2);
    CommonPrefixOrder(IntToString(year) + "-", TwoDigits(m1 + 1) + ("-" + TwoDigits(d1)),
                      TwoDigits(m2 + 1) + ("-" + TwoDigits(d2)));
    MonthDayOrder(m1, d1, m2, d2);
  }

  /** With both bounds keys of the viewed year, a day of that year is
      disabled exactly when it lies before the minimum or after the
      maximum. */
  lemma {:induction false} DisabledOutsideRange(year: int, m: int, d: int, m0: int, d0: int, m1: int, d1: int)
    requires 0 <= m < 12 && 1 <= d <= 31
    requires 0 <= m0 < 12 && 1 <= d0 <= 31 && 0 <= m1 < 12 && 1 <= d1 <= 31
    ensures IsDisabled(CellKey(year, m, d), Some(CellKey(year, m0, d0)), Some(CellKey(year, m1, d1)))
            <==> (m < m0 || (m == m0 && d < d0)) || (m1 < m || (m1 == m && d1 < d))
  {
    KeyOrder(year, m, d, m0, d0);
    KeyOrder(year, m1, d1, m, d);
  }

  // ---------------------------------------------------------------------
  // The state machine.

  datatype View = DayView | MonthView | YearView

  /** The picker's own state; `internalValue` is the value when the
      picker is uncontrolled. */
  datatype PickerState = PickerState(open: bool, view: View, viewYear: int, viewMonth: int,
                                     internalValue: string)

  /** What the embedding page fixes: a controlled value, and the bounds. */
  datatype Config = Config(valueProp: Option<string>, min: Option<string>, max: Option<string>)

  /** The buttons and the outside click. */
  datatype Event =
    | Toggle
    | OutsideClick
    | PrevMonthClick
    | NextMonthClick
    | ShowMonths
    | ShowYears
    | PickDay(day: int)
    | Clear
    | PrevYear
    | NextYear
    | PickMonth(month: int)
    | PrevDecade
    | NextDecade
    | PickYear(year: int)

  /** The value shown: the controlled value when there is one. */
  function Value(s: PickerState, cfg: Config): string {
    if cfg.valueProp.Some? then cfg.valueProp.value else s.internalValue
  }

  /** The month stays in range and a closed picker sits in the day view. */
  predicate WellFormed(s: PickerState) {
    0 <= s.viewMonth < 12 && (!s.open ==> s.view == DayView)
  }

  /** `select(ymd)`: keep the value when uncontrolled, report it, close and
      return to the day view. */
  function Select(s: PickerState, cfg: Config, ymd: string): (PickerState, Option<string>) {
    (s.(internalValue := if cfg.valueProp.None? then ymd else s.internalValue, open := false, view := DayView),
     Some(ymd))
  }

  /** Whether a day button is shown and enabled in the current month. */
  predicate DayPickable(s: PickerState, cfg: Config, day: int)
    requires 0 <= s.viewMonth < 12
  {
    && 1 <= day <= DaysInMonth(ConstructorYear(s.viewYear), s.viewMonth)
    && !IsDisabled(CellKey(s.viewYear, s.viewMonth, day), cfg.min, cfg.max)
  }

  /** The view changes the buttons can make. */
  predicate ViewEdge(from: View, e: Event, to: View) {
    || (e == Toggle && to == DayView)
    || (e == OutsideClick && to == DayView)
    || (from == DayView && e == ShowMonths && to == MonthView)
    || (from in {DayView, MonthView} && e == ShowYears && to == YearView)
    || (from == MonthView && e.PickMonth? && to == DayView)
    || (from == YearView && e.PickYear? && to == MonthView)
  }

  /** One event on a well-formed state; the second component is the value
      reported to `onChange`, if any. A button that is not shown has no
      effect. */
  function Step(s: PickerState, cfg: Config, e: Event): (r: (PickerState, Option<string>))
    requires WellFormed(s)
    ensures WellFormed(r.0)
    ensures r.0.view != s.view ==> ViewEdge(s.view, e, r.0.view)
    ensures !s.open && e != Toggle ==> r == (s, None)
    ensures r.1.Some? ==>
      && (e.PickDay? || e == Clear)
      && !r.0.open && r.0.view == DayView
      && Value(r.0, cfg) == (if cfg.valueProp.None? then r.1.value else Value(s, cfg))
      && (r.1.value == "" || !IsDisabled(r.1.value, cfg.min, cfg.max))
    ensures e.PickDay? && r.1.Some? ==>
      DayPickable(s, cfg, e.day) && r.1.value == CellKey(s.viewYear, s.viewMonth, e.day)
  {
    if e == Toggle then (s.(open := !s.open, view := DayView), None)
    else if !s.open then (s, None)
    else
      match e
      case OutsideClick => (s.(open := false, view := DayView), None)
      case PrevMonthClick =>
        if s.view != DayView then (s, None)
        else
          var p := PrevMonth(s.viewYear, s.viewMonth);
          (s.(viewYear := p.0, viewMonth := p.1), None)
      case NextMonthClick =>
        if s.view != DayView then (s, None)
        else
          var n := NextMonth(s.viewYear, s.viewMonth);
          (s.(viewYear := n.0, viewMonth := n.1), None)
      case ShowMonths => if s.view == DayView then (s.(view := MonthView), None) else (s, None)
      case ShowYears => if s.view != YearView then (s.(view := YearView), None) else (s, None)
      case PickDay(day) =>
        if s.view == DayView && DayPickable(s, cfg, day)
        then Select(s, cfg, CellKey(s.viewYear, s.viewMonth, day))
        else (s, None)
      case Clear =>
        if s.view == DayView && Value(s, cfg) != "" then Select(s, cfg, "") else (s, None)
      case PrevYear => if s.view == MonthView then (s.(viewYear := s.viewYear - 1), None) else (s, None)
      case NextYear => if s.view == MonthView then (s.(viewYear := s.viewYear + 1), None) else (s, None)
      case PickMonth(month) =>
        if s.view == MonthView && 0 <= month < 12 then (s.(viewMonth := month, view := DayView), None)
        else (s, None)
      case PrevDecade => if s.view == YearView then (s.(viewYear := s.viewYear - 10), None) else (s, None)
      case NextDecade => if s.view == YearView then (s.(viewYear := s.viewYear + 10), None) else (s, None)
      case PickYear(year) =>
        if s.view == YearView && year in YearGrid(s.viewYear)
        then (s.(viewYear := year, view := MonthView), None)
        else (s, None)
      case Toggle => (s, None)
  }

  /** In the open day view, going back a month and forward again returns
      to the state before. */
  lemma {:induction false} MonthNavigationReturns(s: PickerState, cfg: Config)
    requires WellFormed(s) && s.open && s.view == DayView
    ensures var t := Step(s, cfg, PrevMonthClick).0;
      Step(t, cfg, NextMonthClick) == (s, None)
  {
    PrevNextInverse(s.viewYear, s.viewMonth);
  }

  /** Opening the picker and clicking outside it leaves it closed in the
      day view, whatever view it was left in. */
  lemma {:induction false} OutsideClickCloses(s: PickerState, cfg: Config)
    requires WellFormed(s) && s.open
    ensures var r := Step(s, cfg, OutsideClick);
      !r.0.open && r.0.view == DayView && r.1.None?
  {
  }
}

=== FILE: invitations_route.dfy ===
/** `POST /api/invitations` (src/app/api/invitations/route.ts): an ACTIVE
    user invites an email address; the guards run in source order and the
    first failing one decides the response. */
module InvitationsRoute {
  import opened Common
  import opened Text
  import opened Store

  /** The longest email address accepted. */
  const MaxEmailLength: nat := 254

  /** Seven days in milliseconds. */
  const InvitationLifetime: int := 7 * 24 * 60 * 60 * 1000

  datatype InvitationBody = InvitationBody(email: Option<string>)

  /** The first issue the email schema reports. */
  datatype EmailIssue = EmailMissing | EmailFormat | EmailTooLong

  /** The schema's normal form of an email: trimmed, then lower-cased. */
  function NormalEmail(s: string): (r: string)
    ensures |r| <= |s|
    ensures r == [] || (!IsJsWhitespace(r[0]) && !IsJsWhitespace(r[|r| - 1]))
    ensures forall i :: 0 <= i < |r| ==> !('A' <= r[i] <= 'Z')
  {
    Lower(Trim(s))
  }

  /** Normalising an already normal address changes nothing. */
  lemma {:induction false} NormalEmailIdempotent(s: string)
    ensures NormalEmail(NormalEmail(s)) == NormalEmail(s)
  {
    var t := Trim(s);
    TrimIdempotent(s);
    TrimLower(t);
    assert Trim(Lower(t)) == Lower(t);
    LowerIdempotent(t);
  }

  datatype EmailCheck = EmailOk(email: string) | EmailBad(issue: EmailIssue)

  /** The email schema: a required string, normalised, then checked by the
      validation library's email recogniser `isEmail`, then against the
      length bound. */
  function CheckEmail(raw: Option<string>, isEmail: string -> bool): (r: EmailCheck)
    ensures r == EmailBad(EmailMissing) <==> raw.None?
    ensures r == EmailBad(EmailFormat) <==> raw.Some? && !isEmail(NormalEmail(raw.value))
    ensures r == EmailBad(EmailTooLong) <==>
      raw.Some? && isEmail(NormalEmail(raw.value)) && |NormalEmail(raw.value)| > MaxEmailLength
    ensures r.EmailOk? ==>
      raw.Some? && r.email == NormalEmail(raw.value) && isEmail(r.email) && |r.email| <= MaxEmailLength
  {
    if raw.None? then EmailBad(EmailMissing)
    else
      var email := NormalEmail(raw.value);
      if !isEmail(email) then EmailBad(EmailFormat)
      else if |email| > MaxEmailLength then EmailBad(EmailTooLong)
      else EmailOk(email)
  }

  /** An invitation that still admits its email at time `now`. */
  predicate Admits(inv: Invitation, email: string, now: int) {
    inv.email == email && inv.status == InvitePending && inv.expiresAt > now
  }

  /** The first invitation that admits `email` at `now`. */
  function ActiveInvitation(invs: seq<Invitation>, email: string, now: int): (r: Option<Invitation>)
    ensures r.Some? ==> r.value in invs && Admits(r.value, email, now)
    ensures r.None? <==> forall k :: 0 <= k < |invs| ==> !Admits(invs[k], email, now)
    decreases |invs|
  {
    if invs == [] then None
    else if Admits(invs[0], email, now) then Some(invs[0])
    else ActiveInvitation(invs[1..], email, now)
  }

  /** Whether the store already holds an ACTIVE user with the email. */
  predicate HasAccess(users: seq<User>, email: string) {
    UserByEmail(users, email).Some? && UserByEmail(users, email).value.status == Active
  }

  datatype InvitationResponse =
    | Unauthorized
    | Forbidden
    | InvalidJson
    | InvalidEmail(issue: EmailIssue)
    | SelfInvitation
    | AlreadyHasAccess
    | AlreadyInvited
    /** The inviter's row is missing, so the invitation's foreign key fails. */
    | ServerError
    | InvitationCreated(invitation: Invitation)

  function StatusCode(r: InvitationResponse): (code: nat)
    ensures code == 201 <==> r.InvitationCreated?
    ensures code == 400 <==> r.InvalidJson? || r.InvalidEmail? || r.SelfInvitation?
    ensures code == 401 <==> r.Unauthorized?
    ensures code == 403 <==> r.Forbidden?
    ensures code == 409 <==> r.AlreadyHasAccess? || r.AlreadyInvited?
    ensures code == 500 <==> r.ServerError?
  {
    match r
    case Unauthorized => 401
    case Forbidden => 403
    case InvalidJson => 400
    case InvalidEmail(_) => 400
    case SelfInvitation => 400
    case AlreadyHasAccess => 409
    case AlreadyInvited => 409
    case ServerError => 500
    case InvitationCreated(_) => 201
  }

  /** Whether the normalised email is the inviter's own address, compared
      after lower-casing the session's email; with no session email nothing
      is one's own. */
  predicate IsSelf(session: SessionUser, email: string) {
    session.email.Some? && email == Lower(session.email.value)
  }

  /** The normalised email of a request from an ACTIVE session whose body
      passed the schema; `None` when an earlier guard answers. */
  function AcceptedEmail(session: Option<SessionUser>, body: Option<InvitationBody>,
                         isEmail: string -> bool): (r: Option<string>)
    ensures r.Some? <==>
      ActiveSessionUser(session).Some? && body.Some? && CheckEmail(body.value.email, isEmail).EmailOk?
    ensures r.Some? ==> session.Some? && Truthy(session.value.id) && r.value == CheckEmail(body.value.email, isEmail).email
  {
    if ActiveSessionUser(session).Some? && body.Some? && CheckEmail(body.value.email, isEmail).EmailOk?
    then Some(CheckEmail(body.value.email, isEmail).email) else None
  }

  /** `POST /api/invitations` at time `now`; `newId` is the id the store
      assigns. */
  function CreateInvitation(db: Db, session: Option<SessionUser>, body: Option<InvitationBody>,
                            isEmail: string -> bool, now: int, newId: string): (r: (InvitationResponse, Db))
    ensures r.0 == Unauthorized <==> !(session.Some? && Truthy(session.value.id))
    ensures r.0 == Forbidden <==>
      session.Some? && Truthy(session.value.id) && session.value.status != Some("ACTIVE")
    ensures r.0 == InvalidJson <==> ActiveSessionUser(session).Some? && body.None?
    ensures r.0.InvalidEmail? <==>
      ActiveSessionUser(session).Some? && body.Some? && CheckEmail(body.value.email, isEmail).EmailBad?
    ensures r.0.InvalidEmail? ==> r.0.issue == CheckEmail(body.value.email, isEmail).issue
    ensures r.0.InvitationCreated? <==>
      && ActiveSessionUser(session).Some? && body.Some?
      && CheckEmail(body.value.email, isEmail).EmailOk?
      && var email := CheckEmail(body.value.email, isEmail).email;
      && !IsSelf(session.value, email)
      && !HasAccess(db.users, email)
      && ActiveInvitation(db.invitations, email, now).None?
      && UserById(db.users, ActiveSessionUser(session).value).Some?
    ensures r.0 == SelfInvitation <==>
      AcceptedEmail(session, body, isEmail).Some? && IsSelf(session.value, AcceptedEmail(session, body, isEmail).value)
    ensures r.0 == AlreadyHasAccess <==>
      && AcceptedEmail(session, body, isEmail).Some?
      && var email := AcceptedEmail(session, body, isEmail).value;
      && !IsSelf(session.value, email) && HasAccess(db.users, email)
    ensures r.0 == AlreadyInvited <==>
      && AcceptedEmail(session, body, isEmail).Some?
      && var email := AcceptedEmail(session, body, isEmail).value;
      && !IsSelf(session.value, email) && !HasAccess(db.users, email)
      && ActiveInvitation(db.invitations, email, now).Some?
    ensures r.0 == ServerError <==>
      && AcceptedEmail(session, body, isEmail).Some?
      && var email := AcceptedEmail(session, body, isEmail).value;
      && !IsSelf(session.value, email) && !HasAccess(db.users, email)
      && ActiveInvitation(db.invitations, email, now).None?
      && UserById(db.users, session.value.id.value).None?
    ensures !r.0.InvitationCreated? ==> r.1 == db
    ensures r.0.InvitationCreated? ==>
      && r.0.invitation == Invitation(newId, CheckEmail(body.value.email, isEmail).email,
                                      ActiveSessionUser(session).value, InvitePending,
                                      now + InvitationLifetime, None)
      && r.1 == db.(invitations := db.invitations + [r.0.invitation])
  {
    if !(session.Some? && Truthy(session.value.id)) then (Unauthorized, db)
    else if session.value.status != Some("ACTIVE") then (Forbidden, db)
    else if body.None? then (InvalidJson, db)
    else
      match CheckEmail(body.value.email, isEmail)
      case EmailBad(issue) => (InvalidEmail(issue), db)
      case EmailOk(email) =>
        var userId := session.value.id.value;
        if IsSelf(session.value, email) then (SelfInvitation, db)
        else if HasAccess(db.users, email) then (AlreadyHasAccess, db)
        else if ActiveInvitation(db.invitations, email, now).Some? then (AlreadyInvited, db)
        else if UserById(db.users, userId).None? then (ServerError, db)
        else
          var inv := Invitation(newId, email, userId, InvitePending, now + InvitationLifetime, None);
          (InvitationCreated(inv), db.(invitations := db.invitations + [inv]))
  }

  /** Repeating a successful invitation before it expires is refused as a
      duplicate and leaves the store as the first request left it. */
  lemma {:induction false} RepeatedInvitationRefused(db: Db, session: Option<SessionUser>, body: Option<InvitationBody>,
                                  isEmail: string -> bool, now: int, newId: string,
                                  later: int, otherId: string)
    requires CreateInvitation(db, session, body, isEmail, now, newId).0.InvitationCreated?
    requires now <= later < now + InvitationLifetime
    ensures var db' := CreateInvitation(db, session, body, isEmail, now, newId).1;
      CreateInvitation(db', session, body, isEmail, later, otherId) == (AlreadyInvited, db')
  {
    var first := CreateInvitation(db, session, body, isEmail, now, newId);
    var db' := first.1;
    var inv := first.0.invitation;
    assert db'.invitations[|db.invitations|] == inv;
    assert Admits(inv, inv.email, later);
  }

  /** An invitation is only ever created for an address that is normal,
      valid and within the length bound. */
  lemma {:induction false} CreatedEmailIsNormal(db: Db, session: Option<SessionUser>, body: Option<InvitationBody>,
                             isEmail: string -> bool, now: int, newId: string)
    requires CreateInvitation(db, session, body, isEmail, now, newId).0.InvitationCreated?
    ensures var email := CreateInvitation(db, session, body, isEmail, now, newId).0.invitation.email;
      && NormalEmail(email) == email && isEmail(email) && |email| <= MaxEmailLength
  {
    NormalEmailIdempotent(body.value.email.value);
  }
}

=== FILE: item_list.dfy ===
/** The derived vote tally of the item list (src/components/item-list.tsx)
    and the controls an item card shows for its status. */
module ItemList {
  import opened Common
  import opened Store
  import Recalculate

  /** The votes cast on one item, in store order (`item.votes`). */
  function ItemVotes(votes: seq<Vote>, itemId: string): (r: seq<Vote>)
    ensures |r| <= |votes|
    ensures forall v :: v in r <==> v in votes && v.itemId == itemId
    decreases |votes|
  {
    if votes == [] then []
    else (if votes[0].itemId == itemId then [votes[0]] else []) + ItemVotes(votes[1..], itemId)
  }

  /** Number of votes in `vs` with the given value. */
  function CountValue(vs: seq<Vote>, value: VoteValue): (n: nat)
    ensures n <= |vs|
    decreases |vs|
  {
    if vs == [] then 0 else (if vs[0].value == value then 1 else 0) + CountValue(vs[1..], value)
  }

  /** The value of the first vote in `vs` cast by `userId`, if any
      (`votes.find(...)?.value ?? null`). */
  function MyVote(vs: seq<Vote>, userId: string): (r: Option<VoteValue>)
    ensures r.None? <==> forall k :: 0 <= k < |vs| ==> vs[k].userId != userId
    ensures r.Some? ==> exists k :: 0 <= k < |vs| && vs[k].userId == userId && vs[k].value == r.value
                                    && forall j :: 0 <= j < k ==> vs[j].userId != userId
    decreases |vs|
  {
    if vs == [] then None
    else if vs[0].userId == userId then Some(vs[0].value)
    else
      var r := MyVote(vs[1..], userId);
      if r.Some? then
        ghost var k :| 0 <= k < |vs[1..]| && vs[1..][k].userId == userId && vs[1..][k].value == r.value
                       && forall j :: 0 <= j < k ==> vs[1..][j].userId != userId;
        assert vs[k + 1].userId == userId && vs[k + 1].value == r.value;
        r
      else r
  }

  /** What the list derives for one item. */
  datatype Summary = Summary(item: Item, approvals: nat, rejections: nat, myVote: Option<VoteValue>,
                             required: nat, isOwner: bool)

  function Summarise(it: Item, votes: seq<Vote>, activeUsers: nat, currentUserId: string): Summary {
    var vs := ItemVotes(votes, it.id);
    Summary(it, CountValue(vs, Approve), CountValue(vs, Reject), MyVote(vs, currentUserId),
            Threshold(activeUsers), it.createdById == currentUserId)
  }

  /** `ItemList`: one summary per stored item, against the majority of all
      ACTIVE users of the store. */
  function List(db: Db, currentUserId: string): (r: seq<Summary>)
    ensures |r| == |db.items|
    ensures forall k :: 0 <= k < |r| ==> r[k].item == db.items[k] && r[k].required >= 1
    ensures forall k :: 0 <= k < |r| ==> (r[k].isOwner <==> db.items[k].createdById == currentUserId)
  {
    seq(|db.items|, k requires 0 <= k < |db.items| =>
      Summarise(db.items[k], db.votes, ActiveUserCount(db.users), currentUserId))
  }

  /** With only two vote values, approvals and rejections add up to the
      number of votes. */
  lemma {:induction false} TallySum(vs: seq<Vote>)
    ensures CountValue(vs, Approve) + CountValue(vs, Reject) == |vs|
    decreases |vs|
  {
    if vs != [] {
      TallySum(vs[1..]);
    }
  }

  /** The list counts the same votes the re-evaluation counts. */
  lemma {:induction false} ListCountsAgree(votes: seq<Vote>, itemId: string, value: VoteValue)
    ensures CountValue(ItemVotes(votes, itemId), value) == CountVotes(votes, itemId, value)
    decreases |votes|
  {
    if votes != [] {
      ListCountsAgree(votes[1..], itemId, value);
      var head := if votes[0].itemId == itemId then [votes[0]] else [];
      CountValueConcat(head, ItemVotes(votes[1..], itemId), value);
    }
  }

  lemma {:induction false} CountValueConcat(a: seq<Vote>, b: seq<Vote>, value: VoteValue)
    ensures CountValue(a + b, value) == CountValue(a, value) + CountValue(b, value)
    decreases |a|
  {
    if a == [] {
      assert a + b == b;
    } else {
      assert (a + b)[1..] == a[1..] + b;
      CountValueConcat(a[1..], b, value);
    }
  }

  /** Each summary's approvals and rejections are the item's APPROVE and
      REJECT votes, which together are all its votes; the required count is
      the majority of the ACTIVE users. */
  lemma {:induction false} ListTally(db: Db, currentUserId: string)
    ensures var l := List(db, currentUserId);
      forall k :: 0 <= k < |l| ==>
        && l[k].approvals == CountVotes(db.votes, db.items[k].id, Approve)
        && l[k].rejections == CountVotes(db.votes, db.items[k].id, Reject)
        && l[k].approvals + l[k].rejections == |ItemVotes(db.votes, db.items[k].id)|
        && l[k].required == Threshold(ActiveUserCount(db.users))
        && l[k].myVote == MyVote(ItemVotes(db.votes, db.items[k].id), currentUserId)
  {
    var l := List(db, currentUserId);
    forall k | 0 <= k < |l|
      ensures l[k].approvals == CountVotes(db.votes, db.items[k].id, Approve)
      ensures l[k].rejections == CountVotes(db.votes, db.items[k].id, Reject)
      ensures l[k].approvals + l[k].rejections == |ItemVotes(db.votes, db.items[k].id)|
    {
      ListCountsAgree(db.votes, db.items[k].id, Approve);
      ListCountsAgree(db.votes, db.items[k].id, Reject);
      TallySum(ItemVotes(db.votes, db.items[k].id));
    }
  }

  /** After a re-evaluation with at least one ACTIVE user, every item the
      list still shows as pending has fewer approvals and fewer rejections
      than the majority it displays. */
  lemma {:induction false} PendingBelowRequired(db: Db, currentUserId: string)
    requires ActiveUserCount(db.users) > 0
    ensures var l := List(Recalculate.Recalculate(db).1, currentUserId);
      forall k :: 0 <= k < |l| && l[k].item.status == Pending ==>
        l[k].approvals < l[k].required && l[k].rejections < l[k].required
  {
    var db' := Recalculate.Recalculate(db).1;
    Recalculate.RecalculateItems(db);
    var l := List(db', currentUserId);
    forall k | 0 <= k < |l| && l[k].item.status == Pending
      ensures l[k].approvals < l[k].required && l[k].rejections < l[k].required
    {
      var id := db.items[k].id;
      ListCountsAgree(db.votes, id, Approve);
      ListCountsAgree(db.votes, id, Reject);
    }
  }

  // ---------------------------------------------------------------------
  // Item card controls.

  datatype VoteArea = NoVoteArea | OwnerNotice | VoteButtons

  /** What an item card shows besides its fields. */
  datatype Controls = Controls(tally: bool, checkIn: bool, voting: VoteArea)

  function CardControls(status: ItemStatus, isOwner: bool): (c: Controls)
    ensures c.tally <==> status != Pending
    ensures c.checkIn <==> status == Approved
    ensures c.voting == VoteButtons <==> status == Pending && !isOwner
    ensures c.voting == OwnerNotice <==> status == Pending && isOwner
  {
    Controls(status != Pending, status == Approved,
             if status != Pending then NoVoteArea else if isOwner then OwnerNotice else VoteButtons)
  }

  /** After a re-evaluation with at least one ACTIVE user, a card whose
      approvals or rejections reach the displayed majority offers nobody
      vote buttons or the owner notice: it shows the tally instead. */
  lemma {:induction false} DecidedCardsShowTally(db: Db, currentUserId: string)
    requires ActiveUserCount(db.users) > 0
    ensures var l := List(Recalculate.Recalculate(db).1, currentUserId);
      forall k :: 0 <= k < |l| && (l[k].approvals >= l[k].required || l[k].rejections >= l[k].required) ==>
        var c := CardControls(l[k].item.status, l[k].isOwner);
        c.voting == NoVoteArea && c.tally
  {
    PendingBelowRequired(db, currentUserId);
  }
}

=== FILE: items_route.dfy ===
/** `POST /api/items` (src/app/api/items/route.ts): session guard, input
    validation, the 30-second duplicate guard, and the atomic creation of a
    pending item together with its creator's APPROVE vote, approved at once
    when the trip's electorate is at most one. */
module ItemsRoute {
  import opened Common
  import opened Text
  import opened Store

  /** The request body's fields; `None` is an absent field. */
  datatype CreateItemBody = CreateItemBody(title: Option<string>, kind: Option<string>, tripId: Option<string>,
                                           description: Option<string>, location: Option<string>,
                                           externalUrl: Option<string>, imageUrl: Option<string>)

  /** The body fields in the order the schema declares them, which is the
      order its issues are reported in. */
  datatype ItemField = TitleField | TypeField | TripIdField | DescriptionField | LocationField
                     | ExternalUrlField | ImageUrlField

  function FieldIndex(f: ItemField): nat {
    match f
    case TitleField => 0
    case TypeField => 1
    case TripIdField => 2
    case DescriptionField => 3
    case LocationField => 4
    case ExternalUrlField => 5
    case ImageUrlField => 6
  }

  /** The string recognisers of the validation library: URL and CUID. */
  datatype Recognisers = Recognisers(isUrl: string -> bool, isCuid: string -> bool)

  const CloudinaryPrefix: string := "https://res.cloudinary.com/"

  /** What each field must satisfy. */
  predicate FieldOk(b: CreateItemBody, f: ItemField, rec: Recognisers) {
    match f
    case TitleField => b.title.Some? && 1 <= |Trim(b.title.value)| <= 255
    case TypeField => b.kind == Some("PLACE") || b.kind == Some("FOOD")
    case TripIdField => b.tripId.Some? && rec.isCuid(b.tripId.value)
    case DescriptionField => b.description.None? || |Trim(b.description.value)| <= 1000
    case LocationField => b.location.None? || |Trim(b.location.value)| <= 500
    case ExternalUrlField =>
      b.externalUrl.None? || rec.isUrl(Trim(b.externalUrl.value)) || b.externalUrl.value == ""
    case ImageUrlField =>
      b.imageUrl.None? || (rec.isUrl(b.imageUrl.value) && StartsWith(b.imageUrl.value, CloudinaryPrefix))
  }

  /** The fields before position `i` in schema order all pass. */
  predicate OkBefore(b: CreateItemBody, rec: Recognisers, i: nat) {
    && (i > 0 ==> FieldOk(b, TitleField, rec))
    && (i > 1 ==> FieldOk(b, TypeField, rec))
    && (i > 2 ==> FieldOk(b, TripIdField, rec))
    && (i > 3 ==> FieldOk(b, DescriptionField, rec))
    && (i > 4 ==> FieldOk(b, LocationField, rec))
    && (i > 5 ==> FieldOk(b, ExternalUrlField, rec))
    && (i > 6 ==> FieldOk(b, ImageUrlField, rec))
  }

  lemma {:induction false} OkBeforeMeans(b: CreateItemBody, rec: Recognisers, i: nat)
    ensures OkBefore(b, rec, i) <==> forall f :: FieldIndex(f) < i ==> FieldOk(b, f, rec)
  {
    if OkBefore(b, rec, i) {
      forall f | FieldIndex(f) < i ensures FieldOk(b, f, rec) {
        match f
        case TitleField =>
        case TypeField =>
        case TripIdField =>
        case DescriptionField =>
        case LocationField =>
        case ExternalUrlField =>
        case ImageUrlField =>
      }
    }
    if forall f :: FieldIndex(f) < i ==> FieldOk(b, f, rec) {
      assert FieldIndex(TitleField) == 0 && FieldIndex(TypeField) == 1 && FieldIndex(TripIdField) == 2;
      assert FieldIndex(DescriptionField) == 3 && FieldIndex(LocationField) == 4;
      assert FieldIndex(ExternalUrlField) == 5 && FieldIndex(ImageUrlField) == 6;
    }
  }

  /** The parsed input, with trimmed text and the empty external URL
      stored as absent. */
  datatype NewItem = NewItem(title: string, kind: ItemType, tripId: string, description: Option<string>,
                             location: Option<string>, externalUrl: Option<string>, imageUrl: Option<string>)

  /** `externalUrl || null` on the parsed URL: the trimmed URL, or absent
      when the field is missing or parses to the empty string. */
  function ExternalUrlOf(s: Option<string>, rec: Recognisers): (r: Option<string>)
    ensures r.Some? <==> s.Some? && rec.isUrl(Trim(s.value)) && Trim(s.value) != ""
    ensures r.Some? ==> r.value == Trim(s.value)
  {
    if s.None? then None
    else if rec.isUrl(Trim(s.value)) && Trim(s.value) != "" then Some(Trim(s.value))
    else None
  }

  datatype Validation = Valid(input: NewItem) | Invalid(field: ItemField)

  /** The first field in schema order that fails, if any. */
  function FirstFailure(b: CreateItemBody, rec: Recognisers): (r: Option<ItemField>)
    ensures r.None? <==> forall f :: FieldOk(b, f, rec)
    ensures r.Some? ==> !FieldOk(b, r.value, rec)
                        && forall f :: FieldIndex(f) < FieldIndex(r.value) ==> FieldOk(b, f, rec)
  {
    if !FieldOk(b, TitleField, rec) then Some(TitleField)
    else if !FieldOk(b, TypeField, rec) then OkBeforeMeans(b, rec, 1); Some(TypeField)
    else if !FieldOk(b, TripIdField, rec) then OkBeforeMeans(b, rec, 2); Some(TripIdField)
    else if !FieldOk(b, DescriptionField, rec) then OkBeforeMeans(b, rec, 3); Some(DescriptionField)
    else if !FieldOk(b, LocationField, rec) then OkBeforeMeans(b, rec, 4); Some(LocationField)
    else if !FieldOk(b, ExternalUrlField, rec) then OkBeforeMeans(b, rec, 5); Some(ExternalUrlField)
    else if !FieldOk(b, ImageUrlField, rec) then OkBeforeMeans(b, rec, 6); Some(ImageUrlField)
    else OkBeforeMeans(b, rec, 7); None
  }

  /** `createItemSchema.safeParse`: the parsed input, or the first field
      in schema order that fails. */
  function Validate(b: CreateItemBody, rec: Recognisers): (r: Validation)
    ensures r.Valid? <==> forall f :: FieldOk(b, f, rec)
    ensures r.Invalid? ==> !FieldOk(b, r.field, rec)
                           && forall f :: FieldIndex(f) < FieldIndex(r.field) ==> FieldOk(b, f, rec)
    ensures r.Valid? ==> b.title.Some? && b.tripId.Some?
    ensures r.Valid? ==> r.input.title == Trim(b.title.value) && 1 <= |r.input.title| <= 255
                         && r.input.description == TrimOpt(b.description)
                         && r.input.location == TrimOpt(b.location)
                         && r.input.externalUrl == ExternalUrlOf(b.externalUrl, rec)
                         && r.input.imageUrl == b.imageUrl
                         && r.input.tripId == b.tripId.value
                         && (r.input.kind == Place <==> b.kind == Some("PLACE"))
  {
    match FirstFailure(b, rec)
    case Some(f) => Invalid(f)
    case None =>
      assert FieldOk(b, TitleField, rec) && FieldOk(b, TripIdField, rec);
      Valid(NewItem(Trim(b.title.value), if b.kind == Some("PLACE") then Place else Food, b.tripId.value,
                    TrimOpt(b.description), TrimOpt(b.location), ExternalUrlOf(b.externalUrl, rec),
                    b.imageUrl))
  }

  /** The window of the duplicate guard, in milliseconds. */
  const DuplicateWindow: int := 30000

  /** An item the same user created with the same type and a title equal
      up to letter case, less than 30 seconds ago; any trip counts. */
  predicate IsRecentDuplicate(it: Item, userId: string, n: NewItem, now: int) {
    && it.createdById == userId
    && Lower(it.title) == Lower(n.title)
    && it.kind == n.kind
    && it.createdAt > now - DuplicateWindow
  }

  predicate HasRecentDuplicate(items: seq<Item>, userId: string, n: NewItem, now: int) {
    exists k :: 0 <= k < |items| && IsRecentDuplicate(items[k], userId, n, now)
  }

  datatype ItemResponse =
    | Unauthorized
    | InvalidJson
    | InvalidInput(field: ItemField)
    | DuplicateSubmission
    /** The store refused the insert: the trip or the creator does not
        exist, so a foreign key fails and the transaction rolls back. */
    | ServerError
    | ItemCreated(item: Item)

  function StatusCode(r: ItemResponse): (code: int)
    ensures code == 201 <==> r.ItemCreated?
    ensures code == 400 <==> r.InvalidJson? || r.InvalidInput?
    ensures code == 401 <==> r.Unauthorized?
    ensures code == 409 <==> r.DuplicateSubmission?
    ensures code == 500 <==> r.ServerError?
  {
    match r
    case Unauthorized => 401
    case InvalidJson => 400
    case InvalidInput(_) => 400
    case DuplicateSubmission => 409
    case ServerError => 500
    case ItemCreated(_) => 201
  }

  /** The stored item: pending, unless the trip's electorate of registered
      ACTIVE participants is small enough that the creator's own vote is a
      majority. */
  function StoredItem(db: Db, userId: string, n: NewItem, now: int, newId: string): Item {
    var eligible := EligibleCount(db.users, db.participants, n.tripId);
    Item(newId, n.title, n.kind, if Threshold(eligible) == 1 then Approved else Pending,
         n.description, n.location, n.externalUrl, n.imageUrl, userId, n.tripId, now)
  }

  /** `POST /api/items`. `body` is `None` when the request is not valid
      JSON; `now` is the clock and `newId` the id the store assigns.
      A created item is the trimmed input, created now by the session user;
      the store gains exactly that item and one APPROVE vote by its creator
      on it; the item is APPROVED exactly when the trip has at most one
      registered ACTIVE participant (none included), PENDING otherwise, and
      the response carries the stored status. On every other outcome the
      store is unchanged. */
  function CreateItem(db: Db, session: Option<SessionUser>, body: Option<CreateItemBody>, rec: Recognisers,
                      now: int, newId: string): (r: (ItemResponse, Db))
    ensures r.0.ItemCreated? <==>
      && ActiveSessionUser(session).Some?
      && body.Some?
      && Validate(body.value, rec).Valid?
      && !HasRecentDuplicate(db.items, ActiveSessionUser(session).value, Validate(body.value, rec).input, now)
      && TripById(db.trips, Validate(body.value, rec).input.tripId).Some?
      && UserById(db.users, ActiveSessionUser(session).value).Some?
    ensures !r.0.ItemCreated? ==> r.1 == db
    ensures r.0.ItemCreated? ==>
      var it := r.0.item;
      var userId := ActiveSessionUser(session).value;
      && r.1 == db.(items := db.items + [it], votes := db.votes + [Vote(userId, it.id, Approve)])
      && it.id == newId && it.createdById == userId && it.createdAt == now
      && it.title == Trim(body.value.title.value)
      && it.tripId == body.value.tripId.value
      && (it.kind == Place <==> body.value.kind == Some("PLACE"))
      && (it.kind == Food <==> body.value.kind == Some("FOOD"))
      && it.description == TrimOpt(body.value.description)
      && it.location == TrimOpt(body.value.location)
      && it.externalUrl == ExternalUrlOf(body.value.externalUrl, rec)
      && it.imageUrl == body.value.imageUrl
      && (it.status == Approved <==> EligibleCount(db.users, db.participants, it.tripId) <= 1)
      && (it.status == Pending <==> EligibleCount(db.users, db.participants, it.tripId) >= 2)
    ensures ActiveSessionUser(session).None? ==> r.0 == Unauthorized
    ensures ActiveSessionUser(session).Some? && body.None? ==> r.0 == InvalidJson
    ensures ActiveSessionUser(session).Some? && body.Some? && Validate(body.value, rec).Invalid? ==>
              r.0 == InvalidInput(Validate(body.value, rec).field)
    ensures r.0 == DuplicateSubmission <==>
      && ActiveSessionUser(session).Some? && body.Some? && Validate(body.value, rec).Valid?
      && HasRecentDuplicate(db.items, ActiveSessionUser(session).value, Validate(body.value, rec).input, now)
    ensures r.0 == ServerError <==>
      && ActiveSessionUser(session).Some? && body.Some? && Validate(body.value, rec).Valid?
      && !HasRecentDuplicate(db.items, ActiveSessionUser(session).value, Validate(body.value, rec).input, now)
      && (TripById(db.trips, Validate(body.value, rec).input.tripId).None?
          || UserById(db.users, ActiveSessionUser(session).value).None?)
  {
    match ActiveSessionUser(session)
    case None => (Unauthorized, db)
    case Some(userId) =>
      if body.None? then (InvalidJson, db)
      else
        match Validate(body.value, rec)
        case Invalid(f) => (InvalidInput(f), db)
        case Valid(n) =>
          if HasRecentDuplicate(db.items, userId, n, now) then (DuplicateSubmission, db)
          else if TripById(db.trips, n.tripId).None? || UserById(db.users, userId).None? then (ServerError, db)
          else
            var it := StoredItem(db, userId, n, now, newId);
            (ItemCreated(it), db.(items := db.items + [it], votes := db.votes + [Vote(userId, newId, Approve)]))
  }

  /** With an id no stored item or vote uses, the new item has exactly one
      vote, an approval by its creator, so the creator's vote is counted
      once. */
  lemma {:induction false} CreatedItemVotes(db: Db, session: Option<SessionUser>, body: Option<CreateItemBody>, rec: Recognisers,
                         now: int, newId: string)
    requires CreateItem(db, session, body, rec, now, newId).0.ItemCreated?
    requires forall k :: 0 <= k < |db.votes| ==> db.votes[k].itemId != newId
    ensures var db' := CreateItem(db, session, body, rec, now, newId).1;
      && CountVotes(db'.votes, newId, Approve) == 1
      && CountVotes(db'.votes, newId, Reject) == 0
  {
    var userId := ActiveSessionUser(session).value;
    var v := Vote(userId, newId, Approve);
    CountVotesAppend(db.votes, v, newId, Approve);
    CountVotesAppend(db.votes, v, newId, Reject);
  }

  /** The double-submit guard: repeating a successful request within 30
      seconds gets 409 and creates nothing. */
  lemma {:induction false} DoubleSubmitRejected(db: Db, session: Option<SessionUser>, body: Option<CreateItemBody>,
                             rec: Recognisers, now: int, newId: string, later: int, otherId: string)
    requires CreateItem(db, session, body, rec, now, newId).0.ItemCreated?
    requires now <= later < now + DuplicateWindow
    ensures var db' := CreateItem(db, session, body, rec, now, newId).1;
      CreateItem(db', session, body, rec, later, otherId) == (DuplicateSubmission, db')
  {
    var db' := CreateItem(db, session, body, rec, now, newId).1;
    var it := CreateItem(db, session, body, rec, now, newId).0.item;
    var n := Validate(body.value, rec).input;
    assert db'.items[|db.items|] == it;
    assert IsRecentDuplicate(it, ActiveSessionUser(session).value, n, later);
  }
}

=== FILE: ledger.dfy ===
/** The per-currency ledger of the settlement engine (src/lib/settlement.ts):
    one balance entry per distinct participant, credited by the expenses a
    participant paid, debited by the shares they owe, and adjusted by the
    direct payments they made or received. Money is an exact `real`. */
module Ledger {
  import opened Common

  datatype Share = Share(participantId: string, amount: real)

  /** An expense; `paidBy` is the nullable `paidByParticipantId`. */
  datatype Expense = Expense(id: string, amount: real, currency: string,
                             paidBy: Option<string>, shares: seq<Share>)

  datatype Payment = Payment(id: string, fromId: string, toId: string,
                             amount: real, currency: string)

  datatype Participant = Participant(id: string, name: string)

  /** One participant's position in one currency: what they paid, what they
      owe, and the net `balance` (positive: others owe them). */
  datatype Balance = Balance(participantId: string, name: string,
                             paid: real, owes: real, balance: real)

  function Ids(l: seq<Balance>): (r: seq<string>)
    ensures |r| == |l|
    ensures forall i :: 0 <= i < |l| ==> r[i] == l[i].participantId
  {
    seq(|l|, i requires 0 <= i < |l| => l[i].participantId)
  }

  function ParticipantIds(ps: seq<Participant>): (r: seq<string>)
    ensures |r| == |ps|
    ensures forall i :: 0 <= i < |ps| ==> r[i] == ps[i].id
  {
    seq(|ps|, i requires 0 <= i < |ps| => ps[i].id)
  }

  /** Position of the entry for `id`: `balanceMap.get(id)`. */
  function Find(l: seq<Balance>, id: string): (r: Option<nat>)
    ensures r.Some? ==> r.value < |l| && l[r.value].participantId == id
    ensures r.None? <==> id !in Ids(l)
  {
    if id in Ids(l) then Some(IndexOf(Ids(l), id)) else None
  }

  /** `balanceMap.set(p.id, zero entry)`: a key already present keeps its
      position and takes the new value; a new key goes last. */
  function SetEntry(l: seq<Balance>, p: Participant): (r: seq<Balance>)
    ensures p.id in Ids(l) ==> Ids(r) == Ids(l)
    ensures p.id !in Ids(l) ==> Ids(r) == Ids(l) + [p.id]
  {
    var zero := Balance(p.id, p.name, 0.0, 0.0, 0.0);
    match Find(l, p.id)
    case Some(i) => l[i := zero]
    case None => l + [zero]
  }

  /** Name of the last participant in `ps` with the given id. */
  function LastNameOf(ps: seq<Participant>, id: string): string
    requires id in ParticipantIds(ps)
  {
    var last := ps[|ps| - 1];
    if last.id == id then last.name
    else
      assert ParticipantIds(ps) == ParticipantIds(ps[..|ps| - 1]) + [last.id];
      LastNameOf(ps[..|ps| - 1], id)
  }

  /** The ledger before any expense: one zero entry per distinct
      participant id, in first-occurrence order; with repeated ids the last
      participant's name is kept. */
  function InitLedger(ps: seq<Participant>): (l: seq<Balance>)
    ensures InitLedgerOf(l, ps)
  {
    if ps == [] then []
    else
      var prefix, last := ps[..|ps| - 1], ps[|ps| - 1];
      assert ps == prefix + [last];
      var l' := InitLedger(prefix);
      InitLedgerStep(l', prefix, last);
      SetEntry(l', last)
  }

  /** What `InitLedger` promises: the distinct ids, zero amounts and the
      last name given to each id. */
  predicate InitLedgerOf(l: seq<Balance>, ps: seq<Participant>) {
    && Ids(l) == Distinct(ParticipantIds(ps))
    && (forall i :: 0 <= i < |l| ==> l[i].paid == 0.0 && l[i].owes == 0.0 && l[i].balance == 0.0)
    && (forall i :: 0 <= i < |l| ==>
          (l[i].participantId in ParticipantIds(ps) && l[i].name == LastNameOf(ps, l[i].participantId)))
  }

  lemma {:induction false} ParticipantIdsAppend(prefix: seq<Participant>, p: Participant)
    ensures ParticipantIds(prefix + [p]) == ParticipantIds(prefix) + [p.id]
  {
  }

  lemma {:induction false} DistinctAppend(s: seq<string>, x: string)
    ensures Distinct(s + [x]) == if x in Distinct(s) then Distinct(s) else Distinct(s) + [x]
  {
    assert (s + [x])[..|s|] == s;
  }

  /** The name of an id other than the last participant's is decided by
      the earlier participants. */
  lemma {:induction false} LastNameOfAppend(prefix: seq<Participant>, p: Participant, id: string)
    requires id in ParticipantIds(prefix + [p])
    ensures id == p.id ==> LastNameOf(prefix + [p], id) == p.name
    ensures id != p.id ==> id in ParticipantIds(prefix) && LastNameOf(prefix + [p], id) == LastNameOf(prefix, id)
  {
    var ps := prefix + [p];
    ParticipantIdsAppend(prefix, p);
    assert ps[..|ps| - 1] == prefix;
  }

  lemma {:induction false} InitLedgerStep(l: seq<Balance>, prefix: seq<Participant>, p: Participant)
    requires InitLedgerOf(l, prefix)
    ensures InitLedgerOf(SetEntry(l, p), prefix + [p])
  {
    var ps := prefix + [p];
    var r := SetEntry(l, p);
    ParticipantIdsAppend(prefix, p);
    DistinctAppend(ParticipantIds(prefix), p.id);
    assert Ids(r) == Distinct(ParticipantIds(ps));
    forall i | 0 <= i < |r|
      ensures r[i].participantId in ParticipantIds(ps) && r[i].name == LastNameOf(ps, r[i].participantId)
    {
      assert r[i].participantId == Ids(r)[i];
      assert r[i].participantId in ParticipantIds(ps);
      LastNameOfAppend(prefix, p, r[i].participantId);
      if r[i].participantId != p.id {
        assert r[i] == l[i];
      }
    }
  }

  /** Add to the entry for `id`, if there is one; otherwise nothing changes
      (an unknown id is silently ignored). */
  function Adjust(l: seq<Balance>, id: string, dPaid: real, dOwes: real, dBalance: real): (r: seq<Balance>)
    ensures Ids(r) == Ids(l)
    ensures forall i :: 0 <= i < |l| ==> r[i].name == l[i].name
    ensures NoDuplicates(Ids(l)) ==>
      forall i :: 0 <= i < |l| ==>
        r[i] == if l[i].participantId == id
                then l[i].(paid := l[i].paid + dPaid, owes := l[i].owes + dOwes,
                           balance := l[i].balance + dBalance)
                else l[i]
  {
    match Find(l, id)
    case None => l
    case Some(k) =>
      l[k := l[k].(paid := l[k].paid + dPaid, owes := l[k].owes + dOwes,
                   balance := l[k].balance + dBalance)]
  }

  /** The payer of an expense is credited only when the id is present and
      truthy: a null payer and an empty-string payer are both skipped. */
  predicate HasPayer(e: Expense) {
    Truthy(e.paidBy)
  }

  function CreditPayer(l: seq<Balance>, e: Expense): seq<Balance> {
    if HasPayer(e) then Adjust(l, e.paidBy.value, e.amount, 0.0, e.amount) else l
  }

  function DebitShares(l: seq<Balance>, shares: seq<Share>): (r: seq<Balance>)
    ensures Ids(r) == Ids(l)
    decreases |shares|
  {
    if shares == [] then l
    else DebitShares(Adjust(l, shares[0].participantId, 0.0, shares[0].amount, -shares[0].amount), shares[1..])
  }

  function ApplyExpense(l: seq<Balance>, e: Expense): seq<Balance> {
    DebitShares(CreditPayer(l, e), e.shares)
  }

  /** The expense loop for one currency: expenses in other currencies are
      skipped. */
  function ApplyExpenses(l: seq<Balance>, es: seq<Expense>, currency: string): seq<Balance>
    decreases |es|
  {
    if es == [] then l
    else ApplyExpenses(if es[0].currency == currency then ApplyExpense(l, es[0]) else l, es[1..], currency)
  }

  /** A payment raises the payer's balance and lowers the receiver's; `paid`
      and `owes` are not touched. */
  function ApplyPayment(l: seq<Balance>, p: Payment): seq<Balance> {
    Adjust(Adjust(l, p.fromId, 0.0, 0.0, p.amount), p.toId, 0.0, 0.0, -p.amount)
  }

  function ApplyPayments(l: seq<Balance>, ps: seq<Payment>, currency: string): seq<Balance>
    decreases |ps|
  {
    if ps == [] then l
    else ApplyPayments(if ps[0].currency == currency then ApplyPayment(l, ps[0]) else l, ps[1..], currency)
  }

  /** The balances of one currency, in participant order. */
  function LedgerFor(currency: string, expenses: seq<Expense>, participants: seq<Participant>,
                     payments: seq<Payment>): seq<Balance>
  {
    ApplyPayments(ApplyExpenses(InitLedger(participants), expenses, currency), payments, currency)
  }

  // ---------------------------------------------------------------------
  // Independent reference totals, written as plain sums over the inputs.

  /** Total of the expenses in `currency` paid by `id`. */
  function PaidBy(es: seq<Expense>, currency: string, id: string): real
    decreases |es|
  {
    if es == [] then 0.0
    else (if es[0].currency == currency && HasPayer(es[0]) && es[0].paidBy.value == id
          then es[0].amount else 0.0) + PaidBy(es[1..], currency, id)
  }

  /** Total of the shares of `id` in one expense. */
  function ShareOf(shares: seq<Share>, id: string): real
    decreases |shares|
  {
    if shares == [] then 0.0
    else (if shares[0].participantId == id then shares[0].amount else 0.0) + ShareOf(shares[1..], id)
  }

  /** Total that `id` owes through expenses in `currency`. */
  function OwedBy(es: seq<Expense>, currency: string, id: string): real
    decreases |es|
  {
    if es == [] then 0.0
    else (if es[0].currency == currency then ShareOf(es[0].shares, id) else 0.0) + OwedBy(es[1..], currency, id)
  }

  /** Total that `id` sent through payments in `currency`. */
  function SentBy(ps: seq<Payment>, currency: string, id: string): real
    decreases |ps|
  {
    if ps == [] then 0.0
    else (if ps[0].currency == currency && ps[0].fromId == id then ps[0].amount else 0.0)
         + SentBy(ps[1..], currency, id)
  }

  /** Total that `id` received through payments in `currency`. */
  function ReceivedBy(ps: seq<Payment>, currency: string, id: string): real
    decreases |ps|
  {
    if ps == [] then 0.0
    else (if ps[0].currency == currency && ps[0].toId == id then ps[0].amount else 0.0)
         + ReceivedBy(ps[1..], currency, id)
  }

  // ---------------------------------------------------------------------
  // The ledger agrees with the reference totals.

  lemma {:induction false} DebitSharesEntry(l: seq<Balance>, shares: seq<Share>)
    requires NoDuplicates(Ids(l))
    ensures Ids(DebitShares(l, shares)) == Ids(l)
    ensures forall i :: 0 <= i < |l| ==>
      var r := DebitShares(l, shares)[i];
      && r.name == l[i].name
      && r.paid == l[i].paid
      && r.owes == l[i].owes + ShareOf(shares, l[i].participantId)
      && r.balance == l[i].balance - ShareOf(shares, l[i].participantId)
    decreases |shares|
  {
    if shares != [] {
      var l' := Adjust(l, shares[0].participantId, 0.0, shares[0].amount, -shares[0].amount);
      DebitSharesEntry(l', shares[1..]);
    }
  }

  lemma {:induction false} ApplyExpensesEntry(l: seq<Balance>, es: seq<Expense>, currency: string)
    requires NoDuplicates(Ids(l))
    ensures Ids(ApplyExpenses(l, es, currency)) == Ids(l)
    ensures forall i :: 0 <= i < |l| ==>
      var r := ApplyExpenses(l, es, currency)[i];
      var id := l[i].participantId;
      && r.name == l[i].name
      && r.paid == l[i].paid + PaidBy(es, currency, id)
      && r.owes == l[i].owes + OwedBy(es, currency, id)
      && r.balance == l[i].balance + PaidBy(es, currency, id) - OwedBy(es, currency, id)
    decreases |es|
  {
    if es != [] {
      if es[0].currency == currency {
        var l1 := CreditPayer(l, es[0]);
        DebitSharesEntry(l1, es[0].shares);
        ApplyExpensesEntry(ApplyExpense(l, es[0]), es[1..], currency);
      } else {
        ApplyExpensesEntry(l, es[1..], currency);
      }
    }
  }

  lemma {:induction false} ApplyPaymentsEntry(l: seq<Balance>, ps: seq<Payment>, currency: string)
    requires NoDuplicates(Ids(l))
    ensures Ids(ApplyPayments(l, ps, currency)) == Ids(l)
    ensures forall i :: 0 <= i < |l| ==>
      var r := ApplyPayments(l, ps, currency)[i];
      var id := l[i].participantId;
      && r.name == l[i].name && r.paid == l[i].paid && r.owes == l[i].owes
      && r.balance == l[i].balance + SentBy(ps, currency, id) - ReceivedBy(ps, currency, id)
    decreases |ps|
  {
    if ps != [] {
      if ps[0].currency == currency {
        ApplyPaymentsEntry(ApplyPayment(l, ps[0]), ps[1..], currency);
      } else {
        ApplyPaymentsEntry(l, ps[1..], currency);
      }
    }
  }

  /** Each currency's ledger has one entry per distinct participant id, in
      first-occurrence order, and each entry's `paid` and `owes` are the
      participant's expense totals while `balance` is
      `paid - owes + paymentsMade - paymentsReceived`. Ids that match no
      participant contribute nothing. */
  lemma {:induction false} LedgerForEntries(currency: string, es: seq<Expense>, ps: seq<Participant>, pays: seq<Payment>)
    ensures Ids(LedgerFor(currency, es, ps, pays)) == Distinct(ParticipantIds(ps))
    ensures forall i :: 0 <= i < |LedgerFor(currency, es, ps, pays)| ==>
      var b := LedgerFor(currency, es, ps, pays)[i];
      var id := b.participantId;
      && b.name == LastNameOf(ps, id)
      && b.paid == PaidBy(es, currency, id)
      && b.owes == OwedBy(es, currency, id)
      && b.balance == b.paid - b.owes + SentBy(pays, currency, id) - ReceivedBy(pays, currency, id)
  {
    var l0 := InitLedger(ps);
    ApplyExpensesEntry(l0, es, currency);
    var l1 := ApplyExpenses(l0, es, currency);
    ApplyPaymentsEntry(l1, pays, currency);
  }

  // ---------------------------------------------------------------------
  // Conservation.

  function Total(l: seq<Balance>): real
    decreases |l|
  {
    if l == [] then 0.0 else l[0].balance + Total(l[1..])
  }

  lemma {:induction false} TotalUpdate(l: seq<Balance>, k: nat, x: Balance)
    requires k < |l|
    ensures Total(l[k := x]) == Total(l) - l[k].balance + x.balance
    decreases |l|
  {
    if k > 0 {
      TotalUpdate(l[1..], k - 1, x);
      assert l[k := x][1..] == l[1..][k - 1 := x];
    }
  }

  /** Adjusting a known id moves the total by the balance delta; an unknown
      id leaves it alone. */
  lemma {:induction false} AdjustTotal(l: seq<Balance>, id: string, dPaid: real, dOwes: real, dBalance: real)
    ensures Total(Adjust(l, id, dPaid, dOwes, dBalance))
            == Total(l) + (if id in Ids(l) then dBalance else 0.0)
  {
    match Find(l, id)
    case None =>
    case Some(k) =>
      TotalUpdate(l, k, l[k].(paid := l[k].paid + dPaid, owes := l[k].owes + dOwes,
                              balance := l[k].balance + dBalance));
  }

  function SumShares(shares: seq<Share>): real
    decreases |shares|
  {
    if shares == [] then 0.0 else shares[0].amount + SumShares(shares[1..])
  }

  /** An expense whose payer and share holders are all known and whose
      shares add up to its amount. */
  predicate BalancedExpense(e: Expense, ids: seq<string>) {
    && HasPayer(e) && e.paidBy.value in ids
    && (forall k :: 0 <= k < |e.shares| ==> e.shares[k].participantId in ids)
    && SumShares(e.shares) == e.amount
  }

  lemma {:induction false} DebitSharesTotal(l: seq<Balance>, shares: seq<Share>)
    requires forall k :: 0 <= k < |shares| ==> shares[k].participantId in Ids(l)
    ensures Total(DebitShares(l, shares)) == Total(l) - SumShares(shares)
    decreases |shares|
  {
    if shares != [] {
      var s := shares[0];
      var l' := Adjust(l, s.participantId, 0.0, s.amount, -s.amount);
      AdjustTotal(l, s.participantId, 0.0, s.amount, -s.amount);
      assert Total(l') == Total(l) - s.amount;
      assert Ids(l') == Ids(l);
      forall k | 0 <= k < |shares[1..]| ensures shares[1..][k].participantId in Ids(l') {
        assert shares[1..][k] == shares[k + 1];
      }
      DebitSharesTotal(l', shares[1..]);
      assert DebitShares(l, shares) == DebitShares(l', shares[1..]);
    }
  }

  lemma {:induction false} ApplyExpensesTotal(l: seq<Balance>, es: seq<Expense>, currency: string)
    requires forall k :: 0 <= k < |es| && es[k].currency == currency ==> BalancedExpense(es[k], Ids(l))
    ensures Total(ApplyExpenses(l, es, currency)) == Total(l)
    decreases |es|
  {
    if es != [] {
      if es[0].currency == currency {
        var e := es[0];
        AdjustTotal(l, e.paidBy.value, e.amount, 0.0, e.amount);
        DebitSharesTotal(CreditPayer(l, e), e.shares);
        ApplyExpensesTotal(ApplyExpense(l, e), es[1..], currency);
      } else {
        ApplyExpensesTotal(l, es[1..], currency);
      }
    }
  }

  /** One payment between known participants keeps the total. */
  lemma {:induction false} ApplyPaymentTotal(l: seq<Balance>, p: Payment)
    requires p.fromId in Ids(l) && p.toId in Ids(l)
    ensures Total(ApplyPayment(l, p)) == Total(l)
    ensures Ids(ApplyPayment(l, p)) == Ids(l)
  {
    var l1 := Adjust(l, p.fromId, 0.0, 0.0, p.amount);
    AdjustTotal(l, p.fromId, 0.0, 0.0, p.amount);
    AdjustTotal(l1, p.toId, 0.0, 0.0, -p.amount);
  }

  lemma {:induction false} ApplyPaymentsTotal(l: seq<Balance>, ps: seq<Payment>, currency: string)
    requires forall k :: 0 <= k < |ps| && ps[k].currency == currency ==>
               ps[k].fromId in Ids(l) && ps[k].toId in Ids(l)
    ensures Total(ApplyPayments(l, ps, currency)) == Total(l)
    decreases |ps|
  {
    if ps != [] {
      if ps[0].currency == currency {
        var p := ps[0];
        var l2 := ApplyPayment(l, p);
        ApplyPaymentTotal(l, p);
        forall k | 0 <= k < |ps[1..]| && ps[1..][k].currency == currency
          ensures ps[1..][k].fromId in Ids(l2) && ps[1..][k].toId in Ids(l2)
        {
          assert ps[1..][k] == ps[k + 1];
        }
        ApplyPaymentsTotal(l2, ps[1..], currency);
      } else {
        ApplyPaymentsTotal(l, ps[1..], currency);
      }
    }
  }

  /** Conservation: when every expense of the currency has a known payer,
      known share holders and shares summing to its amount, and every
      payment of the currency is between known participants, the balances
      of that currency sum to zero. */
  lemma {:induction false} Conservation(currency: string, es: seq<Expense>, ps: seq<Participant>, pays: seq<Payment>)
    requires forall k :: 0 <= k < |es| && es[k].currency == currency ==>
               BalancedExpense(es[k], ParticipantIds(ps))
    requires forall k :: 0 <= k < |pays| && pays[k].currency == currency ==>
               pays[k].fromId in ParticipantIds(ps) && pays[k].toId in ParticipantIds(ps)
    ensures Total(LedgerFor(currency, es, ps, pays)) == 0.0
  {
    var l0 := InitLedger(ps);
    assert Total(l0) == 0.0 by { ZeroTotal(l0); }
    ApplyExpensesTotal(l0, es, currency);
    ApplyExpensesEntry(l0, es, currency);
    ApplyPaymentsTotal(ApplyExpenses(l0, es, currency), pays, currency);
  }

  lemma {:induction false} ZeroTotal(l: seq<Balance>)
    requires forall i :: 0 <= i < |l| ==> l[i].balance == 0.0
    ensures Total(l) == 0.0
    decreases |l|
  {
    if l != [] {
      ZeroTotal(l[1..]);
    }
  }
}

=== FILE: maps_url.dfy ===
/** The Google Maps search link of src/lib/maps-url.ts. URI-component
    encoding is a parameter. */
module MapsUrl {
  import opened Common
  import opened Text

  const SearchBase: string := "https://www.google.com/maps/search/?api=1&query="
  const PlaceIdParam: string := "&query_place_id="

  /** The search link for `location`, pinned to a place when a truthy
      place id is given (the place id itself is not encoded). */
  function GetMapsUrl(location: string, placeId: Option<string>, encode: string -> string): (r: string)
    ensures StartsWith(r, SearchBase + encode(location))
    ensures !Truthy(placeId) ==> r == SearchBase + encode(location)
    ensures Truthy(placeId) ==> |r| == |SearchBase + encode(location)| + |PlaceIdParam| + |placeId.value|
  {
    var base := SearchBase + encode(location);
    StartsWithConcat(base, if Truthy(placeId) then PlaceIdParam + placeId.value else []);
    if Truthy(placeId) then base + PlaceIdParam + placeId.value else base
  }

  /** The place id can be read back from the end of the pinned link, after
      the place-id parameter. */
  lemma {:induction false} PlaceIdReadBack(location: string, placeId: string, encode: string -> string)
    requires placeId != ""
    ensures var r := GetMapsUrl(location, Some(placeId), encode);
      var start := |SearchBase + encode(location)| + |PlaceIdParam|;
      && r[|SearchBase + encode(location)|..start] == PlaceIdParam
      && r[start..] == placeId
  {
  }

  /** For one location, the unpinned link is a strict prefix of every
      pinned one, and an empty place id pins nothing. */
  lemma {:induction false} UnpinnedIsStrictPrefix(location: string, placeId: Option<string>, encode: string -> string)
    ensures var plain := GetMapsUrl(location, None, encode);
      var pinned := GetMapsUrl(location, placeId, encode);
      && StartsWith(pinned, plain)
      && (|pinned| > |plain| <==> Truthy(placeId))
      && GetMapsUrl(location, Some(""), encode) == plain
  {
  }
}

=== FILE: middleware.dfy ===
/** The route guard of src/middleware.ts and the path matcher that decides
    which requests it sees. */
module Middleware {
  import opened Common
  import opened Text
  import opened Store

  const SignInPath: string := "/api/auth/signin"
  const AccessDeniedPath: string := "/auth/error?error=AccessDenied"

  datatype Decision = Redirect(location: string) | Next

  /** The guard: no session user is sent to sign in, a user whose session
      status is not ACTIVE is denied, anyone else passes. */
  function Guard(session: Option<SessionUser>): (d: Decision)
    ensures d == Redirect(SignInPath) <==> session.None?
    ensures d == Redirect(AccessDeniedPath) <==> session.Some? && session.value.status != Some("ACTIVE")
    ensures d == Next <==> session.Some? && session.value.status == Some("ACTIVE")
  {
    if session.None? then Redirect(SignInPath)
    else if session.value.status != Some("ACTIVE") then Redirect(AccessDeniedPath)
    else Next
  }

  /** Every session the API routes accept passes the guard; the guard
      alone does not look at the id, so the converse fails for a session
      without one. */
  lemma {:induction false} ActiveSessionPasses(session: Option<SessionUser>)
    ensures ActiveSessionUser(session).Some? ==> Guard(session) == Next
    ensures Guard(Some(SessionUser(None, Some("ACTIVE"), None))) == Next
    ensures ActiveSessionUser(Some(SessionUser(None, Some("ACTIVE"), None))).None?
  {
  }

  // ---------------------------------------------------------------------
  // The matcher `/((?!api/auth|auth|_next/static|_next/image|favicon.ico).*)`.

  /** The characters the regular-expression `.` does not match. */
  predicate IsLineTerminator(c: char) {
    c == '\n' || c == '\r' || c == '\U{2028}' || c == '\U{2029}'
  }

  /** One pattern character against one path character; `.` is the
      regular-expression wildcard. */
  predicate CharMatches(p: char, c: char) {
    if p == '.' then !IsLineTerminator(c) else c == p
  }

  /** Whether `s` begins with text the pattern `pat` matches. */
  predicate PatternPrefix(s: string, pat: string) {
    |pat| <= |s| && forall i :: 0 <= i < |pat| ==> CharMatches(pat[i], s[i])
  }

  /** The alternatives of the negative look-ahead. */
  const Excluded: seq<string> := ["api/auth", "auth", "_next/static", "_next/image", "favicon.ico"]

  predicate ExcludedStart(rest: string) {
    exists k :: 0 <= k < |Excluded| && PatternPrefix(rest, Excluded[k])
  }

  /** Whether a request path is guarded: a leading `/`, then a remainder
      that starts with none of the excluded alternatives and that `.*`
      covers up to the end. */
  function Matches(path: string): (b: bool)
    ensures b ==> |path| >= 1 && path[0] == '/'
    ensures b <==> |path| >= 1 && path[0] == '/' && !ExcludedStart(path[1..])
                   && forall i :: 1 <= i < |path| ==> !IsLineTerminator(path[i])
  {
    if |path| >= 1 && path[0] == '/' && !ExcludedStart(path[1..]) then
      var rest := path[1..];
      assert forall i :: 1 <= i < |path| ==> path[i] == rest[i - 1];
      forall i :: 0 <= i < |rest| ==> !IsLineTerminator(rest[i])
    else false
  }

  /** With a literal pattern (no `.`), matching a prefix is `startsWith`. */
  lemma {:induction false} LiteralPrefix(s: string, pat: string)
    requires '.' !in pat
    ensures PatternPrefix(s, pat) <==> StartsWith(s, pat)
  {
    if PatternPrefix(s, pat) {
      assert s[..|pat|] == pat;
    }
  }

  /** Neither redirect target is guarded, so the guard cannot send a
      request into a redirect loop. */
  lemma {:induction false} RedirectTargetsUnguarded()
    ensures !Matches(SignInPath)
    ensures !Matches("/auth/error")
  {
    assert PatternPrefix(SignInPath[1..], Excluded[0]);
    assert PatternPrefix("/auth/error"[1..], Excluded[1]);
  }

  /** A remainder whose first character starts none of the alternatives
      is not excluded. */
  lemma {:induction false} NotExcluded(rest: string)
    requires |rest| >= 1 && rest[0] !in ['a', '_', 'f']
    ensures !ExcludedStart(rest)
  {
    forall k | 0 <= k < |Excluded| ensures !PatternPrefix(rest, Excluded[k]) {
      assert Excluded[k][0] in ['a', '_', 'f'];
    }
  }

  /** The home page and the dashboard are guarded. */
  lemma {:induction false} PagesGuarded()
    ensures Matches("/")
    ensures Matches("/dashboard")
  {
    var d := "/dashboard";
    NotExcluded(d[1..]);
  }

  /** The alternatives are prefixes, not path segments, and `.` is a
      wildcard: `/authors` and `/favicon_ico` are left unguarded too. */
  lemma {:induction false} ExclusionIsByPrefix()
    ensures !Matches("/authors")
    ensures !Matches("/favicon_ico")
  {
    assert PatternPrefix("/authors"[1..], Excluded[1]);
    assert PatternPrefix("/favicon_ico"[1..], Excluded[4]);
  }
}

=== FILE: recalculate.dfy ===
/** `recalculatePendingItems` (src/lib/recalculate.ts): re-checks every
    pending item against the majority of the ACTIVE users of the whole
    store, approving before rejecting, with both bulk updates guarded by
    the pending status. One call is one atomic step on the store. */
module Recalculate {
  import opened Common
  import opened Store

  /** Ids of the pending items. */
  function PendingIds(items: seq<Item>): (r: set<string>)
    ensures forall id :: id in r <==> exists k :: 0 <= k < |items| && items[k].id == id && items[k].status == Pending
  {
    set k | 0 <= k < |items| && items[k].status == Pending :: items[k].id
  }

  /** The pending items whose approvals reach the threshold. */
  function ToApprove(items: seq<Item>, votes: seq<Vote>, threshold: nat): (r: set<string>)
    ensures forall id :: id in r <==> id in PendingIds(items) && CountVotes(votes, id, Approve) >= threshold
  {
    set id | id in PendingIds(items) && CountVotes(votes, id, Approve) >= threshold
  }

  /** The pending items not approved whose rejections reach the threshold. */
  function ToReject(items: seq<Item>, votes: seq<Vote>, threshold: nat): (r: set<string>)
    ensures forall id :: id in r <==> id in PendingIds(items) && CountVotes(votes, id, Approve) < threshold
                                       && CountVotes(votes, id, Reject) >= threshold
  {
    set id | id in PendingIds(items) && CountVotes(votes, id, Approve) < threshold
                                     && CountVotes(votes, id, Reject) >= threshold
  }

  /** Number of positions where two equally long item lists differ. */
  function Changed(a: seq<Item>, b: seq<Item>): (n: nat)
    requires |a| == |b|
    ensures n <= |a|
    ensures n == 0 <==> a == b
    decreases |a|
  {
    if a == [] then 0
    else
      assert a == [a[0]] + a[1..] && b == [b[0]] + b[1..];
      (if a[0] != b[0] then 1 else 0) + Changed(a[1..], b[1..])
  }

  function PendingCount(items: seq<Item>): (n: nat)
    ensures n <= |items|
    decreases |items|
  {
    if items == [] then 0 else (if items[0].status == Pending then 1 else 0) + PendingCount(items[1..])
  }

  /** `updateMany({ where: { id in ids, status: PENDING }, data: { status } })`:
      every pending item with an id in `ids` takes the new status, nothing
      else changes, and the reported count is the number of rows changed. */
  function UpdateMany(items: seq<Item>, ids: set<string>, status: ItemStatus): (r: (seq<Item>, nat))
    requires status != Pending
    ensures |r.0| == |items|
    ensures forall k :: 0 <= k < |items| ==>
      r.0[k] == if items[k].id in ids && items[k].status == Pending then items[k].(status := status) else items[k]
    ensures r.1 == Changed(items, r.0)
    decreases |items|
  {
    if items == [] then ([], 0)
    else
      var rest := UpdateMany(items[1..], ids, status);
      var head := if items[0].id in ids && items[0].status == Pending then items[0].(status := status) else items[0];
      var updated := [head] + rest.0;
      assert updated[1..] == rest.0 && updated[0] == head;
      var count: nat := (if head != items[0] then 1 else 0) + rest.1;
      (updated, count)
  }

  /** The first bulk update, issued only when some item is to be
      approved. */
  function ApproveStep(items: seq<Item>, votes: seq<Vote>, threshold: nat): (r: (seq<Item>, nat))
    ensures |r.0| == |items|
  {
    var approve := ToApprove(items, votes, threshold);
    if approve != {} then UpdateMany(items, approve, Approved) else (items, 0)
  }

  /** The second bulk update, on the items as the first one left them,
      issued only when some item is to be rejected. */
  function RejectStep(current: seq<Item>, items: seq<Item>, votes: seq<Vote>, threshold: nat): (r: (seq<Item>, nat))
    ensures |r.0| == |current|
  {
    var reject := ToReject(items, votes, threshold);
    if reject != {} then UpdateMany(current, reject, Rejected) else (current, 0)
  }

  /** The two guarded bulk updates: approvals first, then rejections. */
  function ApplyDecisions(items: seq<Item>, votes: seq<Vote>, threshold: nat): (r: (seq<Item>, nat))
    ensures |r.0| == |items|
  {
    var first := ApproveStep(items, votes, threshold);
    var second := RejectStep(first.0, items, votes, threshold);
    (second.0, first.1 + second.1)
  }

  /** The whole re-evaluation: the number of items whose status changed,
      and the store afterwards. */
  function Recalculate(db: Db): (r: (nat, Db))
    ensures r.1 == db.(items := r.1.items)
    ensures |r.1.items| == |db.items|
  {
    var active := ActiveUserCount(db.users);
    if active == 0 then (0, db)
    else if PendingIds(db.items) == {} then (0, db)
    else
      var r := ApplyDecisions(db.items, db.votes, Threshold(active));
      (r.1, db.(items := r.0))
  }

  /** The status a stored item has after re-evaluation against `threshold`. */
  function NewStatus(it: Item, votes: seq<Vote>, threshold: nat): (s: ItemStatus)
    ensures it.status != Pending ==> s == it.status
    ensures it.status == Pending ==>
      s == Decide(CountVotes(votes, it.id, Approve), CountVotes(votes, it.id, Reject), threshold)
  {
    if it.status == Pending
    then Decide(CountVotes(votes, it.id, Approve), CountVotes(votes, it.id, Reject), threshold)
    else it.status
  }

  lemma {:induction false} ApproveStepEffect(items: seq<Item>, votes: seq<Vote>, threshold: nat)
    ensures var r := ApproveStep(items, votes, threshold);
      && (forall k :: 0 <= k < |items| ==>
            r.0[k] == items[k].(status := if items[k].status == Pending && CountVotes(votes, items[k].id, Approve) >= threshold
                                          then Approved else items[k].status))
      && r.1 == Changed(items, r.0)
  {
    var approve := ToApprove(items, votes, threshold);
    if approve == {} {
      ChangedSame(items);
      forall k | 0 <= k < |items| && items[k].status == Pending
        ensures CountVotes(votes, items[k].id, Approve) < threshold
      {
        assert items[k].id in PendingIds(items);
      }
    } else {
      forall k | 0 <= k < |items| && items[k].status == Pending
        ensures items[k].id in approve <==> CountVotes(votes, items[k].id, Approve) >= threshold
      {
        assert items[k].id in PendingIds(items);
      }
    }
  }

  lemma {:induction false} RejectStepEffect(current: seq<Item>, items: seq<Item>, votes: seq<Vote>, threshold: nat)
    requires |current| == |items|
    requires forall k :: 0 <= k < |items| ==> current[k].id == items[k].id
    requires forall k :: 0 <= k < |items| ==> current[k].status == Pending ==> items[k].status == Pending
    ensures var r := RejectStep(current, items, votes, threshold);
      && (forall k :: 0 <= k < |items| ==>
            r.0[k] == current[k].(status := if current[k].status == Pending
                                                 && CountVotes(votes, items[k].id, Approve) < threshold
                                                 && CountVotes(votes, items[k].id, Reject) >= threshold
                                            then Rejected else current[k].status))
      && r.1 == Changed(current, r.0)
  {
    var reject := ToReject(items, votes, threshold);
    if reject == {} {
      ChangedSame(current);
      forall k | 0 <= k < |items| && current[k].status == Pending
        ensures !(CountVotes(votes, items[k].id, Approve) < threshold && CountVotes(votes, items[k].id, Reject) >= threshold)
      {
        assert items[k].id in PendingIds(items);
      }
    } else {
      forall k | 0 <= k < |items| && current[k].status == Pending
        ensures current[k].id in reject <==> (CountVotes(votes, items[k].id, Approve) < threshold
                                              && CountVotes(votes, items[k].id, Reject) >= threshold)
      {
        assert items[k].id in PendingIds(items);
      }
    }
  }

  /** After the two updates every item holds its decision, and the count
      is the number of items changed. */
  lemma {:induction false} ApplyDecisionsEffect(items: seq<Item>, votes: seq<Vote>, threshold: nat)
    ensures var r := ApplyDecisions(items, votes, threshold);
      && (forall k :: 0 <= k < |items| ==> r.0[k] == items[k].(status := NewStatus(items[k], votes, threshold)))
      && r.1 == Changed(items, r.0)
  {
    var first := ApproveStep(items, votes, threshold);
    ApproveStepEffect(items, votes, threshold);
    RejectStepEffect(first.0, items, votes, threshold);
    var second := RejectStep(first.0, items, votes, threshold);
    DecisionsCompose(items, votes, threshold, first.0, second.0);
    ChangedSplit(items, first.0, second.0);
  }

  /** The approval pass followed by the rejection pass leaves each item
      with its decision, and changes each item in at most one pass. */
  lemma {:induction false} DecisionsCompose(items: seq<Item>, votes: seq<Vote>, threshold: nat,
                                            first: seq<Item>, second: seq<Item>)
    requires |first| == |items| && |second| == |items|
    requires forall k :: 0 <= k < |items| ==>
      first[k] == items[k].(status := if items[k].status == Pending && CountVotes(votes, items[k].id, Approve) >= threshold
                                      then Approved else items[k].status)
    requires forall k :: 0 <= k < |items| ==>
      second[k] == first[k].(status := if first[k].status == Pending
                                            && CountVotes(votes, items[k].id, Approve) < threshold
                                            && CountVotes(votes, items[k].id, Reject) >= threshold
                                       then Rejected else first[k].status)
    ensures forall k :: 0 <= k < |items| ==> second[k] == items[k].(status := NewStatus(items[k], votes, threshold))
    ensures forall k :: 0 <= k < |items| ==> first[k] == items[k] || second[k] == first[k]
  {
  }

  lemma {:induction false} ChangedSame(a: seq<Item>)
    ensures Changed(a, a) == 0
  {
  }

  /** With no ACTIVE user nothing changes and the result is zero. */
  lemma {:induction false} RecalculateNoActiveUsers(db: Db)
    requires ActiveUserCount(db.users) == 0
    ensures Recalculate(db) == (0, db)
  {
  }

  /** Every item keeps all its fields but the status; a pending item takes
      the decision for its vote tally against the majority of the ACTIVE
      users; every other item is untouched. Votes count whoever cast them. */
  lemma {:induction false} RecalculateItems(db: Db)
    requires ActiveUserCount(db.users) > 0
    ensures var items' := Recalculate(db).1.items;
      var threshold := Threshold(ActiveUserCount(db.users));
      forall k :: 0 <= k < |db.items| ==>
        items'[k] == db.items[k].(status := NewStatus(db.items[k], db.votes, threshold))
  {
    var threshold := Threshold(ActiveUserCount(db.users));
    if PendingIds(db.items) != {} {
      ApplyDecisionsEffect(db.items, db.votes, threshold);
    } else {
      forall k | 0 <= k < |db.items|
        ensures db.items[k].status == Pending ==> db.items[k].id in PendingIds(db.items)
      {
      }
    }
  }

  /** The result counts exactly the items whose status changed, which is
      at most the number of pending items. */
  lemma {:induction false} RecalculateCount(db: Db)
    ensures Recalculate(db).0 == Changed(db.items, Recalculate(db).1.items)
    ensures Recalculate(db).0 <= PendingCount(db.items)
  {
    var active := ActiveUserCount(db.users);
    if active != 0 && PendingIds(db.items) != {} {
      ApplyDecisionsEffect(db.items, db.votes, Threshold(active));
      ChangedPending(db.items, Recalculate(db).1.items);
    } else {
      ChangedSame(db.items);
    }
  }

  /** If every position changes in at most one of two successive steps, the
      changes of the two steps add up. */
  lemma {:induction false} ChangedSplit(a: seq<Item>, b: seq<Item>, c: seq<Item>)
    requires |a| == |b| == |c|
    requires forall k :: 0 <= k < |a| ==> b[k] == a[k] || c[k] == b[k]
    ensures Changed(a, b) + Changed(b, c) == Changed(a, c)
    decreases |a|
  {
    if a != [] {
      ChangedSplit(a[1..], b[1..], c[1..]);
    }
  }

  /** Only pending items may have changed. */
  lemma {:induction false} ChangedPending(a: seq<Item>, b: seq<Item>)
    requires |a| == |b|
    requires forall k :: 0 <= k < |a| ==> b[k] != a[k] ==> a[k].status == Pending
    ensures Changed(a, b) <= PendingCount(a)
    decreases |a|
  {
    if a != [] {
      ChangedPending(a[1..], b[1..]);
    }
  }

  /** Re-evaluating twice changes nothing the second time: after one run
      no pending item has a tally that reaches the threshold. */
  lemma {:induction false} RecalculateIdempotent(db: Db)
    ensures var db' := Recalculate(db).1;
      Recalculate(db') == (0, db')
  {
    var db' := Recalculate(db).1;
    var active := ActiveUserCount(db.users);
    var threshold := Threshold(active);
    if active != 0 {
      RecalculateItems(db);
      assert ToApprove(db'.items, db'.votes, threshold) == {} by {
        forall id | id in PendingIds(db'.items)
          ensures CountVotes(db.votes, id, Approve) < threshold
        {
          var k :| 0 <= k < |db'.items| && db'.items[k].id == id && db'.items[k].status == Pending;
          assert db.items[k].status == Pending;
        }
      }
      assert ToReject(db'.items, db'.votes, threshold) == {} by {
        forall id | id in PendingIds(db'.items)
          ensures CountVotes(db.votes, id, Reject) < threshold
        {
          var k :| 0 <= k < |db'.items| && db'.items[k].id == id && db'.items[k].status == Pending;
          assert db.items[k].status == Pending;
        }
      }
      ChangedSame(db'.items);
    }
  }
}

=== FILE: settlement.dfy ===
/** `calculateSettlement` (src/lib/settlement.ts): per currency, the ledger
    of balances, then greedy matching of the largest creditor with the
    largest debtor into suggested transfers. */
module Settlement {
  import opened Common
  import opened Ledger
  import opened BalanceSort

  /** Balances within this distance of zero count as settled. */
  const Epsilon: real := 0.005

  datatype Transfer = Transfer(fromId: string, fromName: string, toId: string, toName: string,
                               amount: real, currency: string)

  /** The engine's result: the ledger of every currency, every suggested
      transfer, and the currencies in first-use order. */
  datatype SettlementResult = SettlementResult(balances: map<string, seq<Balance>>,
                                               settlements: seq<Transfer>,
                                               currencies: seq<string>)

  function Min(a: real, b: real): real {
    if a <= b then a else b
  }

  function Abs(a: real): real {
    if a < 0.0 then -a else a
  }

  /** `Math.round(x * 100) / 100` on exact reals: round half up to cents. */
  function RoundCents(x: real): (r: real)
    ensures x - 0.005 < r <= x + 0.005
    ensures (100.0 * r).Floor as real == 100.0 * r
  {
    ((100.0 * x + 0.5).Floor as real) / 100.0
  }

  /** A matched amount above the threshold rounds to at least one cent. */
  lemma {:induction false} RoundCentsAtLeastOneCent(x: real)
    requires x > Epsilon
    ensures RoundCents(x) >= 0.01
  {
    assert 100.0 * x + 0.5 > 1.0;
  }

  // ---------------------------------------------------------------------
  // Creditors and debtors.

  /** Entries with balance above the threshold, in ledger order. */
  function Above(l: seq<Balance>): (r: seq<Balance>)
    ensures forall b :: b in r <==> b in l && b.balance > Epsilon
    decreases |l|
  {
    if l == [] then [] else (if l[0].balance > Epsilon then [l[0]] else []) + Above(l[1..])
  }

  /** Entries with balance below minus the threshold, in ledger order. */
  function Below(l: seq<Balance>): (r: seq<Balance>)
    ensures forall b :: b in r <==> b in l && b.balance < -Epsilon
    decreases |l|
  {
    if l == [] then [] else (if l[0].balance < -Epsilon then [l[0]] else []) + Below(l[1..])
  }

  /** An entry is never both a creditor and a debtor. */
  lemma {:induction false} AboveBelowSize(l: seq<Balance>)
    ensures |Above(l)| + |Below(l)| <= |l|
    decreases |l|
  {
    if l != [] {
      AboveBelowSize(l[1..]);
    }
  }

  /** Filtering keeps ledger order: appending an entry to the ledger
      appends it to the creditors exactly when it is one. */
  lemma {:induction false} AboveAppend(l: seq<Balance>, b: Balance)
    ensures Above(l + [b]) == Above(l) + (if b.balance > Epsilon then [b] else [])
    decreases |l|
  {
    if l == [] {
      assert [b][1..] == [];
    } else {
      assert (l + [b])[1..] == l[1..] + [b];
      AboveAppend(l[1..], b);
    }
  }

  /** Appending an entry to the ledger appends it to the debtors exactly
      when it is one. */
  lemma {:induction false} BelowAppend(l: seq<Balance>, b: Balance)
    ensures Below(l + [b]) == Below(l) + (if b.balance < -Epsilon then [b] else [])
    decreases |l|
  {
    if l == [] {
      assert [b][1..] == [];
    } else {
      assert (l + [b])[1..] == l[1..] + [b];
      BelowAppend(l[1..], b);
    }
  }

  /** The creditors with a given balance are the ledger's entries with that
      balance, in ledger order. */
  lemma {:induction false} AboveWithBalance(l: seq<Balance>, k: real)
    requires k > Epsilon
    ensures WithBalance(Above(l), k) == WithBalance(l, k)
    decreases |l|
  {
    if l != [] {
      var h := if l[0].balance > Epsilon then [l[0]] else [];
      AboveWithBalance(l[1..], k);
      WithBalanceConcat(h, Above(l[1..]), k);
      WithBalanceCons(l[0], l[1..], k);
      WithBalanceCons(l[0], [], k);
      assert l == [l[0]] + l[1..];
      assert [l[0]] + [] == [l[0]];
    }
  }

  /** The debtors with a given balance are the ledger's entries with that
      balance, in ledger order. */
  lemma {:induction false} BelowWithBalance(l: seq<Balance>, k: real)
    requires k < -Epsilon
    ensures WithBalance(Below(l), k) == WithBalance(l, k)
    decreases |l|
  {
    if l != [] {
      var h := if l[0].balance < -Epsilon then [l[0]] else [];
      BelowWithBalance(l[1..], k);
      WithBalanceConcat(h, Below(l[1..]), k);
      WithBalanceCons(l[0], l[1..], k);
      WithBalanceCons(l[0], [], k);
      assert l == [l[0]] + l[1..];
      assert [l[0]] + [] == [l[0]];
    }
  }

  /** Creditors: sorted by descending balance, ties in ledger order. */
  function Creditors(l: seq<Balance>): (r: seq<Balance>)
    ensures forall b :: b in r <==> b in l && b.balance > Epsilon
  {
    var r := Sort(Above(l), Descending);
    assert forall b :: b in r <==> b in multiset(Above(l));
    r
  }

  /** Debtors: sorted by ascending balance (most negative first), ties in
      ledger order. */
  function Debtors(l: seq<Balance>): (r: seq<Balance>)
    ensures forall b :: b in r <==> b in l && b.balance < -Epsilon
  {
    var r := Sort(Below(l), Ascending);
    assert forall b :: b in r <==> b in multiset(Below(l));
    r
  }

  /** Creditors come in descending balance order, and creditors with equal
      balances keep their ledger order. */
  lemma {:induction false} CreditorsOrder(l: seq<Balance>, k: real)
    ensures Sorted(Creditors(l), Descending)
    ensures WithBalance(Creditors(l), k) == WithBalance(Above(l), k)
    ensures k > Epsilon ==> WithBalance(Creditors(l), k) == WithBalance(l, k)
  {
    SortSorted(Above(l), Descending);
    SortStable(Above(l), Descending, k);
    if k > Epsilon {
      AboveWithBalance(l, k);
    }
  }

  /** Debtors come in ascending balance order, most negative first, and
      debtors with equal balances keep their ledger order. */
  lemma {:induction false} DebtorsOrder(l: seq<Balance>, k: real)
    ensures Sorted(Debtors(l), Ascending)
    ensures WithBalance(Debtors(l), k) == WithBalance(Below(l), k)
    ensures k < -Epsilon ==> WithBalance(Debtors(l), k) == WithBalance(l, k)
  {
    SortSorted(Below(l), Ascending);
    SortStable(Below(l), Ascending, k);
    if k < -Epsilon {
      BelowWithBalance(l, k);
    }
  }

  // ---------------------------------------------------------------------
  // Greedy matching.

  /** What the head creditor `c` and head debtor `d` settle between them. */
  function Matched(c: Balance, d: Balance): real {
    Min(c.balance, Abs(d.balance))
  }

  /** The transfer suggested for one step, if the matched amount exceeds
      the threshold. */
  function StepTransfer(c: Balance, d: Balance, currency: string): seq<Transfer> {
    var amount := Matched(c, d);
    if amount > Epsilon
    then [Transfer(d.participantId, d.name, c.participantId, c.name, RoundCents(amount), currency)]
    else []
  }

  /** The creditors after the head one received `amount`: it is retired
      once its balance falls below the threshold. */
  function NextCreditors(cs: seq<Balance>, amount: real): seq<Balance>
    requires cs != []
  {
    var c' := cs[0].(balance := cs[0].balance - amount);
    if c'.balance < Epsilon then cs[1..] else [c'] + cs[1..]
  }

  /** The debtors after the head one paid `amount`: it is retired once its
      balance is within the threshold of zero. */
  function NextDebtors(ds: seq<Balance>, amount: real): seq<Balance>
    requires ds != []
  {
    var d' := ds[0].(balance := ds[0].balance + amount);
    if Abs(d'.balance) < Epsilon then ds[1..] else [d'] + ds[1..]
  }

  /** Every balance is at most zero, as on the debtors' side. */
  predicate NonPositive(ds: seq<Balance>) {
    forall k :: 0 <= k < |ds| ==> ds[k].balance <= 0.0
  }

  /** The greedy matching, one step per call: the head creditor and head
      debtor settle `min(creditor, |debtor|)`; a transfer is suggested when
      that exceeds the threshold; each side that falls within the
      threshold of zero is retired. */
  function Greedy(cs: seq<Balance>, ds: seq<Balance>, currency: string): seq<Transfer>
    requires NonPositive(ds)
    decreases |cs| + |ds|
  {
    if cs == [] || ds == [] then []
    else
      var amount := Matched(cs[0], ds[0]);
      StepTransfer(cs[0], ds[0], currency)
        + Greedy(NextCreditors(cs, amount), NextDebtors(ds, amount), currency)
  }

  /** One step of `Greedy` on non-empty sides, with the remaining sides
      named `nc` and `nd`. */
  lemma {:induction false} GreedyUnfold(cs: seq<Balance>, ds: seq<Balance>, currency: string,
                                        nc: seq<Balance>, nd: seq<Balance>)
    requires cs != [] && ds != []
    requires NonPositive(ds) && NonPositive(nd)
    requires nc == NextCreditors(cs, Matched(cs[0], ds[0]))
    requires nd == NextDebtors(ds, Matched(cs[0], ds[0]))
    ensures Greedy(cs, ds, currency) == StepTransfer(cs[0], ds[0], currency) + Greedy(nc, nd, currency)
  {
  }

  /** Updating the creditor under the cursor in place, then advancing the
      cursor past a retired creditor, leaves `NextCreditors` of the rest. */
  lemma {:induction false} CreditorCursorStep(cs: seq<Balance>, ci: nat, amount: real, cs': seq<Balance>, ci': nat)
    requires ci < |cs|
    requires cs' == cs[ci := cs[ci].(balance := cs[ci].balance - amount)]
    requires ci' == if cs'[ci].balance < Epsilon then ci + 1 else ci
    ensures ci' <= |cs'| && cs'[ci'..] == NextCreditors(cs[ci..], amount)
  {
    var c' := cs[ci].(balance := cs[ci].balance - amount);
    assert cs'[ci] == c';
    assert cs'[ci + 1..] == cs[ci + 1..] == cs[ci..][1..];
    assert cs'[ci..] == [c'] + cs[ci..][1..];
  }

  /** The same for the debtor under its cursor; a debtor paying at most
      its debt keeps a balance of at most zero. */
  lemma {:induction false} DebtorCursorStep(ds: seq<Balance>, di: nat, amount: real, ds': seq<Balance>, di': nat)
    requires di < |ds|
    requires NonPositive(ds)
    requires amount <= Abs(ds[di].balance)
    requires ds' == ds[di := ds[di].(balance := ds[di].balance + amount)]
    requires di' == if Abs(ds'[di].balance) < Epsilon then di + 1 else di
    ensures di' <= |ds'| && ds'[di'..] == NextDebtors(ds[di..], amount)
    ensures NonPositive(ds')
  {
    var d' := ds[di].(balance := ds[di].balance + amount);
    assert ds'[di] == d';
    assert ds'[di + 1..] == ds[di + 1..] == ds[di..][1..];
    assert ds'[di..] == [d'] + ds[di..][1..];
    forall k | 0 <= k < |ds'| ensures ds'[k].balance <= 0.0 {
      if k != di {
        assert ds'[k] == ds[k];
      }
    }
  }

  /** A suffix of debtors at most zero is at most zero. */
  lemma {:induction false} NonPositiveSuffix(ds: seq<Balance>, i: nat)
    requires i <= |ds|
    requires NonPositive(ds)
    ensures NonPositive(ds[i..])
  {
    forall k | 0 <= k < |ds[i..]| ensures ds[i..][k].balance <= 0.0 {
      assert ds[i..][k] == ds[i + k];
    }
  }

  lemma {:induction false} ConcatAssoc(a: seq<Transfer>, b: seq<Transfer>, c: seq<Transfer>)
    ensures (a + b) + c == a + (b + c)
  {
  }

  /** One iteration of the loop: the transfers still to come from the
      cursors' positions are this step's transfer followed by those from
      the positions after the in-place update. */
  lemma {:induction false} MatchStep(cs: seq<Balance>, ds: seq<Balance>, ci: nat, di: nat, currency: string,
                  cs': seq<Balance>, ds': seq<Balance>, ci': nat, di': nat)
    requires ci < |cs| && di < |ds|
    requires NonPositive(ds)
    requires var amount := Min(cs[ci].balance, Abs(ds[di].balance));
      && cs' == cs[ci := cs[ci].(balance := cs[ci].balance - amount)]
      && ds' == ds[di := ds[di].(balance := ds[di].balance + amount)]
      && ci' == (if cs'[ci].balance < Epsilon then ci + 1 else ci)
      && di' == (if Abs(ds'[di].balance) < Epsilon then di + 1 else di)
    ensures ci' <= |cs'| && di' <= |ds'|
    ensures NonPositive(ds') && NonPositive(ds'[di'..])
    ensures NonPositive(ds[di..])
    ensures Greedy(cs[ci..], ds[di..], currency)
            == StepTransfer(cs[ci], ds[di], currency) + Greedy(cs'[ci'..], ds'[di'..], currency)
  {
    var amount := Min(cs[ci].balance, Abs(ds[di].balance));
    var rc, rd := cs[ci..], ds[di..];
    NonPositiveSuffix(ds, di);
    assert rc[0] == cs[ci] && rd[0] == ds[di];
    CreditorCursorStep(cs, ci, amount, cs', ci');
    DebtorCursorStep(ds, di, amount, ds', di');
    NonPositiveSuffix(ds', di');
    GreedyUnfold(rc, rd, currency, cs'[ci'..], ds'[di'..]);
  }

  /** One iteration of the source's `while` loop: the creditor and debtor
      under the cursors settle `min(creditor, |debtor|)` in place, a
      transfer is suggested above the threshold, and each cursor moves past
      a side that is settled. At least one cursor moves, and the transfers
      still to come are this step's followed by those after it. */
  method MatchOnce(cs: seq<Balance>, ds: seq<Balance>, ci: nat, di: nat, currency: string)
    returns (step: seq<Transfer>, cs': seq<Balance>, ds': seq<Balance>, ci': nat, di': nat)
    requires ci < |cs| && di < |ds|
    requires NonPositive(ds)
    ensures |cs'| == |cs| && |ds'| == |ds|
    ensures ci <= ci' <= |cs'| && di <= di' <= |ds'| && ci + di < ci' + di'
    ensures NonPositive(ds') && NonPositive(ds'[di'..]) && NonPositive(ds[di..])
    ensures Greedy(cs[ci..], ds[di..], currency) == step + Greedy(cs'[ci'..], ds'[di'..], currency)
  {
    var creditor, debtor := cs[ci], ds[di];
    var amount := Min(creditor.balance, Abs(debtor.balance));
    step := [];
    if amount > Epsilon {
      step := [Transfer(debtor.participantId, debtor.name, creditor.participantId, creditor.name,
                        RoundCents(amount), currency)];
    }
    cs' := cs[ci := creditor.(balance := creditor.balance - amount)];
    ds' := ds[di := debtor.(balance := debtor.balance + amount)];
    ci', di' := ci, di;
    if cs'[ci].balance < Epsilon {
      ci' := ci + 1;
    }
    if Abs(ds'[di].balance) < Epsilon {
      di' := di + 1;
    }
    MatchStep(cs, ds, ci, di, currency, cs', ds', ci', di');
  }

  /** The `while` loop of the source over two cursors, with the current
      creditor and debtor updated in place; it computes exactly `Greedy`. */
  method MatchGreedy(creditors: seq<Balance>, debtors: seq<Balance>, currency: string)
    returns (transfers: seq<Transfer>)
    requires NonPositive(debtors)
    ensures transfers == Greedy(creditors, debtors, currency)
  {
    var cs, ds := creditors, debtors;
    var ci, di := 0, 0;
    transfers := [];
    assert cs[0..] == cs && ds[0..] == ds;
    while ci < |cs| && di < |ds|
      invariant |cs| == |creditors| && |ds| == |debtors|
      invariant 0 <= ci <= |cs| && 0 <= di <= |ds|
      invariant NonPositive(ds) && NonPositive(ds[di..])
      invariant transfers + Greedy(cs[ci..], ds[di..], currency) == Greedy(creditors, debtors, currency)
      decreases |cs| - ci + |ds| - di
    {
      var step, cs', ds', ci', di' := MatchOnce(cs, ds, ci, di, currency);
      ConcatAssoc(transfers, step, Greedy(cs'[ci'..], ds'[di'..], currency));
      transfers := transfers + step;
      cs, ds, ci, di := cs', ds', ci', di';
    }
    GreedyBound(cs[ci..], ds[di..], currency);
    assert transfers + [] == transfers;
  }

  function IdNames(l: seq<Balance>): (r: seq<(string, string)>)
    ensures |r| == |l|
    ensures forall i :: 0 <= i < |l| ==> r[i] == (l[i].participantId, l[i].name)
  {
    seq(|l|, i requires 0 <= i < |l| => (l[i].participantId, l[i].name))
  }

  /** At most `|creditors| + |debtors| - 1` transfers, and none when either
      side is empty: every step retires at least one side. */
  lemma {:induction false} GreedyBound(cs: seq<Balance>, ds: seq<Balance>, currency: string)
    requires NonPositive(ds)
    ensures cs == [] || ds == [] ==> Greedy(cs, ds, currency) == []
    ensures cs != [] && ds != [] ==> |Greedy(cs, ds, currency)| <= |cs| + |ds| - 1
    decreases |cs| + |ds|
  {
    if cs != [] && ds != [] {
      var amount := Matched(cs[0], ds[0]);
      GreedyBound(NextCreditors(cs, amount), NextDebtors(ds, amount), currency);
    }
  }

  /** Stepping never introduces a creditor that was not there. */
  lemma {:induction false} NextCreditorsNames(cs: seq<Balance>, amount: real)
    requires cs != []
    ensures forall p :: p in IdNames(NextCreditors(cs, amount)) ==> p in IdNames(cs)
  {
    var n := NextCreditors(cs, amount);
    forall p | p in IdNames(n) ensures p in IdNames(cs) {
      var i :| 0 <= i < |IdNames(n)| && IdNames(n)[i] == p;
      if n == cs[1..] {
        assert IdNames(cs)[i + 1] == p;
      } else {
        assert IdNames(cs)[i] == p;
      }
    }
  }

  /** Stepping never introduces a debtor that was not there. */
  lemma {:induction false} NextDebtorsNames(ds: seq<Balance>, amount: real)
    requires ds != []
    ensures forall p :: p in IdNames(NextDebtors(ds, amount)) ==> p in IdNames(ds)
  {
    var n := NextDebtors(ds, amount);
    forall p | p in IdNames(n) ensures p in IdNames(ds) {
      var i :| 0 <= i < |IdNames(n)| && IdNames(n)[i] == p;
      if n == ds[1..] {
        assert IdNames(ds)[i + 1] == p;
      } else {
        assert IdNames(ds)[i] == p;
      }
    }
  }

  /** The properties every suggested transfer of currency `currency` has:
      the currency, at least one cent, and a debtor of `ds` paying a
      creditor of `cs`. */
  predicate WellFormedTransfer(t: Transfer, cs: seq<Balance>, ds: seq<Balance>, currency: string) {
    && t.currency == currency
    && t.amount >= 0.01
    && (t.fromId, t.fromName) in IdNames(ds)
    && (t.toId, t.toName) in IdNames(cs)
  }

  /** Every suggested transfer carries the currency, is at least one cent,
      and goes from a debtor of the input to a creditor of the input. */
  lemma {:induction false} GreedyTransfers(cs: seq<Balance>, ds: seq<Balance>, currency: string)
    requires NonPositive(ds)
    ensures forall t :: t in Greedy(cs, ds, currency) ==> WellFormedTransfer(t, cs, ds, currency)
    decreases |cs| + |ds|
  {
    if cs != [] && ds != [] {
      var amount := Matched(cs[0], ds[0]);
      var cs', ds' := NextCreditors(cs, amount), NextDebtors(ds, amount);
      GreedyTransfers(cs', ds', currency);
      NextCreditorsNames(cs, amount);
      NextDebtorsNames(ds, amount);
      var head := StepTransfer(cs[0], ds[0], currency);
      if amount > Epsilon {
        RoundCentsAtLeastOneCent(amount);
        assert IdNames(ds)[0] == (ds[0].participantId, ds[0].name);
        assert IdNames(cs)[0] == (cs[0].participantId, cs[0].name);
        assert WellFormedTransfer(head[0], cs, ds, currency);
      }
      forall t | t in Greedy(cs', ds', currency) ensures WellFormedTransfer(t, cs, ds, currency) {
        assert WellFormedTransfer(t, cs', ds', currency);
      }
      assert Greedy(cs, ds, currency) == head + Greedy(cs', ds', currency);
    }
  }

  /** The debtors of a ledger are at most zero. */
  lemma {:induction false} DebtorsNonPositive(l: seq<Balance>)
    ensures NonPositive(Debtors(l))
  {
    var ds := Debtors(l);
    forall k | 0 <= k < |ds| ensures ds[k].balance <= 0.0 {
      assert ds[k] in ds;
    }
  }

  /** The properties of a transfer suggested for a ledger, in terms of the
      ledger's own entries. */
  predicate LedgerTransfer(t: Transfer, l: seq<Balance>, currency: string) {
    && t.currency == currency
    && t.amount >= 0.01
    && (exists i :: 0 <= i < |l| && l[i].participantId == t.fromId && l[i].name == t.fromName
                                 && l[i].balance < -Epsilon)
    && (exists j :: 0 <= j < |l| && l[j].participantId == t.toId && l[j].name == t.toName
                                 && l[j].balance > Epsilon)
    && (NoDuplicates(Ids(l)) ==> t.fromId != t.toId)
  }

  /** A transfer from a debtor of the ledger to a creditor of the ledger. */
  lemma {:induction false} LedgerTransferOf(l: seq<Balance>, t: Transfer, currency: string)
    requires WellFormedTransfer(t, Creditors(l), Debtors(l), currency)
    ensures LedgerTransfer(t, l, currency)
  {
    var cs, ds := Creditors(l), Debtors(l);
    var a :| 0 <= a < |IdNames(ds)| && IdNames(ds)[a] == (t.fromId, t.fromName);
    var b :| 0 <= b < |IdNames(cs)| && IdNames(cs)[b] == (t.toId, t.toName);
    assert (ds[a].participantId, ds[a].name) == (t.fromId, t.fromName);
    assert (cs[b].participantId, cs[b].name) == (t.toId, t.toName);
    assert ds[a] in ds && cs[b] in cs;
    assert ds[a] in l && ds[a].balance < -Epsilon;
    assert cs[b] in l && cs[b].balance > Epsilon;
    var i :| 0 <= i < |l| && l[i] == ds[a];
    var j :| 0 <= j < |l| && l[j] == cs[b];
    assert l[i].participantId == t.fromId && l[i].name == t.fromName && l[i].balance < -Epsilon;
    assert l[j].participantId == t.toId && l[j].name == t.toName && l[j].balance > Epsilon;
    DistinctEntries(l, i, j);
  }

  /** Two entries of a ledger with one entry per id that differ have
      different ids. */
  lemma {:induction false} DistinctEntries(l: seq<Balance>, i: nat, j: nat)
    requires i < |l| && j < |l| && i != j
    ensures NoDuplicates(Ids(l)) ==> l[i].participantId != l[j].participantId
  {
    if NoDuplicates(Ids(l)) {
      assert Ids(l)[i] == l[i].participantId && Ids(l)[j] == l[j].participantId;
      if i < j {
        assert Ids(l)[i] != Ids(l)[j];
      } else {
        assert Ids(l)[j] != Ids(l)[i];
      }
    }
  }

  /** A transfer of the greedy matching on a ledger runs from an entry of
      the ledger that is a debtor to an entry that is a creditor; when the
      ledger has one entry per id, payer and payee therefore differ. */
  lemma {:induction false} LedgerTransfers(l: seq<Balance>, currency: string)
    ensures NonPositive(Debtors(l))
    ensures forall t :: t in Greedy(Creditors(l), Debtors(l), currency) ==> LedgerTransfer(t, l, currency)
  {
    DebtorsNonPositive(l);
    var cs, ds := Creditors(l), Debtors(l);
    GreedyTransfers(cs, ds, currency);
    forall t | t in Greedy(cs, ds, currency) ensures LedgerTransfer(t, l, currency) {
      LedgerTransferOf(l, t, currency);
    }
  }

  // ---------------------------------------------------------------------
  // The whole engine.

  function ExpenseCurrencies(es: seq<Expense>): (r: seq<string>)
    ensures |r| == |es|
    ensures forall i :: 0 <= i < |es| ==> r[i] == es[i].currency
  {
    seq(|es|, i requires 0 <= i < |es| => es[i].currency)
  }

  function PaymentCurrencies(ps: seq<Payment>): (r: seq<string>)
    ensures |r| == |ps|
    ensures forall i :: 0 <= i < |ps| ==> r[i] == ps[i].currency
  {
    seq(|ps|, i requires 0 <= i < |ps| => ps[i].currency)
  }

  /** The currencies in use: each once, expenses before payments, in
      first-use order (see `DistinctKeepsFirstOccurrenceOrder`). */
  function Currencies(es: seq<Expense>, ps: seq<Payment>): (r: seq<string>)
    ensures forall c :: c in r <==> ((exists i :: 0 <= i < |es| && es[i].currency == c)
                                    || (exists i :: 0 <= i < |ps| && ps[i].currency == c))
    ensures NoDuplicates(r)
  {
    var all := ExpenseCurrencies(es) + PaymentCurrencies(ps);
    var r := Distinct(all);
    assert forall c :: c in all <==> c in ExpenseCurrencies(es) || c in PaymentCurrencies(ps);
    r
  }

  /** The suggested transfers of one currency. */
  function SettleCurrency(currency: string, es: seq<Expense>, parts: seq<Participant>,
                          pays: seq<Payment>): seq<Transfer>
  {
    var l := LedgerFor(currency, es, parts, pays);
    LedgerTransfers(l, currency);
    Greedy(Creditors(l), Debtors(l), currency)
  }

  /** The transfers of the currencies `cs`, currency by currency. */
  function SettleEach(cs: seq<string>, es: seq<Expense>, parts: seq<Participant>,
                      pays: seq<Payment>): seq<Transfer>
    decreases |cs|
  {
    if cs == [] then []
    else SettleEach(cs[..|cs| - 1], es, parts, pays) + SettleCurrency(cs[|cs| - 1], es, parts, pays)
  }

  /** The ledgers of the currencies `cs`, keyed by currency. */
  function LedgersOf(cs: seq<string>, es: seq<Expense>, parts: seq<Participant>,
                     pays: seq<Payment>): (m: map<string, seq<Balance>>)
    ensures m.Keys == set c | c in cs
    ensures forall c :: c in m ==> m[c] == LedgerFor(c, es, parts, pays)
    decreases |cs|
  {
    if cs == [] then map[]
    else
      var c := cs[|cs| - 1];
      LedgersOf(cs[..|cs| - 1], es, parts, pays)[c := LedgerFor(c, es, parts, pays)]
  }

  /** `calculateSettlement` as a function: the reference the method below
      is proved against. */
  function Settle(es: seq<Expense>, parts: seq<Participant>, pays: seq<Payment>): SettlementResult {
    var cs := Currencies(es, pays);
    SettlementResult(LedgersOf(cs, es, parts, pays), SettleEach(cs, es, parts, pays), cs)
  }

  /** The transfers of one currency in a list of transfers. */
  function OfCurrency(ts: seq<Transfer>, currency: string): (r: seq<Transfer>)
    ensures |r| <= |ts|
    ensures forall t :: t in r <==> t in ts && t.currency == currency
    decreases |ts|
  {
    if ts == [] then []
    else OfCurrency(ts[..|ts| - 1], currency)
         + (if ts[|ts| - 1].currency == currency then [ts[|ts| - 1]] else [])
  }

  lemma {:induction false} OfCurrencyConcat(a: seq<Transfer>, b: seq<Transfer>, currency: string)
    ensures OfCurrency(a + b, currency) == OfCurrency(a, currency) + OfCurrency(b, currency)
    decreases |b|
  {
    if b == [] {
      assert a + b == a;
    } else {
      var b' := b[..|b| - 1];
      assert (a + b)[..|a + b| - 1] == a + b';
      assert (a + b)[|a + b| - 1] == b[|b| - 1];
      OfCurrencyConcat(a, b', currency);
      var t := if b[|b| - 1].currency == currency then [b[|b| - 1]] else [];
      assert OfCurrency(a + b, currency) == OfCurrency(a + b', currency) + t;
      assert OfCurrency(b, currency) == OfCurrency(b', currency) + t;
      ConcatAssoc(OfCurrency(a, currency), OfCurrency(b', currency), t);
    }
  }

  lemma {:induction false} PrefixLast(ts: seq<Transfer>)
    requires ts != []
    ensures ts == ts[..|ts| - 1] + [ts[|ts| - 1]]
  {
  }

  lemma {:induction false} OfCurrencyAll(ts: seq<Transfer>, currency: string)
    requires forall t :: t in ts ==> t.currency == currency
    ensures OfCurrency(ts, currency) == ts
    decreases |ts|
  {
    if ts != [] {
      var prefix, last := ts[..|ts| - 1], ts[|ts| - 1];
      forall t | t in prefix ensures t.currency == currency {
        assert t in ts;
      }
      OfCurrencyAll(prefix, currency);
      assert last in ts;
      PrefixLast(ts);
    }
  }

  lemma {:induction false} OfCurrencyNone(ts: seq<Transfer>, currency: string)
    requires forall t :: t in ts ==> t.currency != currency
    ensures OfCurrency(ts, currency) == []
    decreases |ts|
  {
    if ts != [] {
      var prefix := ts[..|ts| - 1];
      forall t | t in prefix ensures t.currency != currency {
        assert t in ts;
      }
      OfCurrencyNone(prefix, currency);
      assert ts[|ts| - 1] in ts;
    }
  }

  /** Among the transfers of several distinct currencies, those of currency
      `c` are exactly the transfers of the settlement of `c` alone. */
  lemma {:induction false} SettleEachOfCurrency(cs: seq<string>, es: seq<Expense>, parts: seq<Participant>,
                                                pays: seq<Payment>, c: string)
    requires NoDuplicates(cs)
    ensures OfCurrency(SettleEach(cs, es, parts, pays), c)
            == if c in cs then SettleCurrency(c, es, parts, pays) else []
    decreases |cs|
  {
    if cs != [] {
      var prefix, last := cs[..|cs| - 1], cs[|cs| - 1];
      SettleEachOfCurrency(prefix, es, parts, pays, c);
      OfCurrencyConcat(SettleEach(prefix, es, parts, pays), SettleCurrency(last, es, parts, pays), c);
      LedgerTransfers(LedgerFor(last, es, parts, pays), last);
      if last == c {
        OfCurrencyAll(SettleCurrency(last, es, parts, pays), c);
        assert c !in prefix;
      } else {
        OfCurrencyNone(SettleCurrency(last, es, parts, pays), c);
        assert c in cs <==> c in prefix;
      }
    }
  }

  /** The result of the engine: one ledger per currency in use, and every
      transfer a debtor-to-creditor payment of at least one cent in a
      currency in use, between two entries of that currency's ledger. */
  lemma {:induction false} SettleShape(es: seq<Expense>, parts: seq<Participant>, pays: seq<Payment>)
    ensures var r := Settle(es, parts, pays);
      && r.balances.Keys == set c | c in r.currencies
      && forall t :: t in r.settlements ==>
           && t.currency in r.currencies
           && t.amount >= 0.01
           && t.fromId != t.toId
           && (exists i :: 0 <= i < |r.balances[t.currency]|
                 && r.balances[t.currency][i].participantId == t.fromId
                 && r.balances[t.currency][i].balance < -Epsilon)
           && (exists j :: 0 <= j < |r.balances[t.currency]|
                 && r.balances[t.currency][j].participantId == t.toId
                 && r.balances[t.currency][j].balance > Epsilon)
  {
    var r := Settle(es, parts, pays);
    forall t | t in r.settlements
      ensures t.currency in r.currencies
      ensures t.amount >= 0.01 && t.fromId != t.toId
      ensures exists i :: 0 <= i < |r.balances[t.currency]|
                 && r.balances[t.currency][i].participantId == t.fromId
                 && r.balances[t.currency][i].balance < -Epsilon
      ensures exists j :: 0 <= j < |r.balances[t.currency]|
                 && r.balances[t.currency][j].participantId == t.toId
                 && r.balances[t.currency][j].balance > Epsilon
    {
      var c := t.currency;
      SettleEachOfCurrency(r.currencies, es, parts, pays, c);
      assert t in OfCurrency(r.settlements, c);
      var l := LedgerFor(c, es, parts, pays);
      LedgerForEntries(c, es, parts, pays);
      LedgerTransfers(l, c);
      assert r.balances[c] == l;
    }
  }

  /** Per currency, at most one transfer fewer than there are creditors and
      debtors together, so fewer than there are participants; none when no
      one is owed or no one owes. */
  lemma {:induction false} SettleCount(es: seq<Expense>, parts: seq<Participant>, pays: seq<Payment>, c: string)
    ensures var r := Settle(es, parts, pays);
      var l := LedgerFor(c, es, parts, pays);
      var n := |OfCurrency(r.settlements, c)|;
      && (Creditors(l) == [] || Debtors(l) == [] ==> n == 0)
      && (n == 0 || n <= |Creditors(l)| + |Debtors(l)| - 1)
      && (n == 0 || n < |Distinct(ParticipantIds(parts))|)
  {
    var r := Settle(es, parts, pays);
    var l := LedgerFor(c, es, parts, pays);
    SettleEachOfCurrency(r.currencies, es, parts, pays, c);
    LedgerTransfers(l, c);
    GreedyBound(Creditors(l), Debtors(l), c);
    AboveBelowSize(l);
    LedgerForEntries(c, es, parts, pays);
    assert |Ids(l)| == |l|;
  }

  lemma {:induction false} PrefixStep(cs: seq<string>, n: nat, es: seq<Expense>, parts: seq<Participant>, pays: seq<Payment>)
    requires n < |cs|
    ensures LedgersOf(cs[..n + 1], es, parts, pays)
            == LedgersOf(cs[..n], es, parts, pays)[cs[n] := LedgerFor(cs[n], es, parts, pays)]
    ensures SettleEach(cs[..n + 1], es, parts, pays)
            == SettleEach(cs[..n], es, parts, pays) + SettleCurrency(cs[n], es, parts, pays)
  {
    assert cs[..n + 1][..n] == cs[..n];
  }

  /** The engine as the source writes it: a loop over the currencies in use
      that builds each ledger, keeps it under its currency and runs the
      greedy matching on copies of its creditors and debtors. */
  method CalculateSettlement(es: seq<Expense>, parts: seq<Participant>, pays: seq<Payment>)
    returns (result: SettlementResult)
    ensures result == Settle(es, parts, pays)
  {
    var currencies := Currencies(es, pays);
    var balances: map<string, seq<Balance>> := map[];
    var settlements: seq<Transfer> := [];
    for n := 0 to |currencies|
      invariant balances == LedgersOf(currencies[..n], es, parts, pays)
      invariant settlements == SettleEach(currencies[..n], es, parts, pays)
    {
      var currency := currencies[n];
      var l := LedgerFor(currency, es, parts, pays);
      balances := balances[currency := l];
      LedgerTransfers(l, currency);
      var transfers := MatchGreedy(Creditors(l), Debtors(l), currency);
      settlements := settlements + transfers;
      PrefixStep(currencies, n, es, parts, pays);
    }
    assert currencies[..|currencies|] == currencies;
    result := SettlementResult(balances, settlements, currencies);
  }

  /** Three distinct ids are their own distinct list. */
  lemma {:induction false} DistinctOfThree(x: string, y: string, z: string)
    requires x != y && x != z && y != z
    ensures Distinct([x, y, z]) == [x, y, z]
  {
    assert [x, y, z][..2] == [x, y] && [x, y][..1] == [x] && [x][..0] == [];
    assert Distinct([x]) == [x];
    assert Distinct([x, y]) == [x, y];
  }

  /** The last name of each of three participants with distinct ids. */
  lemma {:induction false} LastNamesOfThree(pa: Participant, pb: Participant, pc: Participant)
    requires pa.id != pb.id && pa.id != pc.id && pb.id != pc.id
    ensures ParticipantIds([pa, pb, pc]) == [pa.id, pb.id, pc.id]
    ensures LastNameOf([pa, pb, pc], pa.id) == pa.name
    ensures LastNameOf([pa, pb, pc], pb.id) == pb.name
    ensures LastNameOf([pa, pb, pc], pc.id) == pc.name
  {
    assert ParticipantIds([pa, pb, pc]) == [pa.id, pb.id, pc.id];
    assert [pa, pb, pc][..2] == [pa, pb] && [pa, pb][..1] == [pa];
    assert ParticipantIds([pa, pb]) == [pa.id, pb.id];
    assert ParticipantIds([pa]) == [pa.id];
    assert LastNameOf([pa], pa.id) == pa.name;
    assert LastNameOf([pa, pb], pa.id) == pa.name && LastNameOf([pa, pb], pb.id) == pb.name;
  }

  /** `pa` pays 300 shared equally by `pa`, `pb` and `pc`. */
  function EqualSplitExpense(pa: Participant, pb: Participant, pc: Participant): Expense {
    Expense("e1", 300.0, "CLP", Some(pa.id), [Share(pa.id, 100.0), Share(pb.id, 100.0), Share(pc.id, 100.0)])
  }

  /** Each of the three owes a 100 share of the equal split. */
  lemma {:induction false} EqualSplitShares(pa: Participant, pb: Participant, pc: Participant)
    requires pa.id != pb.id && pa.id != pc.id && pb.id != pc.id
    ensures var shares := EqualSplitExpense(pa, pb, pc).shares;
      ShareOf(shares, pa.id) == 100.0 && ShareOf(shares, pb.id) == 100.0 && ShareOf(shares, pc.id) == 100.0
  {
    var s1 := EqualSplitExpense(pa, pb, pc).shares;
    var s2 := [Share(pb.id, 100.0), Share(pc.id, 100.0)];
    var s3 := [Share(pc.id, 100.0)];
    assert s1[1..] == s2 && s2[1..] == s3 && s3[1..] == [];
    assert ShareOf(s3, pa.id) == 0.0 && ShareOf(s3, pb.id) == 0.0 && ShareOf(s3, pc.id) == 100.0;
    assert ShareOf(s2, pa.id) == 0.0 && ShareOf(s2, pb.id) == 100.0 && ShareOf(s2, pc.id) == 100.0;
  }

  /** What each of the three paid and owes in the equal split. */
  lemma {:induction false} EqualSplitTotals(pa: Participant, pb: Participant, pc: Participant)
    requires pa.id != pb.id && pa.id != pc.id && pb.id != pc.id && pa.id != ""
    ensures var es := [EqualSplitExpense(pa, pb, pc)];
      && PaidBy(es, "CLP", pa.id) == 300.0 && PaidBy(es, "CLP", pb.id) == 0.0 && PaidBy(es, "CLP", pc.id) == 0.0
      && OwedBy(es, "CLP", pa.id) == 100.0 && OwedBy(es, "CLP", pb.id) == 100.0 && OwedBy(es, "CLP", pc.id) == 100.0
  {
    var es := [EqualSplitExpense(pa, pb, pc)];
    assert es[1..] == [];
    assert HasPayer(es[0]);
    EqualSplitShares(pa, pb, pc);
  }

  /** The entry the ledger keeps for `id`, by the reference totals. */
  function EntryFor(currency: string, es: seq<Expense>, ps: seq<Participant>, pays: seq<Payment>, id: string): Balance
    requires id in ParticipantIds(ps)
  {
    var paid, owes := PaidBy(es, currency, id), OwedBy(es, currency, id);
    Balance(id, LastNameOf(ps, id), paid, owes,
            paid - owes + SentBy(pays, currency, id) - ReceivedBy(pays, currency, id))
  }

  /** Each entry of a ledger is the reference entry of its id. */
  lemma {:induction false} LedgerEntryAt(currency: string, es: seq<Expense>, ps: seq<Participant>,
                                         pays: seq<Payment>, i: nat)
    requires i < |LedgerFor(currency, es, ps, pays)|
    ensures var id := LedgerFor(currency, es, ps, pays)[i].participantId;
      id in ParticipantIds(ps) && LedgerFor(currency, es, ps, pays)[i] == EntryFor(currency, es, ps, pays, id)
  {
    var l := LedgerFor(currency, es, ps, pays);
    LedgerForEntries(currency, es, ps, pays);
    assert Ids(l)[i] == l[i].participantId;
  }

  /** With three distinct participant ids, the ledger is the three
      reference entries in participant order. */
  lemma {:induction false} LedgerOfThree(currency: string, es: seq<Expense>, ps: seq<Participant>, pays: seq<Payment>,
                                         x: string, y: string, z: string)
    requires ParticipantIds(ps) == [x, y, z] && x != y && x != z && y != z
    ensures LedgerFor(currency, es, ps, pays)
            == [EntryFor(currency, es, ps, pays, x), EntryFor(currency, es, ps, pays, y),
                EntryFor(currency, es, ps, pays, z)]
  {
    var l := LedgerFor(currency, es, ps, pays);
    LedgerForEntries(currency, es, ps, pays);
    DistinctOfThree(x, y, z);
    assert Ids(l) == [x, y, z];
    assert l[0].participantId == x && l[1].participantId == y && l[2].participantId == z;
    LedgerEntryAt(currency, es, ps, pays, 0);
    LedgerEntryAt(currency, es, ps, pays, 1);
    LedgerEntryAt(currency, es, ps, pays, 2);
    assert l == [l[0], l[1], l[2]];
  }

  /** The ledger of the equal split: `pa` is owed 200, `pb` and `pc` owe
      100 each. */
  lemma {:induction false} EqualSplitLedger(pa: Participant, pb: Participant, pc: Participant)
    requires pa.id != pb.id && pa.id != pc.id && pb.id != pc.id && pa.id != ""
    ensures LedgerFor("CLP", [EqualSplitExpense(pa, pb, pc)], [pa, pb, pc], [])
            == [Balance(pa.id, pa.name, 300.0, 100.0, 200.0), Balance(pb.id, pb.name, 0.0, 100.0, -100.0),
                Balance(pc.id, pc.name, 0.0, 100.0, -100.0)]
  {
    var es, ps, pays: seq<Payment> := [EqualSplitExpense(pa, pb, pc)], [pa, pb, pc], [];
    LastNamesOfThree(pa, pb, pc);
    LedgerOfThree("CLP", es, ps, pays, pa.id, pb.id, pc.id);
    EqualSplitTotals(pa, pb, pc);
  }

  lemma {:induction false} ExampleAbove(a: Balance, b: Balance, c: Balance)
    requires a.balance == 200.0 && b.balance == -100.0 && c.balance == -100.0
    ensures Above([a, b, c]) == [a]
  {
    assert [a, b, c][1..] == [b, c] && [b, c][1..] == [c] && [c][1..] == [];
    assert Above([c]) == [];
    assert Above([b, c]) == [];
  }

  lemma {:induction false} ExampleBelow(a: Balance, b: Balance, c: Balance)
    requires a.balance == 200.0 && b.balance == -100.0 && c.balance == -100.0
    ensures Below([a, b, c]) == [b, c]
  {
    assert [a, b, c][1..] == [b, c] && [b, c][1..] == [c] && [c][1..] == [];
    assert Below([c]) == [c];
    assert Below([b, c]) == [b, c];
  }

  lemma {:induction false} SortOne(x: Balance, dir: Direction)
    ensures Sort([x], dir) == [x]
  {
    assert [x][..0] == [];
  }

  /** Two entries with equal balances keep their order. */
  lemma {:induction false} SortTie(x: Balance, y: Balance, dir: Direction)
    requires x.balance == y.balance
    ensures Sort([x, y], dir) == [x, y]
  {
    assert [x, y][..1] == [x];
    SortOne(x, dir);
    assert Insert(y, [], dir) == [y];
  }

  lemma {:induction false} ExampleSides(a: Balance, b: Balance, c: Balance)
    requires a.balance == 200.0 && b.balance == -100.0 && c.balance == -100.0
    ensures Creditors([a, b, c]) == [a]
    ensures Debtors([a, b, c]) == [b, c]
  {
    ExampleAbove(a, b, c);
    ExampleBelow(a, b, c);
    SortOne(a, Descending);
    SortTie(b, c, Ascending);
  }

  lemma {:induction false} ExampleGreedy(a: Balance, b: Balance, c: Balance)
    requires a.balance == 200.0 && b.balance == -100.0 && c.balance == -100.0
    ensures Greedy([a], [b, c], "CLP")
            == [Transfer(b.participantId, b.name, a.participantId, a.name, 100.0, "CLP"),
                Transfer(c.participantId, c.name, a.participantId, a.name, 100.0, "CLP")]
  {
    assert RoundCents(100.0) == 100.0;
    var a' := a.(balance := 100.0);
    assert NextCreditors([a], 100.0) == [a'];
    assert NextDebtors([b, c], 100.0) == [c];
    assert NextCreditors([a'], 100.0) == [];
    assert NextDebtors([c], 100.0) == [];
    assert Greedy([a'], [c], "CLP") == [Transfer(c.participantId, c.name, a.participantId, a.name, 100.0, "CLP")];
  }

  lemma {:induction false} EqualSplitCurrencies(pa: Participant, pb: Participant, pc: Participant)
    ensures Currencies([EqualSplitExpense(pa, pb, pc)], []) == ["CLP"]
  {
    var all := ExpenseCurrencies([EqualSplitExpense(pa, pb, pc)]) + PaymentCurrencies([]);
    assert all == ["CLP"];
    assert all[..0] == [];
  }

  /** With a single currency in use, the transfers are that currency's. */
  lemma {:induction false} SettleSingleCurrency(es: seq<Expense>, parts: seq<Participant>, pays: seq<Payment>,
                                                c: string)
    requires Currencies(es, pays) == [c]
    ensures Settle(es, parts, pays).settlements == SettleCurrency(c, es, parts, pays)
  {
    assert [c][..0] == [];
    assert SettleEach([c], es, parts, pays) == SettleEach([], es, parts, pays) + SettleCurrency(c, es, parts, pays);
  }

  /** The transfers of the equal split in its one currency. */
  lemma {:induction false} EqualSplitTransfers(pa: Participant, pb: Participant, pc: Participant)
    requires pa.id != pb.id && pa.id != pc.id && pb.id != pc.id && pa.id != ""
    ensures SettleCurrency("CLP", [EqualSplitExpense(pa, pb, pc)], [pa, pb, pc], [])
            == [Transfer(pb.id, pb.name, pa.id, pa.name, 100.0, "CLP"),
                Transfer(pc.id, pc.name, pa.id, pa.name, 100.0, "CLP")]
  {
    var a, b, c := Balance(pa.id, pa.name, 300.0, 100.0, 200.0), Balance(pb.id, pb.name, 0.0, 100.0, -100.0),
                   Balance(pc.id, pc.name, 0.0, 100.0, -100.0);
    EqualSplitLedger(pa, pb, pc);
    ExampleSides(a, b, c);
    ExampleGreedy(a, b, c);
  }

  /** `pa` pays 300 shared equally by `pa`, `pb` and `pc`: `pa` is owed
      200, `pb` and `pc` owe 100 each, and `pb` then `pc` each pay `pa`
      100. */
  lemma {:induction false} EqualSplit(pa: Participant, pb: Participant, pc: Participant)
    requires pa.id != pb.id && pa.id != pc.id && pb.id != pc.id && pa.id != ""
    ensures Settle([EqualSplitExpense(pa, pb, pc)], [pa, pb, pc], []).settlements
            == [Transfer(pb.id, pb.name, pa.id, pa.name, 100.0, "CLP"),
                Transfer(pc.id, pc.name, pa.id, pa.name, 100.0, "CLP")]
  {
    EqualSplitCurrencies(pa, pb, pc);
    SettleSingleCurrency([EqualSplitExpense(pa, pb, pc)], [pa, pb, pc], [], "CLP");
    EqualSplitTransfers(pa, pb, pc);
  }

  /** A pays 300 shared equally by A, B and C: B then C each pay A 100. */
  lemma {:induction false} EqualSplitExample()
    ensures var pa, pb, pc := Participant("a", "A"), Participant("b", "B"), Participant("c", "C");
      Settle([EqualSplitExpense(pa, pb, pc)], [pa, pb, pc], []).settlements
      == [Transfer("b", "B", "a", "A", 100.0, "CLP"), Transfer("c", "C", "a", "A", 100.0, "CLP")]
  {
    assert "a"[0] != "b"[0] && "a"[0] != "c"[0] && "b"[0] != "c"[0];
    EqualSplit(Participant("a", "A"), Participant("b", "B"), Participant("c", "C"));
  }
}

=== FILE: signin_page.dfy ===
/** The sign-in page (src/app/auth/signin/page.tsx): an ACTIVE session is
    sent on to the dashboard, and the callback address handed to the
    sign-in button is sanitised. */
module SignInPage {
  import opened Common
  import opened Text
  import opened Store

  const DashboardPath: string := "/dashboard"

  datatype PageOutcome = RedirectToDashboard | ShowSignIn(callbackUrl: string)

  /** The callback address kept: any address starting with `/`, otherwise
      the dashboard. Only the first character is inspected, so an address
      such as `//host` is kept as well. */
  function SafeCallbackUrl(callbackUrl: Option<string>): (r: string)
    ensures StartsWith(r, "/")
    ensures callbackUrl.Some? && StartsWith(callbackUrl.value, "/") ==> r == callbackUrl.value
    ensures !(callbackUrl.Some? && StartsWith(callbackUrl.value, "/")) ==> r == DashboardPath
  {
    if callbackUrl.Some? && StartsWith(callbackUrl.value, "/") then callbackUrl.value
    else DashboardPath
  }

  /** Sanitising twice is sanitising once. */
  lemma {:induction false} SafeCallbackUrlIdempotent(callbackUrl: Option<string>)
    ensures SafeCallbackUrl(Some(SafeCallbackUrl(callbackUrl))) == SafeCallbackUrl(callbackUrl)
  {
  }

  /** A protocol-relative address is not rejected by the check. */
  lemma {:induction false} ProtocolRelativeKept()
    ensures SafeCallbackUrl(Some("//evil.example")) == "//evil.example"
  {
    assert StartsWith("//evil.example", "/");
  }

  function SignInPageOutcome(session: Option<SessionUser>, callbackUrl: Option<string>): (r: PageOutcome)
    ensures r.RedirectToDashboard? <==> session.Some? && session.value.status == Some("ACTIVE")
    ensures r.ShowSignIn? ==> r.callbackUrl == SafeCallbackUrl(callbackUrl)
  {
    if session.Some? && session.value.status == Some("ACTIVE") then RedirectToDashboard
    else ShowSignIn(SafeCallbackUrl(callbackUrl))
  }
}

=== FILE: store.dfy ===
/** The abstract store the route handlers read and write: users, trips,
    trip participants, proposed items, votes and invitations. Each table is
    a sequence of rows in store order, so a `findFirst` is the first
    matching row. Time is an integer number of milliseconds. */
module Store {
  import opened Common

  datatype UserStatus = Active | Disabled | Deleted

  datatype User = User(id: string, email: string, name: Option<string>, image: Option<string>,
                       status: UserStatus)

  datatype ParticipantKind = Registered | Ghost

  datatype Role = Admin | Editor | Viewer

  /** A member of a trip; a ghost member has no linked user. */
  datatype TripParticipant = TripParticipant(tripId: string, userId: Option<string>, name: string,
                                             kind: ParticipantKind, role: Role)

  datatype Trip = Trip(id: string, name: string, description: Option<string>,
                       destination: Option<string>, startDate: Option<string>,
                       endDate: Option<string>, defaultCurrency: string, createdById: string)

  datatype ItemType = Place | Food

  datatype ItemStatus = Pending | Approved | Rejected

  /** A proposed place or food, voted on by the active users. */
  datatype Item = Item(id: string, title: string, kind: ItemType, status: ItemStatus,
                       description: Option<string>, location: Option<string>,
                       externalUrl: Option<string>, imageUrl: Option<string>,
                       createdById: string, tripId: string, createdAt: int)

  datatype VoteValue = Approve | Reject

  datatype Vote = Vote(userId: string, itemId: string, value: VoteValue)

  datatype InvitationStatus = InvitePending | InviteAccepted

  datatype Invitation = Invitation(id: string, email: string, invitedById: string,
                                   status: InvitationStatus, expiresAt: int,
                                   acceptedById: Option<string>)

  datatype Db = Db(users: seq<User>, trips: seq<Trip>, participants: seq<TripParticipant>,
                   items: seq<Item>, votes: seq<Vote>, invitations: seq<Invitation>)

  /** The user fields a session token carries. `status` mirrors the user's
      status as the text stored in the token. */
  datatype SessionUser = SessionUser(id: Option<string>, status: Option<string>, email: Option<string>)

  /** The text the store and the session token use for a user status. */
  function StatusText(s: UserStatus): (t: string)
    ensures t == "ACTIVE" <==> s == Active
  {
    match s
    case Active => "ACTIVE"
    case Disabled => "DISABLED"
    case Deleted => "DELETED"
  }

  /** `requireActiveSession`: the signed-in user's id, when the session has
      a truthy id and the status `"ACTIVE"`. */
  function ActiveSessionUser(session: Option<SessionUser>): (r: Option<string>)
    ensures r.Some? <==> session.Some? && Truthy(session.value.id) && session.value.status == Some("ACTIVE")
    ensures r.Some? ==> r.value != "" && session.value.id == Some(r.value)
  {
    if session.Some? && Truthy(session.value.id) && session.value.status == Some("ACTIVE")
    then Some(session.value.id.value)
    else None
  }

  // ---------------------------------------------------------------------
  // Lookups.

  /** The first user with the given id. */
  function UserById(users: seq<User>, id: string): (r: Option<User>)
    ensures r.Some? ==> r.value in users && r.value.id == id
    ensures r.None? <==> forall k :: 0 <= k < |users| ==> users[k].id != id
    decreases |users|
  {
    if users == [] then None
    else if users[0].id == id then Some(users[0])
    else UserById(users[1..], id)
  }

  /** The first user with the given email (`findUnique` on the unique
      email column). */
  function UserByEmail(users: seq<User>, email: string): (r: Option<User>)
    ensures r.Some? ==> r.value in users && r.value.email == email
    ensures r.None? <==> forall k :: 0 <= k < |users| ==> users[k].email != email
    decreases |users|
  {
    if users == [] then None
    else if users[0].email == email then Some(users[0])
    else UserByEmail(users[1..], email)
  }

  function TripById(trips: seq<Trip>, id: string): (r: Option<Trip>)
    ensures r.Some? ==> r.value in trips && r.value.id == id
    ensures r.None? <==> forall k :: 0 <= k < |trips| ==> trips[k].id != id
    decreases |trips|
  {
    if trips == [] then None
    else if trips[0].id == id then Some(trips[0])
    else TripById(trips[1..], id)
  }

  /** Number of users whose status is ACTIVE. */
  function ActiveUserCount(users: seq<User>): (n: nat)
    ensures n <= |users|
    ensures n == 0 <==> forall k :: 0 <= k < |users| ==> users[k].status != Active
    decreases |users|
  {
    if users == [] then 0
    else (if users[0].status == Active then 1 else 0) + ActiveUserCount(users[1..])
  }

  /** One more user raises the ACTIVE count exactly when that user is
      ACTIVE. */
  lemma {:induction false} ActiveUserCountAppend(users: seq<User>, u: User)
    ensures ActiveUserCount(users + [u]) == ActiveUserCount(users) + (if u.status == Active then 1 else 0)
    decreases |users|
  {
    if users == [] {
      assert [u][1..] == [];
    } else {
      assert (users + [u])[1..] == users[1..] + [u];
      ActiveUserCountAppend(users[1..], u);
    }
  }

  /** A participant counts toward a trip's electorate when it is a
      registered member of that trip whose linked user exists and is
      ACTIVE; ghosts never count. */
  predicate Eligible(users: seq<User>, p: TripParticipant, tripId: string) {
    && p.tripId == tripId
    && p.kind == Registered
    && p.userId.Some?
    && UserById(users, p.userId.value).Some?
    && UserById(users, p.userId.value).value.status == Active
  }

  /** The per-trip electorate count used at item creation. */
  function EligibleCount(users: seq<User>, ps: seq<TripParticipant>, tripId: string): (n: nat)
    ensures n <= |ps|
    ensures n == 0 <==> forall k :: 0 <= k < |ps| ==> !Eligible(users, ps[k], tripId)
    decreases |ps|
  {
    if ps == [] then 0
    else (if Eligible(users, ps[0], tripId) then 1 else 0) + EligibleCount(users, ps[1..], tripId)
  }

  /** A participant that is not eligible for the trip does not change its
      electorate. */
  lemma {:induction false} EligibleCountAppend(users: seq<User>, ps: seq<TripParticipant>,
                                               p: TripParticipant, tripId: string)
    ensures EligibleCount(users, ps + [p], tripId)
            == EligibleCount(users, ps, tripId) + (if Eligible(users, p, tripId) then 1 else 0)
    decreases |ps|
  {
    if ps == [] {
      assert [p][1..] == [];
    } else {
      assert (ps + [p])[1..] == ps[1..] + [p];
      EligibleCountAppend(users, ps[1..], p, tripId);
    }
  }

  // ---------------------------------------------------------------------
  // Majority threshold.

  /** `Math.floor(n / 2) + 1`: the smallest number of votes that is a
      strict majority of `n`. */
  function Threshold(n: nat): (t: nat)
    ensures t >= 1
    ensures 2 * t > n
    ensures t == 1 || 2 * (t - 1) <= n
    ensures t == 1 <==> n <= 1
  {
    n / 2 + 1
  }

  /** Number of votes on `itemId` with value `value`, whoever cast them. */
  function CountVotes(votes: seq<Vote>, itemId: string, value: VoteValue): (n: nat)
    ensures n <= |votes|
    ensures n == 0 <==> forall k :: 0 <= k < |votes| ==> !(votes[k].itemId == itemId && votes[k].value == value)
    decreases |votes|
  {
    if votes == [] then 0
    else (if votes[0].itemId == itemId && votes[0].value == value then 1 else 0)
         + CountVotes(votes[1..], itemId, value)
  }

  lemma {:induction false} CountVotesAppend(votes: seq<Vote>, v: Vote, itemId: string, value: VoteValue)
    ensures CountVotes(votes + [v], itemId, value)
            == CountVotes(votes, itemId, value) + (if v.itemId == itemId && v.value == value then 1 else 0)
    decreases |votes|
  {
    if votes == [] {
      assert [v][1..] == [];
    } else {
      assert (votes + [v])[1..] == votes[1..] + [v];
      CountVotesAppend(votes[1..], v, itemId, value);
    }
  }

  /** The decision the re-evaluation takes for a pending item: approval
      when approvals reach the threshold, otherwise rejection when
      rejections do, otherwise the item stays pending. */
  function Decide(approvals: nat, rejections: nat, threshold: nat): (s: ItemStatus)
    ensures s == Approved <==> approvals >= threshold
    ensures s == Rejected <==> approvals < threshold && rejections >= threshold
    ensures s == Pending <==> approvals < threshold && rejections < threshold
  {
    if approvals >= threshold then Approved
    else if rejections >= threshold then Rejected
    else Pending
  }
}

=== FILE: text.dfy ===
/** String operations of the JavaScript runtime that the modelled code
    uses: `trim`, ASCII lower-casing, `startsWith`, `split`, decimal
    printing and parsing of numbers, `padStart(2, "0")` and the `<`
    comparison of strings. A string is a sequence of characters. */
module Text {
  import opened Common

  /** The characters `String.prototype.trim` removes: the ECMAScript
      WhiteSpace and LineTerminator code points. */
  predicate IsJsWhitespace(c: char) {
    || c == '\t' || c == '\n' || c == '\U{B}' || c == '\U{C}' || c == '\r'
    || c == ' ' || c == '\U{A0}' || c == '\U{1680}'
    || ('\U{2000}' <= c <= '\U{200A}')
    || c == '\U{2028}' || c == '\U{2029}' || c == '\U{202F}' || c == '\U{205F}'
    || c == '\U{3000}' || c == '\U{FEFF}'
  }

  /** Number of leading whitespace characters of `s`. */
  function LeadingSpace(s: string): (k: nat)
    ensures k <= |s|
    ensures forall i :: 0 <= i < k ==> IsJsWhitespace(s[i])
    ensures k == |s| || !IsJsWhitespace(s[k])
  {
    if s == [] || !IsJsWhitespace(s[0]) then 0 else 1 + LeadingSpace(s[1..])
  }

  /** Number of trailing whitespace characters of `s`. */
  function TrailingSpace(s: string): (k: nat)
    ensures k <= |s|
    ensures forall i :: |s| - k <= i < |s| ==> IsJsWhitespace(s[i])
    ensures k == |s| || !IsJsWhitespace(s[|s| - 1 - k])
  {
    if s == [] || !IsJsWhitespace(s[|s| - 1]) then 0
    else 1 + TrailingSpace(s[..|s| - 1])
  }

  /** `s.trim()`: the longest slice of `s` that neither starts nor ends
      with whitespace, obtained by cutting whitespace from both ends. */
  function Trim(s: string): (r: string)
    ensures |r| <= |s|
    ensures r == [] || (!IsJsWhitespace(r[0]) && !IsJsWhitespace(r[|r| - 1]))
  {
    var a := LeadingSpace(s);
    if a == |s| then
      assert s[0..0] == [];
      []
    else
      var b := TrailingSpace(s);
      assert b < |s| - a;
      s[a..|s| - b]
  }

  /** Only an all-whitespace string trims to nothing; otherwise the
      result is `s` from its first to its last non-whitespace character. */
  lemma {:induction false} TrimContents(s: string)
    ensures Trim(s) == [] <==> forall i :: 0 <= i < |s| ==> IsJsWhitespace(s[i])
    ensures LeadingSpace(s) + |Trim(s)| <= |s|
    ensures forall i :: 0 <= i < |Trim(s)| ==> Trim(s)[i] == s[LeadingSpace(s) + i]
  {
    var a := LeadingSpace(s);
    if a < |s| {
      assert !IsJsWhitespace(s[a]);
    }
  }

  /** Trimming twice is trimming once. */
  lemma {:induction false} TrimIdempotent(s: string)
    ensures Trim(Trim(s)) == Trim(s)
  {
    var t := Trim(s);
    if t != [] {
      assert LeadingSpace(t) == 0;
      assert TrailingSpace(t) == 0;
    }
  }

  /** An optional text field (`z.string().trim().optional()`, stored with
      `?? null`): trimmed when present, absent when omitted. */
  function TrimOpt(s: Option<string>): (r: Option<string>)
    ensures r.None? <==> s.None?
    ensures r.Some? ==> r.value == Trim(s.value)
  {
    if s.Some? then Some(Trim(s.value)) else None
  }

  /** Lower-case form of an ASCII upper-case letter; every other character
      is kept. */
  function LowerChar(c: char): (r: char)
    ensures 'A' <= c <= 'Z' ==> 'a' <= r <= 'z' && r as int == c as int + 32
    ensures !('A' <= c <= 'Z') ==> r == c
  {
    if 'A' <= c <= 'Z' then (c as int + 32) as char else c
  }

  /** `s.toLowerCase()` restricted to ASCII letters. */
  function Lower(s: string): (r: string)
    ensures |r| == |s|
    ensures forall i :: 0 <= i < |s| ==> r[i] == LowerChar(s[i])
  {
    seq(|s|, i requires 0 <= i < |s| => LowerChar(s[i]))
  }

  /** Lower-casing is idempotent and so equality after lower-casing is an
      equivalence that identifies a string with its lower-cased form. */
  lemma {:induction false} LowerIdempotent(s: string)
    ensures Lower(Lower(s)) == Lower(s)
  {
  }

  /** Lower-casing never turns whitespace into non-whitespace or back. */
  lemma {:induction false} WhitespaceLower(c: char)
    ensures IsJsWhitespace(LowerChar(c)) == IsJsWhitespace(c)
  {
    if 'A' <= c <= 'Z' {
      assert 'a' <= LowerChar(c) <= 'z';
    }
  }

  /** The leading whitespace is determined by where the first
      non-whitespace character is. */
  lemma {:induction false} LeadingSpaceIs(s: string, k: nat)
    requires k <= |s|
    requires forall i :: 0 <= i < k ==> IsJsWhitespace(s[i])
    requires k == |s| || !IsJsWhitespace(s[k])
    ensures LeadingSpace(s) == k
  {
  }

  /** The trailing whitespace is determined by where the last
      non-whitespace character is. */
  lemma {:induction false} TrailingSpaceIs(s: string, k: nat)
    requires k <= |s|
    requires forall i :: |s| - k <= i < |s| ==> IsJsWhitespace(s[i])
    requires k == |s| || !IsJsWhitespace(s[|s| - 1 - k])
    ensures TrailingSpace(s) == k
  {
  }

  lemma {:induction false} LeadingSpaceLower(s: string)
    ensures LeadingSpace(Lower(s)) == LeadingSpace(s)
  {
    var k, l := LeadingSpace(s), Lower(s);
    forall i | 0 <= i < k ensures IsJsWhitespace(l[i]) {
      WhitespaceLower(s[i]);
    }
    if k < |s| {
      WhitespaceLower(s[k]);
    }
    LeadingSpaceIs(l, k);
  }

  lemma {:induction false} TrailingSpaceLower(s: string)
    ensures TrailingSpace(Lower(s)) == TrailingSpace(s)
  {
    var k, l := TrailingSpace(s), Lower(s);
    forall i | |s| - k <= i < |s| ensures IsJsWhitespace(l[i]) {
      WhitespaceLower(s[i]);
    }
    if k < |s| {
      WhitespaceLower(s[|s| - 1 - k]);
    }
    TrailingSpaceIs(l, k);
  }

  /** `Trim` as the slice between the leading and the trailing
      whitespace. */
  lemma {:induction false} TrimSlice(s: string)
    ensures LeadingSpace(s) == |s| ==> Trim(s) == []
    ensures LeadingSpace(s) < |s| ==>
      TrailingSpace(s) < |s| - LeadingSpace(s) && Trim(s) == s[LeadingSpace(s)..|s| - TrailingSpace(s)]
  {
  }

  lemma {:induction false} LowerSlice(s: string, a: nat, b: nat)
    requires a <= b <= |s|
    ensures Lower(s)[a..b] == Lower(s[a..b])
  {
  }

  /** The slice of `Lower(s)` that both sides of `TrimLower` equal. */
  function LoweredCore(s: string): string {
    var a := LeadingSpace(s);
    if a == |s| then [] else Lower(s)[a..|s| - TrailingSpace(s)]
  }

  lemma {:induction false} TrimOfLower(s: string)
    ensures Trim(Lower(s)) == LoweredCore(s)
  {
    var l, a, b := Lower(s), LeadingSpace(s), TrailingSpace(s);
    LeadingSpaceLower(s);
    TrailingSpaceLower(s);
    assert LeadingSpace(l) == a && TrailingSpace(l) == b && |l| == |s|;
    TrimSlice(l);
  }

  lemma {:induction false} LowerOfTrim(s: string)
    ensures Lower(Trim(s)) == LoweredCore(s)
  {
    TrimSlice(s);
    if LeadingSpace(s) < |s| {
      LowerSlice(s, LeadingSpace(s), |s| - TrailingSpace(s));
    }
  }

  /** Trimming and lower-casing commute. */
  lemma {:induction false} TrimLower(s: string)
    ensures Trim(Lower(s)) == Lower(Trim(s))
  {
    TrimOfLower(s);
    LowerOfTrim(s);
  }

  /** `s.startsWith(prefix)`. */
  predicate StartsWith(s: string, prefix: string) {
    |prefix| <= |s| && s[..|prefix|] == prefix
  }

  lemma {:induction false} StartsWithConcat(a: string, b: string)
    ensures StartsWith(a + b, a)
  {
    assert (a + b)[..|a|] == a;
  }

  predicate IsDigit(c: char) {
    '0' <= c <= '9'
  }

  predicate AllDigits(s: string) {
    forall i :: 0 <= i < |s| ==> IsDigit(s[i])
  }

  function DigitChar(d: nat): (c: char)
    requires d < 10
    ensures IsDigit(c)
    ensures c as int - '0' as int == d
  {
    ('0' as int + d) as char
  }

  function DigitValue(c: char): (d: nat)
    requires IsDigit(c)
    ensures d < 10
  {
    c as int - '0' as int
  }

  /** `String(n)` for a natural number: its decimal digits, without
      leading zeros. */
  function NatToString(n: nat): (r: string)
    ensures 1 <= |r|
    ensures AllDigits(r)
    ensures r[0] == '0' ==> n == 0
    ensures n < 10 <==> |r| == 1
  {
    if n < 10 then [DigitChar(n)] else NatToString(n / 10) + [DigitChar(n % 10)]
  }

  /** `String(i)` for an integer. */
  function IntToString(i: int): string {
    if i < 0 then "-" + NatToString(-i) else NatToString(i)
  }

  /** `Number(s)` for a string of decimal digits. */
  function DigitsValue(s: string): nat
    requires AllDigits(s)
  {
    if s == [] then 0 else 10 * DigitsValue(s[..|s| - 1]) + DigitValue(s[|s| - 1])
  }

  /** Printing a number and reading it back gives the number. */
  lemma {:induction false} ParsePrint(n: nat)
    ensures DigitsValue(NatToString(n)) == n
  {
    if n >= 10 {
      ParsePrint(n / 10);
      var s := NatToString(n);
      assert s[..|s| - 1] == NatToString(n / 10);
    }
  }

  /** A leading zero does not change the value of a digit string. */
  lemma {:induction false} LeadingZero(s: string)
    requires AllDigits(s)
    ensures AllDigits("0" + s) && DigitsValue("0" + s) == DigitsValue(s)
  {
    if s != [] {
      LeadingZero(s[..|s| - 1]);
      assert ("0" + s)[..|"0" + s| - 1] == "0" + s[..|s| - 1];
    }
  }

  /** `s.padStart(2, "0")`. */
  function PadStart2(s: string): (r: string)
    ensures |r| == if |s| < 2 then 2 else |s|
    ensures |s| >= 2 ==> r == s
  {
    if |s| == 0 then "00" else if |s| == 1 then "0" + s else s
  }

  /** A number below 100 printed and padded to two places has exactly two
      digits and reads back as the number. */
  lemma {:induction false} PaddedTwoDigits(n: nat)
    requires n < 100
    ensures |PadStart2(NatToString(n))| == 2
    ensures AllDigits(PadStart2(NatToString(n)))
    ensures DigitsValue(PadStart2(NatToString(n))) == n
  {
    ParsePrint(n);
    if n < 10 {
      LeadingZero(NatToString(n));
    } else {
      assert NatToString(n / 10) == [DigitChar(n / 10)];
    }
  }

  /** The `<` of JavaScript strings: lexicographic order, where a proper
      prefix is smaller. */
  predicate StrLess(a: string, b: string)
    decreases |a|
  {
    if a == [] then b != []
    else if b == [] then false
    else if a[0] != b[0] then a[0] < b[0]
    else StrLess(a[1..], b[1..])
  }

  /** No string is below itself. */
  lemma {:induction false} StrLessIrreflexive(a: string)
    ensures !StrLess(a, a)
    decreases |a|
  {
    if a != [] {
      StrLessIrreflexive(a[1..]);
    }
  }

  /** Comparing two strings that start with equally long parts compares
      the parts first and the rests only when the parts agree. */
  lemma {:induction false} StrLessConcat(a: string, b: string, c: string, d: string)
    requires |a| == |c|
    ensures StrLess(a + b, c + d) <==> StrLess(a, c) || (a == c && StrLess(b, d))
    decreases |a|
  {
    if a == [] {
      assert a + b == b && c + d == d;
    } else {
      assert (a + b)[0] == a[0] && (c + d)[0] == c[0];
      assert (a + b)[1..] == a[1..] + b && (c + d)[1..] == c[1..] + d;
      if a[0] == c[0] {
        StrLessConcat(a[1..], b, c[1..], d);
        assert a == c <==> a[1..] == c[1..] by {
          if a[1..] == c[1..] { assert a == [a[0]] + a[1..] && c == [c[0]] + c[1..]; }
        }
      }
    }
  }

  /** Two digit strings of one length with the same value are equal. */
  lemma {:induction false} DigitsValueInjective(a: string, b: string)
    requires AllDigits(a) && AllDigits(b) && |a| == |b|
    requires DigitsValue(a) == DigitsValue(b)
    ensures a == b
  {
    if a != [] {
      var a', b' := a[..|a| - 1], b[..|b| - 1];
      assert DigitValue(a[|a| - 1]) == DigitsValue(a) % 10;
      assert DigitValue(b[|b| - 1]) == DigitsValue(b) % 10;
      DigitsValueInjective(a', b');
      assert a == a' + [a[|a| - 1]] && b == b' + [b[|b| - 1]];
    }
  }

  /** For digit strings of one length, string order is numeric order. */
  lemma {:induction false} StrLessDigits(a: string, b: string)
    requires AllDigits(a) && AllDigits(b) && |a| == |b|
    ensures StrLess(a, b) <==> DigitsValue(a) < DigitsValue(b)
  {
    if a != [] {
      var a', b' := a[..|a| - 1], b[..|b| - 1];
      var x, y := a[|a| - 1], b[|b| - 1];
      assert a == a' + [x] && b == b' + [y];
      StrLessConcat(a', [x], b', [y]);
      StrLessDigits(a', b');
      if DigitsValue(a') == DigitsValue(b') {
        DigitsValueInjective(a', b');
      } else if a' == b' {
        assert false;
      }
    }
  }

  /** `s.split(sep)`: the pieces of `s` between separators. */
  function Split(s: string, sep: char): (r: seq<string>)
    ensures |r| >= 1
    decreases |s|
  {
    if sep !in s then [s]
    else
      var i := IndexOf(s, sep);
      [s[..i]] + Split(s[i + 1..], sep)
  }

  /** Splitting `a + sep + b` where `a` has no separator yields `a` first. */
  lemma {:induction false} SplitFirst(a: string, sep: char, b: string)
    requires sep !in a
    ensures Split(a + [sep] + b, sep) == [a] + Split(b, sep)
  {
    var s := a + [sep] + b;
    assert s[|a|] == sep;
    var i := IndexOf(s, sep);
    assert s[..i] == a;
    assert s[i + 1..] == b;
  }
}

=== FILE: trips_route.dfy ===
/** `GET` and `POST /api/trips` (src/app/api/trips/route.ts): the trips a
    user belongs to, and trip creation with the creator as the single
    registered ADMIN participant. */
module TripsRoute {
  import opened Common
  import opened Text
  import opened Store

  datatype CreateTripBody = CreateTripBody(name: Option<string>, description: Option<string>,
                                           destination: Option<string>, startDate: Option<string>,
                                           endDate: Option<string>, defaultCurrency: Option<string>)

  /** The body fields in schema order. */
  datatype TripField = NameField | DescriptionField | DestinationField | StartDateField | EndDateField
                     | CurrencyField

  /** The currencies a trip may default to. */
  const Currencies: seq<string> := ["CLP", "JPY", "USD", "EUR", "GBP", "KRW", "CNY", "THB"]

  const DefaultCurrency: string := "CLP"

  /** A date field passes when absent, empty, or an ISO date-time with
      offset, as the validation library's recogniser `isDateTime` says. */
  predicate DateOk(d: Option<string>, isDateTime: string -> bool) {
    d.None? || isDateTime(d.value) || d.value == ""
  }

  predicate FieldOk(b: CreateTripBody, f: TripField, isDateTime: string -> bool) {
    match f
    case NameField => b.name.Some? && 1 <= |Trim(b.name.value)| <= 255
    case DescriptionField => b.description.None? || |Trim(b.description.value)| <= 1000
    case DestinationField => b.destination.None? || |Trim(b.destination.value)| <= 500
    case StartDateField => DateOk(b.startDate, isDateTime)
    case EndDateField => DateOk(b.endDate, isDateTime)
    case CurrencyField => b.defaultCurrency.None? || b.defaultCurrency.value in Currencies
  }

  function FieldIndex(f: TripField): nat {
    match f
    case NameField => 0
    case DescriptionField => 1
    case DestinationField => 2
    case StartDateField => 3
    case EndDateField => 4
    case CurrencyField => 5
  }

  /** The fields before position `i` in schema order all pass. */
  predicate OkBefore(b: CreateTripBody, isDateTime: string -> bool, i: nat) {
    && (i > 0 ==> FieldOk(b, NameField, isDateTime))
    && (i > 1 ==> FieldOk(b, DescriptionField, isDateTime))
    && (i > 2 ==> FieldOk(b, DestinationField, isDateTime))
    && (i > 3 ==> FieldOk(b, StartDateField, isDateTime))
    && (i > 4 ==> FieldOk(b, EndDateField, isDateTime))
    && (i > 5 ==> FieldOk(b, CurrencyField, isDateTime))
  }

  lemma {:induction false} OkBeforeMeans(b: CreateTripBody, isDateTime: string -> bool, i: nat)
    ensures OkBefore(b, isDateTime, i) <==> forall f :: FieldIndex(f) < i ==> FieldOk(b, f, isDateTime)
  {
    if OkBefore(b, isDateTime, i) {
      forall f | FieldIndex(f) < i ensures FieldOk(b, f, isDateTime) {
        match f
        case NameField =>
        case DescriptionField =>
        case DestinationField =>
        case StartDateField =>
        case EndDateField =>
        case CurrencyField =>
      }
    }
    if forall f :: FieldIndex(f) < i ==> FieldOk(b, f, isDateTime) {
      assert FieldIndex(NameField) == 0 && FieldIndex(DescriptionField) == 1 && FieldIndex(DestinationField) == 2;
      assert FieldIndex(StartDateField) == 3 && FieldIndex(EndDateField) == 4 && FieldIndex(CurrencyField) == 5;
    }
  }

  /** The field `issues[0]` reports: the first in schema order that
      fails, if any. */
  function FirstFailure(b: CreateTripBody, isDateTime: string -> bool): (r: Option<TripField>)
    ensures r.None? <==> forall f :: FieldOk(b, f, isDateTime)
    ensures r.Some? ==> !FieldOk(b, r.value, isDateTime)
                        && forall f :: FieldIndex(f) < FieldIndex(r.value) ==> FieldOk(b, f, isDateTime)
  {
    if !FieldOk(b, NameField, isDateTime) then Some(NameField)
    else if !FieldOk(b, DescriptionField, isDateTime) then OkBeforeMeans(b, isDateTime, 1); Some(DescriptionField)
    else if !FieldOk(b, DestinationField, isDateTime) then OkBeforeMeans(b, isDateTime, 2); Some(DestinationField)
    else if !FieldOk(b, StartDateField, isDateTime) then OkBeforeMeans(b, isDateTime, 3); Some(StartDateField)
    else if !FieldOk(b, EndDateField, isDateTime) then OkBeforeMeans(b, isDateTime, 4); Some(EndDateField)
    else if !FieldOk(b, CurrencyField, isDateTime) then OkBeforeMeans(b, isDateTime, 5); Some(CurrencyField)
    else OkBeforeMeans(b, isDateTime, 6); None
  }

  /** A present, non-empty date is kept; an absent or empty one is stored
      as null (`startDate ? new Date(startDate) : null`). */
  function StoredDate(d: Option<string>): (r: Option<string>)
    ensures r.Some? <==> d.Some? && d.value != ""
    ensures r.Some? ==> r == d
  {
    if d.Some? && d.value != "" then d else None
  }

  /** The member name of the creator: the user's name, else the email,
      else the id (`user?.name ?? user?.email ?? userId`); an empty name is
      kept, since `??` only skips null. */
  function CreatorName(user: Option<User>, userId: string): (name: string)
    ensures user.None? ==> name == userId
    ensures user.Some? && user.value.name.Some? ==> name == user.value.name.value
    ensures user.Some? && user.value.name.None? ==> name == user.value.email
  {
    if user.None? then userId
    else if user.value.name.Some? then user.value.name.value
    else user.value.email
  }

  datatype TripResponse =
    | Unauthorized
    | InvalidJson
    | InvalidInput(field: TripField)
    /** The creator's row is missing, so the trip's foreign key fails and
        the transaction rolls back. */
    | ServerError
    | TripCreated(trip: Trip)

  /** `POST /api/trips`: `newTripId` is the id the store assigns. */
  function CreateTrip(db: Db, session: Option<SessionUser>, body: Option<CreateTripBody>,
                      isDateTime: string -> bool, newTripId: string): (r: (TripResponse, Db))
    ensures ActiveSessionUser(session).None? ==> r.0 == Unauthorized
    ensures ActiveSessionUser(session).Some? && body.None? ==> r.0 == InvalidJson
    ensures r.0.InvalidInput? ==> body.Some? && !FieldOk(body.value, r.0.field, isDateTime)
    ensures r.0.InvalidInput? ==>
      forall f :: FieldIndex(f) < FieldIndex(r.0.field) ==> FieldOk(body.value, f, isDateTime)
    ensures r.0.InvalidInput? <==>
      ActiveSessionUser(session).Some? && body.Some? && exists f :: !FieldOk(body.value, f, isDateTime)
    ensures r.0.TripCreated? <==>
      && ActiveSessionUser(session).Some? && body.Some?
      && (forall f :: FieldOk(body.value, f, isDateTime))
      && UserById(db.users, ActiveSessionUser(session).value).Some?
    ensures r.0 == ServerError <==>
      && ActiveSessionUser(session).Some? && body.Some?
      && (forall f :: FieldOk(body.value, f, isDateTime))
      && UserById(db.users, ActiveSessionUser(session).value).None?
    ensures !r.0.TripCreated? ==> r.1 == db
    ensures r.0.TripCreated? ==>
      var t := r.0.trip;
      var userId := ActiveSessionUser(session).value;
      var b := body.value;
      && t.id == newTripId && t.createdById == userId
      && b.name.Some? && t.name == Trim(b.name.value) && 1 <= |t.name| <= 255
      && t.defaultCurrency in Currencies
      && (b.defaultCurrency.None? ==> t.defaultCurrency == DefaultCurrency)
      && (b.defaultCurrency.Some? ==> t.defaultCurrency == b.defaultCurrency.value)
      && t.description == TrimOpt(b.description) && t.destination == TrimOpt(b.destination)
      && t.startDate == StoredDate(b.startDate) && t.endDate == StoredDate(b.endDate)
      && r.1 == db.(trips := db.trips + [t],
                    participants := db.participants
                      + [TripParticipant(newTripId, Some(userId),
                                         CreatorName(UserById(db.users, userId), userId), Registered, Admin)])
  {
    match ActiveSessionUser(session)
    case None => (Unauthorized, db)
    case Some(userId) =>
      if body.None? then (InvalidJson, db)
      else
        var b := body.value;
        match FirstFailure(b, isDateTime)
        case Some(f) => (InvalidInput(f), db)
        case None =>
          assert FieldOk(b, NameField, isDateTime) && FieldOk(b, CurrencyField, isDateTime);
          var user := UserById(db.users, userId);
          if user.None? then (ServerError, db)
          else
            var t := Trip(newTripId, Trim(b.name.value), TrimOpt(b.description), TrimOpt(b.destination),
                          StoredDate(b.startDate), StoredDate(b.endDate),
                          if b.defaultCurrency.Some? then b.defaultCurrency.value else DefaultCurrency, userId);
            var p := TripParticipant(newTripId, Some(userId), CreatorName(user, userId), Registered, Admin);
            (TripCreated(t), db.(trips := db.trips + [t], participants := db.participants + [p]))
  }

  /** The members of a trip, in store order. */
  function MembersOf(ps: seq<TripParticipant>, tripId: string): (r: seq<TripParticipant>)
    ensures forall p :: p in r <==> p in ps && p.tripId == tripId
    decreases |ps|
  {
    if ps == [] then []
    else (if ps[0].tripId == tripId then [ps[0]] else []) + MembersOf(ps[1..], tripId)
  }

  lemma {:induction false} MembersOfAppend(ps: seq<TripParticipant>, p: TripParticipant, tripId: string)
    ensures MembersOf(ps + [p], tripId) == MembersOf(ps, tripId) + (if p.tripId == tripId then [p] else [])
    decreases |ps|
  {
    if ps == [] {
      assert [p][1..] == [];
    } else {
      assert (ps + [p])[1..] == ps[1..] + [p];
      MembersOfAppend(ps[1..], p, tripId);
    }
  }

  lemma {:induction false} MembersOfNone(ps: seq<TripParticipant>, tripId: string)
    requires forall k :: 0 <= k < |ps| ==> ps[k].tripId != tripId
    ensures MembersOf(ps, tripId) == []
    decreases |ps|
  {
    if ps != [] {
      MembersOfNone(ps[1..], tripId);
    }
  }

  /** With an id no member row uses yet, the new trip has exactly one
      member: the creator, registered, as ADMIN; so its electorate is one
      exactly when the creator's stored status is ACTIVE. */
  lemma {:induction false} NewTripMembers(db: Db, session: Option<SessionUser>, body: Option<CreateTripBody>,
                       isDateTime: string -> bool, newTripId: string)
    requires CreateTrip(db, session, body, isDateTime, newTripId).0.TripCreated?
    requires forall k :: 0 <= k < |db.participants| ==> db.participants[k].tripId != newTripId
    ensures var db' := CreateTrip(db, session, body, isDateTime, newTripId).1;
      var userId := ActiveSessionUser(session).value;
      var members := MembersOf(db'.participants, newTripId);
      && |members| == 1
      && members[0].userId == Some(userId) && members[0].kind == Registered && members[0].role == Admin
      && EligibleCount(db'.users, db'.participants, newTripId)
         == (if UserById(db.users, userId).value.status == Active then 1 else 0)
  {
    var db' := CreateTrip(db, session, body, isDateTime, newTripId).1;
    var userId := ActiveSessionUser(session).value;
    var p := db'.participants[|db.participants|];
    assert db'.participants == db.participants + [p];
    MembersOfNone(db.participants, newTripId);
    MembersOfAppend(db.participants, p, newTripId);
    EligibleCountAppend(db.users, db.participants, p, newTripId);
    assert EligibleCount(db.users, db.participants, newTripId) == 0;
  }

  // ---------------------------------------------------------------------
  // GET /api/trips.

  /** A trip as listed, with the listing user's role in it. */
  datatype MyTrip = MyTrip(trip: Trip, myRole: Role)

  /** The trips of the user's memberships, one per membership, each with
      that membership's role. */
  function MyTrips(db: Db, userId: string, ps: seq<TripParticipant>): (r: seq<MyTrip>)
    ensures |r| <= |ps|
    decreases |ps|
  {
    if ps == [] then []
    else
      var p := ps[0];
      var head := if p.userId == Some(userId) && TripById(db.trips, p.tripId).Some?
                  then [MyTrip(TripById(db.trips, p.tripId).value, p.role)] else [];
      head + MyTrips(db, userId, ps[1..])
  }

  /** Every listed trip is a stored trip, listed for one of the user's
      memberships with that membership's role. */
  lemma {:induction false} MyTripsSound(db: Db, userId: string, ps: seq<TripParticipant>, m: MyTrip)
    requires m in MyTrips(db, userId, ps)
    ensures m.trip in db.trips
    ensures exists k :: 0 <= k < |ps| && ps[k].userId == Some(userId) && ps[k].tripId == m.trip.id
                        && ps[k].role == m.myRole
    decreases |ps|
  {
    var p := ps[0];
    if p.userId == Some(userId) && TripById(db.trips, p.tripId).Some?
       && m == MyTrip(TripById(db.trips, p.tripId).value, p.role) {
      assert ps[0].tripId == m.trip.id;
    } else {
      MyTripsSound(db, userId, ps[1..], m);
      var k :| 0 <= k < |ps[1..]| && ps[1..][k].userId == Some(userId) && ps[1..][k].tripId == m.trip.id
               && ps[1..][k].role == m.myRole;
      assert ps[k + 1] == ps[1..][k];
    }
  }

  /** Every membership of the user in a stored trip is listed, with its
      role. */
  lemma {:induction false} MyTripsComplete(db: Db, userId: string, ps: seq<TripParticipant>, k: int)
    requires 0 <= k < |ps| && ps[k].userId == Some(userId) && TripById(db.trips, ps[k].tripId).Some?
    ensures MyTrip(TripById(db.trips, ps[k].tripId).value, ps[k].role) in MyTrips(db, userId, ps)
    decreases |ps|
  {
    if k > 0 {
      assert ps[1..][k - 1] == ps[k];
      MyTripsComplete(db, userId, ps[1..], k - 1);
    }
  }

  datatype TripsResponse = TripsUnauthorized | TripList(trips: seq<MyTrip>)

  /** `GET /api/trips`. */
  function ListTrips(db: Db, session: Option<SessionUser>): (r: TripsResponse)
    ensures r.TripsUnauthorized? <==> ActiveSessionUser(session).None?
    ensures r.TripList? ==>
      var userId := ActiveSessionUser(session).value;
      forall m :: m in r.trips ==>
        && m.trip in db.trips
        && exists k :: 0 <= k < |db.participants| && db.participants[k].userId == Some(userId)
                       && db.participants[k].tripId == m.trip.id && db.participants[k].role == m.myRole
    ensures r.TripList? ==>
      var userId := ActiveSessionUser(session).value;
      forall k :: 0 <= k < |db.participants| && db.participants[k].userId == Some(userId)
                  && TripById(db.trips, db.participants[k].tripId).Some? ==>
        MyTrip(TripById(db.trips, db.participants[k].tripId).value, db.participants[k].role) in r.trips
  {
    match ActiveSessionUser(session)
    case None => TripsUnauthorized
    case Some(userId) =>
      var trips := MyTrips(db, userId, db.participants);
      ListedTripsExact(db, userId, db.participants);
      TripList(trips)
  }

  /** The listing is sound and complete for the memberships given. */
  lemma {:induction false} ListedTripsExact(db: Db, userId: string, ps: seq<TripParticipant>)
    ensures forall m :: m in MyTrips(db, userId, ps) ==>
      && m.trip in db.trips
      && exists k :: 0 <= k < |ps| && ps[k].userId == Some(userId) && ps[k].tripId == m.trip.id
                     && ps[k].role == m.myRole
    ensures forall k :: 0 <= k < |ps| && ps[k].userId == Some(userId) && TripById(db.trips, ps[k].tripId).Some? ==>
      MyTrip(TripById(db.trips, ps[k].tripId).value, ps[k].role) in MyTrips(db, userId, ps)
  {
    forall m | m in MyTrips(db, userId, ps)
      ensures m.trip in db.trips
      ensures exists k :: 0 <= k < |ps| && ps[k].userId == Some(userId) && ps[k].tripId == m.trip.id
                          && ps[k].role == m.myRole
    {
      MyTripsSound(db, userId, ps, m);
    }
    forall k | 0 <= k < |ps| && ps[k].userId == Some(userId) && TripById(db.trips, ps[k].tripId).Some?
      ensures MyTrip(TripById(db.trips, ps[k].tripId).value, ps[k].role) in MyTrips(db, userId, ps)
    {
      MyTripsComplete(db, userId, ps, k);
    }
  }
}
